=== FILE: README.md ===
# Batch interview-report generator: a verified model of its deterministic core

The modelled program turns interview transcripts into an aggregated policy report. It does so in these steps:

- It loads interview sessions and messages from two CSV tables.
- It composes a long analysis prompt from a theme (title, description, hypotheses), the transcripts and optional research notes.
- It picks a language model from a fixed catalog and checks the prompt against that model's token budget before calling it.
- Afterwards it validates the generated Markdown report against a rule table: length, citations, forbidden phrases, HTML tags and bold markup.
- It cross-references the report's `#N` citations against the sessions and summarises the data quantitatively.

This project models the part that runs around the model call and proves properties of it. One Dafny module stands for each source file:

| module | source file | form |
|---|---|---|
| `BatchAnalyze` | `src/batch-analyze.ts` | the catalog, estimates and flags are functions; `main` up to the model call is the method `PlanBatchRun` with its exits as `Outcome`s |
| `QualityCheck` | `src/utils/qualityCheck.ts` | `ValidateReportQuality` is the source's append-and-loop procedure, proved equal to the pure verdict `Validate` |
| `QuantitativeAnalysis` | `src/utils/quantitativeAnalysis.ts` | the citation `while` loop, the per-day `forEach` and the report's `push`es are methods; the rest are functions |
| `Templates` | `src/prompts/templates.ts` | pure string assembly |
| `DataLoader` | `src/utils/dataLoader.ts` | the loaders are methods over parsed rows; the formatter and the sampling choice are functions |
| `Types` | `src/types.ts` | `Hypothesis`, `ThemeConfig`, `InterviewSession`, `Message` and the research record |
| `Strings`, `Seqs`, `CountMap` | (shared) | joining and searching strings, decimal rendering and `parseInt`, filters and stable sorts, and an insertion-ordered `Map<string, number>` |

Every regular expression of the source is written as an explicit left-to-right scanner. Where it matters, a position-based reference definition sits beside the scanner, with a lemma that the two agree. JavaScript's `Map` keeps insertion order, and the top-cited ranking breaks ties by that order. `CountMap` therefore models the map as a sequence of entries rather than as a Dafny `map`.

## Model

| member | source | states |
|---|---|---|
| BatchAnalyze.CatalogLeavesRoomForInput | src/batch-analyze.ts:36-99 | every catalog model's output budget is below its context window; the default and the large model are catalog keys |
| BatchAnalyze.EstimateTokens | src/batch-analyze.ts:114-116 | the estimate is a quarter of the length rounded up (`4r-3 <= len <= 4r`), and 0 exactly for the empty text |
| BatchAnalyze.FindFlag | src/batch-analyze.ts:166-170 | a found flag is an argument starting with the prefix; none found means no argument starts with it |
| BatchAnalyze.FlagValue | src/batch-analyze.ts:167-172 | `split('=')[1]` is the text after the flag name up to the next `=` or the end: a prefix of it holding no `=`, and either all of it or followed by `=` |
| BatchAnalyze.DefaultModelWithoutFlag | src/batch-analyze.ts:168-172 | without `--model=` the requested key is `claude-3.5-sonnet` |
| BatchAnalyze.ModelFlagNamesKey | src/batch-analyze.ts:168-172 | the first `--model=K`, K free of `=`, requests exactly K |
| BatchAnalyze.NoEqualsInDecimal | src/batch-analyze.ts:167 | a decimal numeral never contains the `=` the flag is split at |
| BatchAnalyze.LimitFlagReadsNumber | src/batch-analyze.ts:166-167 | the first `--limit=N`, N written in decimal, gives the limit N |
| BatchAnalyze.InheritedNamePassesKeyCheck | src/batch-analyze.ts:174-178 | as written, `--model=toString` passes the key check though it names no model (see Findings) |
| BatchAnalyze.AutoSelect | src/batch-analyze.ts:268-276 | auto-selection gives `gemini-2.0-flash` iff the estimate exceeds 150000 and `claude-3.5-sonnet` iff not (150000 itself gets Claude); both are catalog keys |
| BatchAnalyze.GateExamples | src/batch-analyze.ts:278-298 | on `gemini-2.0-flash`, 900001 estimated tokens total 964001 and pass; 940001 total 1004001 and stop |
| BatchAnalyze.AutoSelectionGate | src/batch-analyze.ts:268-298 | under auto-selection the gate stops the run exactly when the estimate exceeds 936000 |
| BatchAnalyze.AutoSelectionNeverRecommended | src/batch-analyze.ts:268-304 | an auto-selected model never draws the large-data recommendation |
| BatchAnalyze.RecommendationIff | src/batch-analyze.ts:300-304 | for a key other than `gemini-2.0-flash` the recommendation is made iff the estimate exceeds 150000 |
| BatchAnalyze.ApplyLimit | src/batch-analyze.ts:221-224 | a positive limit keeps exactly the first min(N, count) sessions in order; a missing, zero, negative or unparsable limit keeps all |
| BatchAnalyze.SessionRefNames | src/batch-analyze.ts:248 | a reference starts with `#`; a truthy number is written so that `parseInt` reads it back; otherwise the reference is the id's first min(8, len) characters |
| BatchAnalyze.TranscriptBlockOpensWithRef | src/batch-analyze.ts:249-252 | each session's block opens with `### Session ` and its reference |
| BatchAnalyze.TranscriptBlockAt | src/batch-analyze.ts:242-253 | session k's block sits unchanged at its offset in the transcript |
| BatchAnalyze.TranscriptInSessionOrder | src/batch-analyze.ts:253 | blocks appear in session order, at least the 7-character rule apart |
| BatchAnalyze.SessionsDataBlockAt | src/batch-analyze.ts:118-126 | `formatSessionsData` holds session k's block unchanged at its offset |
| BatchAnalyze.DataBlockNamesNumber | src/batch-analyze.ts:124 | a block opens with `### Session #` and a session number that reads back |
| BatchAnalyze.PlanBatchRun | src/batch-analyze.ts:135-304 | help exactly on no args or `--help`; the unknown-model exit exactly when the key is not in the catalog (the corrected check, see Findings); the missing-theme exit exactly when the key is accepted and the slug has no theme; the no-sessions exit exactly when, further, the limited session list is empty, listing the distinct slugs; every other run ends at the token gate, stopping exactly when the composed prompt's estimate plus the chosen model's output budget exceeds its context and reporting both numbers; a ready run carries the limited slug's sessions, their messages, the composed prompt, its estimate, the auto- or hand-chosen catalog model, a total within budget and the recommendation flag |
| BatchAnalyze.AnalyzeTheme | src/batch-analyze.ts:219-262 | the no-sessions exit exactly when the slug's sessions cut to the limit are none, listing the distinct slugs of all sessions; otherwise the theme's prompt over those sessions and their messages goes through the token gate with the gate's outcome |
| BatchAnalyze.GateTokens | src/batch-analyze.ts:264-304 | with `--auto-model` the size-chosen model replaces the requested key, which then need not be a catalog key; the token-limit exit happens iff estimate plus output budget exceeds the chosen model's context, reporting both numbers; otherwise the plan carries that model, estimate, total and recommendation |
| CountMap.TallySpec | src/utils/quantitativeAnalysis.ts:119-133 | counting keys one by one into a map gives the distinct keys in order of first occurrence, each mapped to its multiplicity, with total equal to the number counted |
| CountMap.TallyDistinct | src/utils/quantitativeAnalysis.ts:131-132 | such a map never holds a key twice |
| CountMap.IncrementGet | src/utils/quantitativeAnalysis.ts:131-132 | `set(k, (get(k) \|\| 0) + 1)` raises k's count by one and leaves every other key's count alone |
| CountMap.IncrementKeys | src/utils/quantitativeAnalysis.ts:131-132 | a new key is appended at the end; an existing key keeps its place |
| CountMap.IncrementTotal | src/utils/quantitativeAnalysis.ts:131-132 | each increment raises the total by one |
| DataLoader.RowDefaults | src/utils/dataLoader.ts:20-57 | missing columns with an empty fallback read as `''` (slug, status, date, session id, content, timestamp); an empty or missing session number is absent; a decimal number reads back; messages carry no token count |
| DataLoader.SessionsForSpec | src/utils/dataLoader.ts:20-35 | without a slug every row is kept in row order; with one, exactly the rows of that slug |
| DataLoader.LoadSessions | src/utils/dataLoader.ts:11-36 | the reassigning loader returns exactly the specified filtered sessions |
| DataLoader.MessagesForSpec | src/utils/dataLoader.ts:50-64 | an empty id list keeps every message; a non-empty one keeps exactly the messages of those sessions; none has a token count |
| DataLoader.LoadMessages | src/utils/dataLoader.ts:41-65 | the reassigning loader returns exactly the specified filtered messages |
| DataLoader.DialogueLineShape | src/utils/dataLoader.ts:78 | the label is `User` exactly for role `user` (`Assistant` otherwise), and the content ends the line unchanged |
| DataLoader.SessionBlockAt | src/utils/dataLoader.ts:74-91 | session k's block sits unchanged at its offset in the output |
| DataLoader.SessionBlocksInOrder | src/utils/dataLoader.ts:91 | blocks appear in session order, separated by a blank line |
| DataLoader.OwnMessagesSpec | src/utils/dataLoader.ts:75 | a block carries exactly the messages of its session |
| DataLoader.DialogueLineAt | src/utils/dataLoader.ts:77-85 | the i-th message of a session appears as its line at its offset in the block |
| DataLoader.DialogueInLoadOrder | src/utils/dataLoader.ts:77-79 | lines follow the order in which the messages were loaded |
| DataLoader.TokenTotalUncounted | src/utils/dataLoader.ts:105-108 | messages without token counts total 0 |
| DataLoader.SelectTopSessions | src/utils/dataLoader.ts:105-119 | at most topN sessions are chosen (exactly min(topN, count)); the messages returned are the loaded messages of the chosen sessions, in load order and with repeated rows kept |
| DataLoader.SelectedHeaviestFirst | src/utils/dataLoader.ts:112-115 | the chosen sessions come in non-increasing token total |
| DataLoader.SelectedAreHeaviest | src/utils/dataLoader.ts:112-115 | a session left out weighs no more than any chosen one |
| DataLoader.UncountedKeepsLoadOrder | src/utils/dataLoader.ts:105-115 | with no token counts the stable sort returns the first topN sessions in load order |
| DataLoader.SampleTopSessionsByTokens | src/utils/dataLoader.ts:97-122 | on loaded rows the sample is the first topN sessions of the slug, and its messages are the message rows of those sessions in row order, repeats kept |
| QualityCheck.CitationCountPositive | src/utils/qualityCheck.ts:56-57 | the scanner counts a citation exactly when `#\d+\|#[a-f0-9]{8}` can match somewhere |
| QualityCheck.StrippedAroundQuote | src/utils/qualityCheck.ts:67-69 | stripping removes exactly a `"…"(#digits)` span from plain text around it |
| QualityCheck.HasHtmlTagIff | src/utils/qualityCheck.ts:90-92 | the tag scanner fires iff some `<`, one or more non-`>` characters, `>` occur |
| QualityCheck.HasBoldIff | src/utils/qualityCheck.ts:95-97 | the bold scanner fires iff some `**`, non-empty star-free text, `**` occur |
| QualityCheck.ScanPhrases | src/utils/qualityCheck.ts:72-87 | one phrase loop records each listed phrase present exactly once, in table order, with one diagnostic each |
| QualityCheck.ValidateReportQuality | src/utils/qualityCheck.ts:43-111 | the step-by-step procedure returns exactly the verdict `Validate`, a function of the report alone, so two calls on one report agree |
| QualityCheck.ValidatePassedIff | src/utils/qualityCheck.ts:56-99 | `passed` iff there is a citation, no HTML tag and no listed phrase in the stripped text; length, density and bold never decide it |
| QualityCheck.ValidateCounts | src/utils/qualityCheck.ts:46-97 | `charCount` is the length; errors = no-citation + one per phrase found + tag; warnings = at most one length warning + few-citations + bold |
| QualityCheck.ForbiddenPhrasesDistinct | src/utils/qualityCheck.ts:17-38 | no phrase is listed twice in the two tables |
| QualityCheck.ForbiddenPhrasesReported | src/utils/qualityCheck.ts:72-108 | the phrases reported are the listed ones in the stripped text, quantity phrases then value judgments, in table order, none twice |
| QualityCheck.SpeakerLineMatches | src/utils/qualityCheck.ts:69-69 | the speaker-line pattern matches a lowercase label in double asterisks, `: ` and the rest of the line, stopping at the line break |
| QualityCheck.StrippedAroundSpeakerLine | src/utils/qualityCheck.ts:67-69 | stripping removes exactly a `**label**: …` line from plain text around it |
| QualityCheck.SpeakerPhraseExempt | src/utils/qualityCheck.ts:67-87 | around one speaker line, a phrase is reported iff it occurs in the surrounding text, whatever the line says |
| QualityCheck.QuotedPhraseExempt | src/utils/qualityCheck.ts:67-87 | around one quoted citation, a phrase is reported iff it occurs in the surrounding text, whatever the quotation says |
| QualityCheck.HtmlTagFails | src/utils/qualityCheck.ts:90-99 | any tag in the raw report adds the tag error and fails it |
| QualityCheck.NoCitationFails | src/utils/qualityCheck.ts:56-99 | a report with no citation marker gets the citation error and fails |
| QuantitativeAnalysis.RoundDiv | src/utils/quantitativeAnalysis.ts:106 | `Math.round(a/b)` is the nearest integer, halves up |
| QuantitativeAnalysis.MessagesPerSession | src/utils/quantitativeAnalysis.ts:56-58 | one count per session, in order, of that session's messages |
| QuantitativeAnalysis.AverageTenths | src/utils/quantitativeAnalysis.ts:60-76 | the mean in tenths, rounded half up; none for no sessions |
| QuantitativeAnalysis.SortAscending | src/utils/quantitativeAnalysis.ts:61 | the numeric sort is ascending and a permutation |
| QuantitativeAnalysis.MedianIsUpperMedian | src/utils/quantitativeAnalysis.ts:61-62 | the median is one of the counts, at most n/2 lie below it and more than n/2 at or below it |
| QuantitativeAnalysis.MedianOfEvenCount | src/utils/quantitativeAnalysis.ts:62 | [1,3,5,7] gives 5 |
| QuantitativeAnalysis.MedianOfOddCount | src/utils/quantitativeAnalysis.ts:62 | [2,4,6] gives 4 |
| QuantitativeAnalysis.AverageExample | src/utils/quantitativeAnalysis.ts:60-76 | [2,4,6] averages 4.0 (40 tenths) |
| QuantitativeAnalysis.DatePart | src/utils/quantitativeAnalysis.ts:67 | the day is the prefix of `createdAt` before its first `T` |
| QuantitativeAnalysis.CountSessionsPerDay | src/utils/quantitativeAnalysis.ts:65-69 | the per-day map has each day once, in first-seen order, is present exactly for days of some session, and its counts add up to the number of sessions |
| QuantitativeAnalysis.CitationNumbersAreDigits | src/utils/quantitativeAnalysis.ts:122-126 | every `#(\d+)` match captures a non-empty digit run |
| QuantitativeAnalysis.CitationNumbersNonEmpty | src/utils/quantitativeAnalysis.ts:122-125 | the pattern matches iff some `#` is followed by a digit |
| QuantitativeAnalysis.FirstWithNumberSpec | src/utils/quantitativeAnalysis.ts:129 | `find` stops at the first session whose number prints as the digits |
| QuantitativeAnalysis.CitedIdsAreSessionIds | src/utils/quantitativeAnalysis.ts:129-133 | only ids of sessions are counted |
| QuantitativeAnalysis.ResolveMatchAt | src/utils/quantitativeAnalysis.ts:125-129 | reading `#` and its digits at a position and resolving them with `find` gives exactly the step's hit and resume position |
| QuantitativeAnalysis.CitationLoopStep | src/utils/quantitativeAnalysis.ts:125-134 | one turn of the loop keeps its invariant: the resolved id, if any, is counted once more, and the ids still to count are those after the resume position |
| QuantitativeAnalysis.CitedIdsStep | src/utils/quantitativeAnalysis.ts:125-134 | one `exec` step: the ids counted from a position are the one resolved there, then those from where the search resumes |
| QuantitativeAnalysis.AnalyzeCitationsInReport | src/utils/quantitativeAnalysis.ts:115-137 | the loop's map is the tally of the resolved ids of all matches, in report order |
| QuantitativeAnalysis.CitationDistributionSpec | src/utils/quantitativeAnalysis.ts:119-136 | keys are session ids, distinct, in first-citation order; each value is that session's citation count; values sum to at most the number of matches |
| QuantitativeAnalysis.LeadingZeroNotCited | src/utils/quantitativeAnalysis.ts:129-130 | a leading-zero number such as `#007` resolves to nothing |
| QuantitativeAnalysis.CitationResolvesToFirst | src/utils/quantitativeAnalysis.ts:129-132 | a match is counted for the first session whose number prints as its digits |
| QuantitativeAnalysis.FirstWithId | src/utils/quantitativeAnalysis.ts:151 | `find` by id stops at the first session with that id |
| QuantitativeAnalysis.GetTopCitedSessions | src/utils/quantitativeAnalysis.ts:142-160 | min(topN, entries) items with non-increasing counts |
| QuantitativeAnalysis.TopCitedFromDistribution | src/utils/quantitativeAnalysis.ts:147-157 | each ranked item is a map entry with its count and the first matching session's number |
| QuantitativeAnalysis.TopCitedAreTop | src/utils/quantitativeAnalysis.ts:158-159 | no entry left out was cited more than one kept |
| QuantitativeAnalysis.TopCitedTiesInMapOrder | src/utils/quantitativeAnalysis.ts:147-159 | items with equal counts keep map (first-citation) order |
| QuantitativeAnalysis.AnalyzeQuantitativeData | src/utils/quantitativeAnalysis.ts:44-83 | totals are the list lengths and role counts; average and median are those of the per-session counts; citations start empty; the per-day counts are the tally of the session dates, so each day maps to its number of sessions, in first-seen order, and the counts add up to the session count |
| QuantitativeAnalysis.RoleTotalsCoverAll | src/utils/quantitativeAnalysis.ts:52-75 | with every role user or assistant, the two role totals add up to all messages |
| QuantitativeAnalysis.AnalyzeSessionDetails | src/utils/quantitativeAnalysis.ts:88-110 | one record per session in order, with its id, number and date, its messages counted in all and by the user and assistant roles, and the mean length rounded (0 without messages) |
| QuantitativeAnalysis.SessionDetailsAddUp | src/utils/quantitativeAnalysis.ts:93-105 | per session, messages = user + assistant messages, agreeing with the summary's count |
| QuantitativeAnalysis.CitedRows | src/utils/quantitativeAnalysis.ts:190-192 | row k shows rank k+1 with the k-th ranked session |
| QuantitativeAnalysis.SortByDateSpec | src/utils/quantitativeAnalysis.ts:201-202 | the day table is in date order and a permutation of the map's entries |
| QuantitativeAnalysis.PushCitedSection | src/utils/quantitativeAnalysis.ts:185-194 | the push loop appends exactly the ranking section |
| QuantitativeAnalysis.PushDaySection | src/utils/quantitativeAnalysis.ts:196-208 | the push loop appends exactly the day section |
| QuantitativeAnalysis.GenerateQuantitativeReport | src/utils/quantitativeAnalysis.ts:165-211 | the report is the header lines, then the two sections, joined by newlines |
| QuantitativeAnalysis.CitedSectionShape | src/utils/quantitativeAnalysis.ts:185-194 | the ranking table appears exactly when something was cited: heading, one row per ranked session, blank line |
| QuantitativeAnalysis.DaySectionShape | src/utils/quantitativeAnalysis.ts:196-208 | the day table appears exactly when there is a day, listing every day once in date order with its count |
| QuantitativeAnalysis.SerializeLosesOnlyDistribution | src/utils/quantitativeAnalysis.ts:216-228 | serialising drops exactly the citation distribution: restored with it, the stats come back unchanged |
| Templates.ExtractionPromptEmbedsArguments | src/prompts/templates.ts:8-45 | title, description and sample sessions sit verbatim at offsets fixed by the lengths before them, between unchanged wording |
| Templates.HypothesisEntries | src/prompts/templates.ts:51-54 | entry k is `仮説{k+1}: category\ndescription` of the k-th hypothesis |
| Templates.FormatHypothesesForPrompt | src/prompts/templates.ts:50-56 | the text is empty iff there are no hypotheses |
| Templates.HypothesesInListOrder | src/prompts/templates.ts:50-56 | every entry appears numbered by position, each ending before the next begins |
| Templates.Description | src/prompts/templates.ts:84 | the interview's description when non-empty, else the theme's |
| Templates.OptionalBlocksOmittedWhenEmpty | src/prompts/templates.ts:85-120 | the overview, themes, questions and knowledge blocks are empty iff their source is missing or empty |
| Templates.ResearchBody | src/prompts/templates.ts:99 | the full content when non-empty, else the summary |
| Templates.KeyFindingsBlock | src/prompts/templates.ts:101-103 | the numbered findings list is empty iff there are no findings |
| Templates.DeepResearchBlockRules | src/prompts/templates.ts:93-105 | no research means no block; otherwise the block names the title, carries the body, then the findings list |
| Templates.SessionDataEmbeddedVerbatim | src/prompts/templates.ts:134-140 | the session data lands verbatim at an offset independent of it, with the same text around it |
| Templates.HypothesesInPrompt | src/prompts/templates.ts:81-130 | the formatted hypotheses appear in the prompt at their offset |
| Templates.ReportHeaderInPrompt | src/prompts/templates.ts:148-184 | the prompt contains `# {title} - 集約レポート` |
| Templates.DescriptionInPrompt | src/prompts/templates.ts:112-115 | the chosen description follows the theme's opening line |
| Templates.PromptContainsArguments | src/prompts/templates.ts:107-194 | whatever the wording, the prompt contains the header, the session data, the hypotheses and the description |

## Left out

- File and environment I/O are not modelled: `fs.readFileSync`, `csv-parse`, `dotenv`, and writing the report and its metadata (src/batch-analyze.ts:306-374). The loaders take the parsed CSV rows as a parameter.
- `src/utils/llm.ts` (the network call, its timeout and response parsing) is not part of this model. `PlanBatchRun` stops where the model would be called.
- `log_analyzer.py` is not part of this model; it is the superseded Python predecessor of the quantitative summary.
- `src/config/index.ts` and the theme files are not part of this model. `getThemeConfig` is the `themes` map parameter of `PlanBatchRun`.
- `loadDeepResearch` (file existence, extension dispatch, JSON parsing, timestamps) is the `loadDeepResearch` function parameter of `PlanBatchRun`.
- Console output is not modelled: the help text, progress logs, `printQualityCheckResult`, `printQuantitativeStats`. The help exit is the `ShowHelp` outcome.
- `process.exit(1)` and the thrown error for a missing theme are outcomes of `PlanBatchRun`, not process termination.
- `QuantitativeAnalysis.HeaderLines`: `toLocaleString` depends on the locale and is the `localeString` parameter. `toFixed(1)` is modelled on integer tenths.
- `QuantitativeAnalysis.AnalyzeQuantitativeData`: the analysis date comes from the clock and is a parameter.
- `QuantitativeAnalysis.AverageTenths`: floating point is not modelled. `Math.round(avg * 10) / 10` is the exact rational mean rounded half up to tenths, so binary rounding of doubles is not captured. NaN (no sessions) is `None`, and so is an `undefined` median.
- `QuantitativeAnalysis.SortByDate`: `localeCompare` is modelled as code-point order on the date strings. This agrees for the ISO dates the tables hold, not for arbitrary text.
- `Strings.ParseInt`: `parseInt` without a radix skips leading white space, reads one sign, a `0x` prefix or decimal digits, and stops at the first other character. The model covers all of this; `NaN` is `None` and `-0` is 0. What is not modelled is the loss of precision above 2^53, because the result is an unbounded integer.
- All string lengths count `char`s, whereas JavaScript's `length` counts UTF-16 code units. This affects `EstimateTokens`, the length rules of `Validate` and `AnalyzeSessionDetails` for characters outside the Basic Multilingual Plane.
- Optional string fields read with `|| ''` are plain strings, with `""` standing for absent. Absent and empty behave alike in every modelled use. An absent `id` column reads as `""` rather than `undefined`.
- `Templates.InterviewConfig`: the untyped `questions` entries are records of `topic` and `mainQuestion`, which are the only two fields the composer reads. A missing list is the empty list.
- `BatchAnalyze.PlanBatchRun`: the prompt wording is a parameter. `main` uses `Templates.ANALYSIS_TEXT`, and the template lemmas hold for every wording. The interview configuration `main` passes is always `undefined`, modelled as `None`.
- `QualityCheck.Validate`: the phrase tables are a parameter. `QualityCheck.FORBIDDEN_PHRASES` holds the source's two lists, which is the value the source always uses.
- `BatchAnalyze.PlanBatchRun`: the model-key check is the intended one, `KnownModel` (catalog keys only), not the lookup as written (see Findings). As written, an inherited name such as `toString` without `--auto-model` passes the check and the run then fails with a `TypeError` at src/batch-analyze.ts:285; that failure is not an outcome of the model. With `--auto-model` as well, the source accepts such a name and replaces it at line 270 or 273, so the run is normal, while `PlanBatchRun` returns `UnknownModel`.
- `DataLoader.RowDefaults`: `id` (src/utils/dataLoader.ts:21 and 51) and `role` (line 53) are read without `|| ''`, so a table without those columns gives `undefined`, which the transcript would print as `**undefined**: …`. The model reads a missing column as `""` for these too.
- The default arguments `topN = 5` of `sampleTopSessionsByTokens` (src/utils/dataLoader.ts:99) and `topN = 10` of `getTopCitedSessions` (src/utils/quantitativeAnalysis.ts:145) are not modelled; `topN` is always a parameter. Nothing in the source calls `sampleTopSessionsByTokens`, and the only call of `getTopCitedSessions` (src/batch-analyze.ts:329) passes 10.
- `QualityCheck.StrippedAroundSpeakerLine`: the speaker line holds no quotation mark. A quoted citation on such a line is removed by the first pass and the rest of the line by the second, which the lemma does not state.
- `QualityCheck.SpeakerPhraseExempt`: the same restriction to speaker lines without a quotation mark.
- `QuantitativeAnalysis.SerializeStats`: the per-day counts stay an ordered list of entries. `Object.fromEntries` moves keys made of digits alone ahead of the other keys, and that reordering is not modelled.
- `TOKENS_PER_BATCH`, `ESTIMATED_PROMPT_OVERHEAD` and `PROMPT_VERSION` are declared but never used in the modelled path, so they are not modelled.
- The part of `main` after the model call (timing, report validation call site, file output) is not modelled; the validator and the summariser it calls are modelled on their own.

## Findings

| source | as written | input that shows it | evidently intended | confidence | as-written member | corrected member |
|---|---|---|---|---|---|---|
| src/batch-analyze.ts:174-178 | `!AVAILABLE_MODELS[selectedModelKey]` looks the key up on a plain object literal, so names inherited from `Object.prototype` are found too | `npx ts-node src/batch-analyze.ts <slug> --model=toString` with a known theme and sessions: the key passes the check, `modelConfig` is the inherited `toString` function, so `modelName` is `"toString"` and `maxOutputTokens` is `undefined`; line 285 then throws a `TypeError` on `maxOutputTokens.toLocaleString()`, and `main().catch` (lines 382-385) exits with status 1 instead of the "Unknown model" exit. With `--auto-model` as well, the key is replaced at line 270 or 273 and the run is normal | only catalog keys pass; any other key exits with "Unknown model" | not executed | BatchAnalyze.InheritedNamePassesKeyCheck | BatchAnalyze.PlanBatchRun |

=== FILE: BatchAnalyze.dfy ===
/**
 * The batch driver's decisions before and around the model call: the model
 * catalog, the token estimate, command-line flags, automatic model choice,
 * the token-budget gate, the session limit, the transcript with its session
 * references, and the large-data recommendation.
 */
module BatchAnalyze {
  import opened Types
  import opened Strings
  import opened Seqs
  import DataLoader
  import Templates

  datatype ModelConfig = ModelConfig(name: string, maxContextTokens: nat, maxOutputTokens: nat, description: string)

  /** `AVAILABLE_MODELS`. */
  const AVAILABLE_MODELS: map<string, ModelConfig> := map[
    "claude-3.5-sonnet" := ModelConfig("anthropic/claude-3.5-sonnet", 200000, 16000, "高速・高品質（200Kトークン制限）"),
    "claude-3.7-sonnet" := ModelConfig("anthropic/claude-3.7-sonnet", 200000, 16000, "Claude 3.7 Sonnet（200Kトークン制限）"),
    "claude-sonnet-4" := ModelConfig("anthropic/claude-sonnet-4", 200000, 16000, "Claude Sonnet 4最新版（200Kトークン制限）"),
    "gemini-2.0-flash" := ModelConfig("google/gemini-2.0-flash-exp:free", 1000000, 64000, "Gemini 2.0 Flash（1Mトークン・無料）"),
    "gemini-2.0-flash-thinking" := ModelConfig("google/gemini-2.0-flash-thinking-exp:free", 1000000, 64000, "Gemini 2.0 Flash思考モード（1Mトークン・無料）"),
    "gemini-exp-1206" := ModelConfig("google/gemini-exp-1206:free", 2000000, 64000, "Gemini実験版1206（2Mトークン・無料）"),
    "gemini-2.5-pro" := ModelConfig("google/gemini-2.5-pro-exp-0827:free", 2000000, 64000, "Gemini 2.5 Pro実験版（2Mトークン・無料）"),
    "grok-2" := ModelConfig("x-ai/grok-2-1212", 131072, 32768, "Grok 2最新版（131Kトークン制限）"),
    "grok-vision" := ModelConfig("x-ai/grok-2-vision-1212", 32768, 16384, "Grok 2 Vision（32Kトークン制限）"),
    "deepseek-chat" := ModelConfig("deepseek/deepseek-chat", 64000, 8000, "DeepSeek Chat（64Kトークン・高速）")
  ]

  const DEFAULT_MODEL: string := "claude-3.5-sonnet"
  const LARGE_MODEL: string := "gemini-2.0-flash"

  /** Above this many estimated tokens the data counts as large. */
  const LARGE_DATA_THRESHOLD: nat := 150000

  /** Every model leaves room for input: its output budget is below its context window. */
  lemma CatalogLeavesRoomForInput()
    ensures forall k :: k in AVAILABLE_MODELS ==>
      AVAILABLE_MODELS[k].maxOutputTokens < AVAILABLE_MODELS[k].maxContextTokens
    ensures DEFAULT_MODEL in AVAILABLE_MODELS && LARGE_MODEL in AVAILABLE_MODELS
  {
  }

  // ---------------------------------------------------------------------------
  // Token estimate

  /** `estimateTokens`: a quarter of the length, rounded up. */
  function EstimateTokens(text: string): (r: nat)
    ensures 4 * r - 3 <= |text| <= 4 * r
    ensures r == 0 <==> |text| == 0
  {
    (|text| + 3) / 4
  }

  // ---------------------------------------------------------------------------
  // Command-line flags

  /** `args.find(arg => arg.startsWith(prefix))`. */
  function FindFlag(args: seq<string>, prefix: string): (r: Option<string>)
    ensures r.Some? ==> r.value in args && prefix <= r.value
    ensures r.None? ==> forall a :: a in args ==> !(prefix <= a)
  {
    if |args| == 0 then None
    else if prefix <= args[0] then Some(args[0])
    else
      assert forall a :: a in args ==> a == args[0] || a in args[1..];
      FindFlag(args[1..], prefix)
  }

  /**
   * `flag.split('=')[1]` for a flag whose name ends in its only `=`: the text
   * after the name, up to any further `=`.
   */
  function FlagValue(flag: string, prefix: string): (r: string)
    requires prefix <= flag
    ensures r <= flag[|prefix|..] && '=' !in r
    ensures r == flag[|prefix|..] || flag[|prefix| + |r|] == '='
  {
    var rest := flag[|prefix|..];
    rest[..IndexOf(rest, '=')]
  }

  /** The model key asked for: the `--model=` value, or the default without the flag. */
  function RequestedModelKey(args: seq<string>): string {
    match FindFlag(args, "--model=")
    case Some(flag) => FlagValue(flag, "--model=")
    case None => DEFAULT_MODEL
  }

  /** The session limit: `parseInt` of the `--limit=` value; `None` without the flag or on `NaN`. */
  function SessionLimit(args: seq<string>): Option<int> {
    match FindFlag(args, "--limit=")
    case Some(flag) => ParseInt(FlagValue(flag, "--limit="))
    case None => None
  }

  /** The research path; an empty one counts as none. */
  function DeepResearchPath(args: seq<string>): Option<string> {
    match FindFlag(args, "--deep-research=")
    case Some(flag) =>
      var path := FlagValue(flag, "--deep-research=");
      if path == "" then None else Some(path)
    case None => None
  }

  /** Without `--model=` the run uses `claude-3.5-sonnet`. */
  lemma DefaultModelWithoutFlag(args: seq<string>)
    requires forall a :: a in args ==> !("--model=" <= a)
    ensures RequestedModelKey(args) == "claude-3.5-sonnet"
  {
  }

  /** `--model=K` asks for `K` when no earlier argument starts with `--model=`. */
  lemma ModelFlagNamesKey(before: seq<string>, key: string, after: seq<string>)
    requires forall a :: a in before ==> !("--model=" <= a)
    requires '=' !in key
    ensures RequestedModelKey(before + ["--model=" + key] + after) == key
  {
    var args := before + ["--model=" + key] + after;
    var flag := "--model=" + key;
    FindFlagFirst(before, flag, after, "--model=");
    assert flag[|"--model="|..] == key;
  }

  /** The search stops at the first argument that starts with the prefix. */
  lemma {:induction false} FindFlagAt(args: seq<string>, k: nat, prefix: string)
    requires k < |args| && prefix <= args[k]
    requires forall i :: 0 <= i < k ==> !(prefix <= args[i])
    ensures FindFlag(args, prefix) == Some(args[k])
    decreases k
  {
    if k > 0 {
      assert !(prefix <= args[0]);
      var rest := args[1..];
      assert forall i :: 0 <= i < k - 1 ==> rest[i] == args[i + 1];
      FindFlagAt(rest, k - 1, prefix);
    }
  }

  lemma FindFlagFirst(before: seq<string>, flag: string, after: seq<string>, prefix: string)
    requires forall a :: a in before ==> !(prefix <= a)
    requires prefix <= flag
    ensures FindFlag(before + [flag] + after, prefix) == Some(flag)
  {
    var args := before + [flag] + after;
    assert args[|before|] == flag;
    forall i | 0 <= i < |before| ensures !(prefix <= args[i]) {
      assert args[i] == before[i] && before[i] in before;
    }
    FindFlagAt(args, |before|, prefix);
  }

  /** A decimal rendering never holds the `=` that `split('=')` would cut at. */
  lemma NoEqualsInDecimal(n: int)
    ensures '=' !in IntToString(n)
  {
    var m: nat := if n < 0 then -n else n;
    var d := NatToString(m);
    assert Canonical(d);
    if n < 0 {
      assert IntToString(n) == "-" + d;
      forall i | 0 <= i < |IntToString(n)| ensures IntToString(n)[i] != '=' {
        if i > 0 {
          assert IntToString(n)[i] == d[i - 1];
        }
      }
    } else {
      assert forall i :: 0 <= i < |d| ==> IsDigit(d[i]);
    }
  }

  /** `--limit=N` with `N` written in decimal gives the limit `N`. */
  lemma LimitFlagReadsNumber(before: seq<string>, n: int, after: seq<string>)
    requires forall a :: a in before ==> !("--limit=" <= a)
    ensures SessionLimit(before + ["--limit=" + IntToString(n)] + after) == Some(n)
  {
    var digits := IntToString(n);
    var flag := "--limit=" + digits;
    FindFlagFirst(before, flag, after, "--limit=");
    assert flag[|"--limit="|..] == digits;
    NoEqualsInDecimal(n);
    assert digits[..IndexOf(digits, '=')] == digits;
    ParseIntOfToString(n);
  }

  // ---------------------------------------------------------------------------
  // Model choice and the token gate

  /**
   * The key check as written: a lookup on a plain object, which also finds the
   * names every object inherits, so those pass the check.
   */
  const INHERITED_NAMES: set<string> := {
    "constructor", "hasOwnProperty", "isPrototypeOf", "propertyIsEnumerable", "toLocaleString",
    "toString", "valueOf", "__proto__", "__defineGetter__", "__defineSetter__",
    "__lookupGetter__", "__lookupSetter__"
  }

  predicate KeyCheckPassesAsWritten(key: string) {
    key in AVAILABLE_MODELS || key in INHERITED_NAMES
  }

  /** `--model=toString` passes the check as written yet names no model. */
  lemma InheritedNamePassesKeyCheck()
    ensures KeyCheckPassesAsWritten("toString") && "toString" !in AVAILABLE_MODELS
  {
  }

  /** The intended key check: the key names a catalog entry. */
  predicate KnownModel(key: string) {
    key in AVAILABLE_MODELS
  }

  /** `--auto-model`: the large-context model above the threshold, Claude 3.5 Sonnet otherwise. */
  function AutoSelect(estimatedTokens: nat): (key: string)
    ensures key in AVAILABLE_MODELS
    ensures key == "gemini-2.0-flash" <==> estimatedTokens > 150000
    ensures key == "claude-3.5-sonnet" <==> estimatedTokens <= 150000
  {
    if estimatedTokens > LARGE_DATA_THRESHOLD then LARGE_MODEL else DEFAULT_MODEL
  }

  /** Input estimate plus the model's output budget. */
  function TotalTokens(key: string, estimatedTokens: nat): nat
    requires key in AVAILABLE_MODELS
  {
    estimatedTokens + AVAILABLE_MODELS[key].maxOutputTokens
  }

  /** The gate: the run goes ahead only when the total fits the model's context. */
  predicate WithinBudget(key: string, estimatedTokens: nat)
    requires key in AVAILABLE_MODELS
  {
    TotalTokens(key, estimatedTokens) <= AVAILABLE_MODELS[key].maxContextTokens
  }

  /** With the large-context model, 900001 estimated tokens pass and 940001 stop the run. */
  lemma GateExamples()
    ensures TotalTokens("gemini-2.0-flash", 900001) == 964001 && WithinBudget("gemini-2.0-flash", 900001)
    ensures TotalTokens("gemini-2.0-flash", 940001) == 1004001 && !WithinBudget("gemini-2.0-flash", 940001)
  {
  }

  /**
   * Under automatic choice the gate stops the run exactly when the estimate
   * exceeds 936000: the small model always fits what it is chosen for.
   */
  lemma AutoSelectionGate(estimatedTokens: nat)
    ensures WithinBudget(AutoSelect(estimatedTokens), estimatedTokens) <==> estimatedTokens <= 936000
  {
  }

  /** The recommendation to switch to the large-context model. */
  predicate RecommendLargeModel(estimatedTokens: nat, key: string) {
    estimatedTokens > LARGE_DATA_THRESHOLD && key != LARGE_MODEL
  }

  /** Automatic choice never draws the recommendation. */
  lemma AutoSelectionNeverRecommended(estimatedTokens: nat)
    ensures !RecommendLargeModel(estimatedTokens, AutoSelect(estimatedTokens))
  {
  }

  /** A model chosen by hand is pointed at the large-context model exactly when the data is large. */
  lemma RecommendationIff(estimatedTokens: nat, key: string)
    requires key != "gemini-2.0-flash"
    ensures RecommendLargeModel(estimatedTokens, key) <==> estimatedTokens > 150000
  {
  }

  // ---------------------------------------------------------------------------
  // Session limit

  /** `if (sessionLimit && sessionLimit > 0) sessions = sessions.slice(0, sessionLimit)`. */
  function ApplyLimit(sessions: seq<InterviewSession>, sessionLimit: Option<int>): (r: seq<InterviewSession>)
    ensures r <= sessions
    ensures sessionLimit.Some? && sessionLimit.value > 0 ==>
      |r| == if sessionLimit.value < |sessions| then sessionLimit.value else |sessions|
    ensures !(sessionLimit.Some? && sessionLimit.value > 0) ==> r == sessions
  {
    if sessionLimit.Some? && sessionLimit.value > 0 then SliceTo(sessions, sessionLimit.value) else sessions
  }

  // ---------------------------------------------------------------------------
  // The transcript sent to the model

  /** `#<sessionNumber>` for a truthy session number, else `#` and the first eight characters of the id. */
  function SessionRef(session: InterviewSession): string {
    if HasTruthyNumber(session) then "#" + IntToString(session.sessionNumber.value)
    else "#" + session.id[..if |session.id| < 8 then |session.id| else 8]
  }

  /**
   * A session with a truthy number is referred to by that number, read back by
   * `parseInt`; any other session by at most eight leading characters of its id.
   */
  lemma SessionRefNames(session: InterviewSession)
    ensures SessionRef(session)[0] == '#'
    ensures HasTruthyNumber(session) ==> ParseInt(SessionRef(session)[1..]) == Some(session.sessionNumber.value)
    ensures !HasTruthyNumber(session) ==>
      SessionRef(session)[1..] <= session.id && |SessionRef(session)[1..]| == if |session.id| < 8 then |session.id| else 8
  {
    var r := SessionRef(session);
    if HasTruthyNumber(session) {
      assert r[1..] == IntToString(session.sessionNumber.value);
      ParseIntOfToString(session.sessionNumber.value);
    } else {
      assert r[1..] == session.id[..if |session.id| < 8 then |session.id| else 8];
    }
  }

  function OfSession(id: string): Message -> bool {
    (m: Message) => m.sessionId == id
  }

  /** `**<role>**: <content>`, the role as stored. */
  function RawLine(m: Message): string {
    "**" + m.role + "**: " + m.content
  }

  function TranscriptBlock(messages: seq<Message>): InterviewSession -> string {
    (session: InterviewSession) => TranscriptHead(session) + TranscriptBody(session, messages)
  }

  function TranscriptBlocks(sessions: seq<InterviewSession>, messages: seq<Message>): seq<string> {
    Map(sessions, TranscriptBlock(messages))
  }

  /** The session text `main` builds: one block per session, separated by a rule. */
  function FormatTranscript(sessions: seq<InterviewSession>, messages: seq<Message>): string {
    Join(TranscriptBlocks(sessions, messages), "\n\n---\n\n")
  }

  /** The first line of a session's block names the session by its reference. */
  function TranscriptHead(session: InterviewSession): string {
    "### Session " + SessionRef(session)
  }

  /** What follows the first line: the status line and the dialogue. */
  function TranscriptBody(session: InterviewSession, messages: seq<Message>): string {
    "\nStatus: " + session.status + "\n\n" + Join(Map(Filter(messages, OfSession(session.id)), RawLine), "\n\n")
  }

  /** A block opens with its session's reference. */
  lemma TranscriptBlockOpensWithRef(session: InterviewSession, messages: seq<Message>)
    ensures var block := TranscriptBlock(messages)(session);
      |TranscriptHead(session)| <= |block| && block[..|TranscriptHead(session)|] == TranscriptHead(session)
  {
    var head := TranscriptHead(session);
    var body := TranscriptBody(session, messages);
    assert TranscriptBlock(messages)(session) == head + body;
    SliceOfPrefix(head, body, 0, |head|);
  }

  /** Session `k`'s block is found at its offset. */
  lemma TranscriptBlockAt(sessions: seq<InterviewSession>, messages: seq<Message>, k: nat)
    requires k < |sessions|
    ensures var o := JoinOffset(TranscriptBlocks(sessions, messages), "\n\n---\n\n", k);
      var block := TranscriptBlock(messages)(sessions[k]);
      && o + |block| <= |FormatTranscript(sessions, messages)|
      && FormatTranscript(sessions, messages)[o..o + |block|] == block
  {
    JoinMapSlot(sessions, TranscriptBlock(messages), "\n\n---\n\n", k);
  }

  /** Blocks come in session order, a rule apart. */
  lemma TranscriptInSessionOrder(sessions: seq<InterviewSession>, messages: seq<Message>, k: nat, l: nat)
    requires k < l < |sessions|
    ensures JoinOffset(TranscriptBlocks(sessions, messages), "\n\n---\n\n", k) + |TranscriptBlock(messages)(sessions[k])| + 7
         <= JoinOffset(TranscriptBlocks(sessions, messages), "\n\n---\n\n", l)
  {
    JoinOffsetsOrdered(TranscriptBlocks(sessions, messages), "\n\n---\n\n", k, l);
  }

  // ---------------------------------------------------------------------------
  // formatSessionsData

  datatype SessionMessage = SessionMessage(role: string, content: string, timestamp: string)

  /** `SessionData`: a session with its number and its messages. */
  datatype SessionData = SessionData(id: string, sessionNumber: int, messages: seq<SessionMessage>)

  function DataLine(m: SessionMessage): string {
    "**" + m.role + "**: " + m.content
  }

  function DataRest(session: SessionData): string {
    "\n\n" + Join(Map(session.messages, DataLine), "\n\n")
  }

  function DataBlock(session: SessionData): string {
    "### Session #" + IntToString(session.sessionNumber) + DataRest(session)
  }

  function DataBlocks(sessions: seq<SessionData>): seq<string> {
    Map(sessions, DataBlock)
  }

  /** `formatSessionsData`. */
  function FormatSessionsData(sessions: seq<SessionData>): string {
    Join(DataBlocks(sessions), "\n\n---\n\n")
  }

  /** Session `k`'s block is found at its offset. */
  lemma SessionsDataBlockAt(sessions: seq<SessionData>, k: nat)
    requires k < |sessions|
    ensures var o := JoinOffset(DataBlocks(sessions), "\n\n---\n\n", k);
      && o + |DataBlock(sessions[k])| <= |FormatSessionsData(sessions)|
      && FormatSessionsData(sessions)[o..o + |DataBlock(sessions[k])|] == DataBlock(sessions[k])
  {
    JoinMapSlot(sessions, DataBlock, "\n\n---\n\n", k);
  }

  /** A block opens with `### Session #` and the session number, which reads back. */
  lemma DataBlockNamesNumber(session: SessionData)
    ensures var number := IntToString(session.sessionNumber);
      && 13 + |number| <= |DataBlock(session)|
      && DataBlock(session)[..13] == "### Session #"
      && ParseInt(DataBlock(session)[13..13 + |number|]) == Some(session.sessionNumber)
  {
    var number := IntToString(session.sessionNumber);
    var rest := DataRest(session);
    assert DataBlock(session) == "### Session #" + number + rest;
    Slot("### Session #", number, rest);
    ParseIntOfToString(session.sessionNumber);
  }

  // ---------------------------------------------------------------------------
  // The run up to the model call

  /** A run that is ready for the model call. */
  datatype Plan = Plan(
    modelKey: string,
    model: ModelConfig,
    sessions: seq<InterviewSession>,
    messages: seq<Message>,
    prompt: string,
    estimatedTokens: nat,
    totalTokens: nat,
    recommendLargeModel: bool)

  /** How the run ends before the model call, or that it reaches it. */
  datatype Outcome =
    | ShowHelp
    | UnknownModel(key: string)
    | NoThemeConfig(slug: string)
    | NoSessions(availableSlugs: seq<string>)
    | TokenLimitExceeded(totalTokens: nat, maxContextTokens: nat)
    | Ready(plan: Plan)

  function ConfigSlug(s: InterviewSession): string {
    s.configSlug
  }

  function IdOf(s: InterviewSession): string {
    s.id
  }

  /**
   * `main` up to the model call.  The theme table, the research loader and the
   * two CSV tables are parameters; the console output is not modelled.  The
   * prompt wording is a parameter as well: `main` composes with
   * `Templates.ANALYSIS_TEXT`, so with that argument `prompt` is exactly
   * `Templates.GenerateAnalysisPrompt` of the same inputs.  The key check is
   * the intended one, `KnownModel`: the lookup as written also lets the names
   * of `InheritedNamePassesKeyCheck` through, and such a run then fails on the
   * missing output budget before the token gate.
   */
  method PlanBatchRun(args: seq<string>, themes: map<string, ThemeConfig>,
                      loadDeepResearch: string -> Option<DeepResearch>,
                      sessionRows: seq<DataLoader.Row>, messageRows: seq<DataLoader.Row>,
                      wording: Templates.AnalysisText)
    returns (outcome: Outcome)
    ensures outcome.ShowHelp? <==> |args| == 0 || "--help" in args
    ensures outcome.UnknownModel? <==>
      !(|args| == 0 || "--help" in args) && !KnownModel(RequestedModelKey(args))
    ensures outcome.NoThemeConfig? <==>
      !(|args| == 0 || "--help" in args) && KnownModel(RequestedModelKey(args)) && args[0] !in themes
    ensures outcome.NoSessions? <==>
      && !(|args| == 0 || "--help" in args) && KnownModel(RequestedModelKey(args)) && args[0] in themes
      && ApplyLimit(DataLoader.SessionsFor(sessionRows, args[0]), SessionLimit(args)) == []
    ensures outcome.NoSessions? ==>
      outcome.availableSlugs == Dedup(Map(DataLoader.SessionsFor(sessionRows, ""), ConfigSlug))
    ensures outcome.TokenLimitExceeded? ==> outcome.totalTokens > outcome.maxContextTokens
    ensures
      && !(|args| == 0 || "--help" in args) && KnownModel(RequestedModelKey(args)) && args[0] in themes
      && ApplyLimit(DataLoader.SessionsFor(sessionRows, args[0]), SessionLimit(args)) != []
      ==>
      var sessions := ApplyLimit(DataLoader.SessionsFor(sessionRows, args[0]), SessionLimit(args));
      var messages := DataLoader.MessagesFor(messageRows, Map(sessions, IdOf));
      var prompt := Templates.AnalysisPrompt(wording, themes[args[0]], FormatTranscript(sessions, messages), None,
        match DeepResearchPath(args) case Some(path) => loadDeepResearch(path) case None => None);
      var est := EstimateTokens(prompt);
      var key := if "--auto-model" in args then AutoSelect(est) else RequestedModelKey(args);
      && (outcome.TokenLimitExceeded? || outcome.Ready?)
      && (outcome.TokenLimitExceeded? <==> !WithinBudget(key, est))
      && (outcome.TokenLimitExceeded? ==>
            outcome.totalTokens == TotalTokens(key, est)
            && outcome.maxContextTokens == AVAILABLE_MODELS[key].maxContextTokens)
    ensures outcome.Ready? ==>
      var p := outcome.plan;
      && |args| > 0 && args[0] in themes
      && p.modelKey in AVAILABLE_MODELS && p.model == AVAILABLE_MODELS[p.modelKey]
      && p.sessions == ApplyLimit(DataLoader.SessionsFor(sessionRows, args[0]), SessionLimit(args))
      && |p.sessions| > 0
      && p.messages == DataLoader.MessagesFor(messageRows, Map(p.sessions, IdOf))
      && p.prompt == Templates.AnalysisPrompt(wording, themes[args[0]], FormatTranscript(p.sessions, p.messages), None,
           match DeepResearchPath(args) case Some(path) => loadDeepResearch(path) case None => None)
      && p.estimatedTokens == EstimateTokens(p.prompt)
      && p.modelKey == (if "--auto-model" in args then AutoSelect(p.estimatedTokens) else RequestedModelKey(args))
      && p.totalTokens == TotalTokens(p.modelKey, p.estimatedTokens)
      && WithinBudget(p.modelKey, p.estimatedTokens)
      && p.recommendLargeModel == RecommendLargeModel(p.estimatedTokens, p.modelKey)
  {
    if |args| == 0 || "--help" in args {
      return ShowHelp;
    }
    var slug := args[0];
    var autoModel := "--auto-model" in args;
    var selectedModelKey := RequestedModelKey(args);
    if !KnownModel(selectedModelKey) {
      return UnknownModel(selectedModelKey);
    }
    var research: Option<DeepResearch> := None;
    var path := DeepResearchPath(args);
    if path.Some? {
      research := loadDeepResearch(path.value);
    }
    if slug !in themes {
      return NoThemeConfig(slug);
    }
    outcome := AnalyzeTheme(slug, themes[slug], SessionLimit(args), research, sessionRows, messageRows, wording,
                            selectedModelKey, autoModel);
  }

  /**
   * The run once the theme is found: load its sessions, cut them to the limit,
   * stop when none are left, otherwise load their messages, compose the prompt
   * and pass it to the token gate.
   */
  method AnalyzeTheme(slug: string, themeConfig: ThemeConfig, sessionLimit: Option<int>,
                      research: Option<DeepResearch>,
                      sessionRows: seq<DataLoader.Row>, messageRows: seq<DataLoader.Row>,
                      wording: Templates.AnalysisText, requestedKey: string, autoModel: bool)
    returns (outcome: Outcome)
    requires autoModel || KnownModel(requestedKey)
    ensures outcome.NoSessions? <==> ApplyLimit(DataLoader.SessionsFor(sessionRows, slug), sessionLimit) == []
    ensures outcome.NoSessions? ==>
      outcome.availableSlugs == Dedup(Map(DataLoader.SessionsFor(sessionRows, ""), ConfigSlug))
    ensures !outcome.NoSessions? ==>
      var sessions := ApplyLimit(DataLoader.SessionsFor(sessionRows, slug), sessionLimit);
      var messages := DataLoader.MessagesFor(messageRows, Map(sessions, IdOf));
      var prompt := Templates.AnalysisPrompt(wording, themeConfig, FormatTranscript(sessions, messages), None, research);
      var est := EstimateTokens(prompt);
      var key := if autoModel then AutoSelect(est) else requestedKey;
      && (outcome.TokenLimitExceeded? || outcome.Ready?)
      && (outcome.TokenLimitExceeded? <==> !WithinBudget(key, est))
      && (outcome.TokenLimitExceeded? ==>
            outcome.totalTokens == TotalTokens(key, est)
            && outcome.maxContextTokens == AVAILABLE_MODELS[key].maxContextTokens
            && outcome.totalTokens > outcome.maxContextTokens)
      && (outcome.Ready? ==>
            outcome.plan == Plan(key, AVAILABLE_MODELS[key], sessions, messages, prompt, est,
                                 TotalTokens(key, est), RecommendLargeModel(est, key)))
  {
    var sessions := DataLoader.LoadSessions(sessionRows, slug);
    if sessionLimit.Some? && sessionLimit.value > 0 {
      sessions := SliceTo(sessions, sessionLimit.value);
    }
    if |sessions| == 0 {
      var allSessions := DataLoader.LoadSessions(sessionRows, "");
      return NoSessions(Dedup(Map(allSessions, ConfigSlug)));
    }
    var messages := DataLoader.LoadMessages(messageRows, Map(sessions, IdOf));
    var sessionsText := FormatTranscript(sessions, messages);
    var prompt := Templates.AnalysisPrompt(wording, themeConfig, sessionsText, None, research);
    outcome := GateTokens(requestedKey, autoModel, sessions, messages, prompt);
  }

  /**
   * The end of the run before the model call: estimate the prompt's tokens,
   * let `--auto-model` pick the model by size, stop when the total exceeds the
   * model's context, and note whether the large model would be the better choice.
   */
  method GateTokens(requestedKey: string, autoModel: bool, sessions: seq<InterviewSession>,
                    messages: seq<Message>, prompt: string)
    returns (outcome: Outcome)
    requires autoModel || KnownModel(requestedKey)
    ensures outcome.TokenLimitExceeded? || outcome.Ready?
    ensures var key := if autoModel then AutoSelect(EstimateTokens(prompt)) else requestedKey;
      && (outcome.TokenLimitExceeded? <==> !WithinBudget(key, EstimateTokens(prompt)))
      && (outcome.TokenLimitExceeded? ==>
            outcome.totalTokens == TotalTokens(key, EstimateTokens(prompt))
            && outcome.maxContextTokens == AVAILABLE_MODELS[key].maxContextTokens
            && outcome.totalTokens > outcome.maxContextTokens)
      && (outcome.Ready? ==>
            outcome.plan == Plan(key, AVAILABLE_MODELS[key], sessions, messages, prompt, EstimateTokens(prompt),
                                 TotalTokens(key, EstimateTokens(prompt)),
                                 RecommendLargeModel(EstimateTokens(prompt), key)))
  {
    var selectedModelKey := requestedKey;
    var estimatedTokens := EstimateTokens(prompt);
    if autoModel {
      selectedModelKey := AutoSelect(estimatedTokens);
    }
    var modelConfig := AVAILABLE_MODELS[selectedModelKey];
    var totalTokens := estimatedTokens + modelConfig.maxOutputTokens;
    if totalTokens > modelConfig.maxContextTokens {
      return TokenLimitExceeded(totalTokens, modelConfig.maxContextTokens);
    }
    var recommend := estimatedTokens > LARGE_DATA_THRESHOLD && selectedModelKey != LARGE_MODEL;
    outcome := Ready(Plan(selectedModelKey, modelConfig, sessions, messages, prompt,
                          estimatedTokens, totalTokens, recommend));
  }
}

=== FILE: CountMap.dfy ===
/**
 * A JavaScript `Map<string, number>` used as a counter.  A JavaScript map
 * iterates in insertion order, and that order decides ties in the ranking
 * of cited sessions, so the map is an association list whose entries stay
 * in the order their keys were first set.
 */
module CountMap {
  import opened Types
  import opened Seqs

  datatype Entry = Entry(key: string, count: nat)

  type Counts = seq<Entry>

  function Keys(m: Counts): seq<string> {
    if |m| == 0 then [] else [m[0].key] + Keys(m[1..])
  }

  /** `m.get(k)`. */
  function Get(m: Counts, k: string): Option<nat> {
    if |m| == 0 then None else if m[0].key == k then Some(m[0].count) else Get(m[1..], k)
  }

  /** `m.set(k, (m.get(k) || 0) + 1)`: an existing key keeps its place. */
  function Increment(m: Counts, k: string): Counts {
    if |m| == 0 then [Entry(k, 1)]
    else if m[0].key == k then [Entry(k, m[0].count + 1)] + m[1..]
    else [m[0]] + Increment(m[1..], k)
  }

  /** The sum of all counts. */
  function Total(m: Counts): nat {
    if |m| == 0 then 0 else m[0].count + Total(m[1..])
  }

  predicate DistinctKeys(m: Counts) {
    forall i, j :: 0 <= i < j < |m| ==> m[i].key != m[j].key
  }

  lemma {:induction false} KeysShape(m: Counts)
    ensures |Keys(m)| == |m|
    ensures forall i :: 0 <= i < |m| ==> Keys(m)[i] == m[i].key
  {
    if |m| > 0 {
      KeysShape(m[1..]);
    }
  }

  lemma {:induction false} GetPresent(m: Counts, k: string)
    ensures Get(m, k).Some? <==> k in Keys(m)
  {
    if |m| > 0 {
      GetPresent(m[1..], k);
    }
  }

  /** With distinct keys, each entry is what a lookup of its key finds. */
  lemma {:induction false} GetAt(m: Counts, k: nat)
    requires DistinctKeys(m) && k < |m|
    ensures Get(m, m[k].key) == Some(m[k].count)
  {
    if k > 0 {
      GetAt(m[1..], k - 1);
    }
  }

  lemma {:induction false} IncrementGet(m: Counts, k: string, d: string)
    ensures Get(Increment(m, k), d)
         == if d == k then Some(Get(m, k).GetOr(0) + 1) else Get(m, d)
  {
    if |m| > 0 && m[0].key != k {
      IncrementGet(m[1..], k, d);
    }
  }

  lemma {:induction false} IncrementKeys(m: Counts, k: string)
    ensures Keys(Increment(m, k)) == if k in Keys(m) then Keys(m) else Keys(m) + [k]
  {
    if |m| > 0 && m[0].key != k {
      IncrementKeys(m[1..], k);
    }
  }

  lemma {:induction false} IncrementTotal(m: Counts, k: string)
    ensures Total(Increment(m, k)) == Total(m) + 1
  {
    if |m| > 0 && m[0].key != k {
      IncrementTotal(m[1..], k);
    }
  }

  /**
   * The counter after feeding it `ks` one key at a time, as a `for`/`while` loop
   * that calls `Increment` does.
   */
  function Tally(ks: seq<string>): Counts {
    if |ks| == 0 then [] else Increment(Tally(ks[..|ks| - 1]), ks[|ks| - 1])
  }

  /** Feeding one more key is one more `Increment`. */
  lemma TallySnoc(ks: seq<string>, k: string)
    ensures Tally(ks + [k]) == Increment(Tally(ks), k)
  {
    assert (ks + [k])[..|ks|] == ks;
  }

  /**
   * What the counter holds after a tally: each key counts its occurrences, the keys
   * are the distinct inputs in first-occurrence order, and the counts add up to the
   * number of keys fed in.
   */
  lemma {:induction false} TallySpec(ks: seq<string>)
    ensures forall d :: Get(Tally(ks), d) == if d in ks then Some(multiset(ks)[d]) else None
    ensures Keys(Tally(ks)) == Dedup(ks)
    ensures Total(Tally(ks)) == |ks|
  {
    if |ks| > 0 {
      var pre, k := ks[..|ks| - 1], ks[|ks| - 1];
      TallySpec(pre);
      assert ks == pre + [k];
      IncrementTotal(Tally(pre), k);
      IncrementKeys(Tally(pre), k);
      GetPresent(Tally(pre), k);
      forall d ensures Get(Tally(ks), d) == if d in ks then Some(multiset(ks)[d]) else None {
        IncrementGet(Tally(pre), k, d);
      }
    }
  }

  /** The keys of a tally are distinct, as those of a JavaScript map are. */
  lemma TallyDistinct(ks: seq<string>)
    ensures DistinctKeys(Tally(ks))
  {
    TallySpec(ks);
    KeysShape(Tally(ks));
  }
}

=== FILE: DataLoader.dfy ===
/**
 * The loader's deterministic part: turning parsed CSV rows into sessions and
 * messages with their defaults, the slug and session-id filters, the plain
 * transcript formatter, and the choice of the sessions with the most tokens.
 * Reading and parsing the files is left to the caller, which hands over the
 * rows.
 */
module DataLoader {
  import opened Types
  import opened Strings
  import opened Seqs

  /** A parsed CSV row: column name to cell text. */
  type Row = map<string, string>

  /** `row.column || ''`: an absent column reads as the empty string. */
  function Cell(row: Row, column: string): string {
    if column in row then row[column] else ""
  }

  /** `row.session_number ? parseInt(row.session_number) : undefined`. */
  function SessionNumberCell(cell: string): Option<int> {
    if cell == "" then None else ParseInt(cell)
  }

  /** The session record `loadSessions` builds from one row. */
  function RowToSession(row: Row): InterviewSession {
    InterviewSession(
      Cell(row, "id"),
      Cell(row, "slug"),
      Cell(row, "user_id"),
      Cell(row, "status"),
      Cell(row, "created_at"),
      Cell(row, "updated_at"),
      SessionNumberCell(Cell(row, "session_number")))
  }

  /** The message record `loadMessages` builds from one row; the table has no token counts. */
  function RowToMessage(row: Row): Message {
    Message(
      Cell(row, "id"),
      Cell(row, "session_id"),
      Cell(row, "role"),
      Cell(row, "content"),
      Cell(row, "timestamp"),
      None)
  }

  /**
   * Missing columns read as empty, an empty session number is absent, and a
   * session number written as `toString` writes it reads back as that number.
   */
  lemma RowDefaults(row: Row)
    ensures "slug" !in row ==> RowToSession(row).configSlug == ""
    ensures "status" !in row ==> RowToSession(row).status == ""
    ensures "created_at" !in row ==> RowToSession(row).createdAt == ""
    ensures "session_number" !in row || row["session_number"] == "" ==> RowToSession(row).sessionNumber == None
    ensures forall n: int :: "session_number" in row && row["session_number"] == IntToString(n) ==>
      RowToSession(row).sessionNumber == Some(n)
    ensures "session_id" !in row ==> RowToMessage(row).sessionId == ""
    ensures "content" !in row ==> RowToMessage(row).content == ""
    ensures "timestamp" !in row ==> RowToMessage(row).timestamp == ""
    ensures RowToMessage(row).tokenCount == None
  {
    forall n: int | "session_number" in row && row["session_number"] == IntToString(n)
      ensures RowToSession(row).sessionNumber == Some(n)
    {
      ParseIntOfToString(n);
      assert IntToString(n) != "" by {
        if n >= 0 {
          assert Canonical(NatToString(n));
        }
      }
    }
  }

  // ---------------------------------------------------------------------------
  // Filters

  function HasSlug(slug: string): InterviewSession -> bool {
    (s: InterviewSession) => s.configSlug == slug
  }

  /** The sessions `loadSessions(slug)` returns: every row, or those of the slug when one is given. */
  function SessionsFor(rows: seq<Row>, slug: string): seq<InterviewSession> {
    var all := Map(rows, RowToSession);
    if slug == "" then all else Filter(all, HasSlug(slug))
  }

  /** Without a slug every row is kept, in row order; with one, exactly the rows of that slug. */
  lemma SessionsForSpec(rows: seq<Row>, slug: string)
    ensures slug == "" ==> SessionsFor(rows, slug) == Map(rows, RowToSession)
    ensures slug != "" ==> forall s ::
      s in SessionsFor(rows, slug) <==> s in Map(rows, RowToSession) && s.configSlug == slug
  {
    FilterIff(Map(rows, RowToSession), HasSlug(slug));
  }

  /** `loadSessions`, on the parsed rows of the sessions table. */
  method LoadSessions(rows: seq<Row>, slug: string) returns (sessions: seq<InterviewSession>)
    ensures sessions == SessionsFor(rows, slug)
    ensures |sessions| <= |rows|
  {
    sessions := Map(rows, RowToSession);
    if slug != "" {
      sessions := Filter(sessions, HasSlug(slug));
    }
  }

  function InSessions(sessionIds: seq<string>): Message -> bool {
    (m: Message) => m.sessionId in sessionIds
  }

  /** The messages `loadMessages(sessionIds)` returns. */
  function MessagesFor(rows: seq<Row>, sessionIds: seq<string>): seq<Message> {
    var all := Map(rows, RowToMessage);
    if |sessionIds| == 0 then all else Filter(all, InSessions(sessionIds))
  }

  /**
   * An empty id list filters nothing; a non-empty one keeps exactly the
   * messages of those sessions.  No message carries a token count.
   */
  lemma MessagesForSpec(rows: seq<Row>, sessionIds: seq<string>)
    ensures |sessionIds| == 0 ==> MessagesFor(rows, sessionIds) == Map(rows, RowToMessage)
    ensures |sessionIds| > 0 ==> forall m ::
      m in MessagesFor(rows, sessionIds) <==> m in Map(rows, RowToMessage) && m.sessionId in sessionIds
    ensures forall m :: m in MessagesFor(rows, sessionIds) ==> m.tokenCount == None
  {
    FilterIff(Map(rows, RowToMessage), InSessions(sessionIds));
  }

  /** `loadMessages`, on the parsed rows of the messages table. */
  method LoadMessages(rows: seq<Row>, sessionIds: seq<string>) returns (messages: seq<Message>)
    ensures messages == MessagesFor(rows, sessionIds)
    ensures |messages| <= |rows|
  {
    messages := Map(rows, RowToMessage);
    if |sessionIds| > 0 {
      messages := Filter(messages, InSessions(sessionIds));
    }
  }

  // ---------------------------------------------------------------------------
  // formatSessionsForPrompt

  function OfSession(id: string): Message -> bool {
    (m: Message) => m.sessionId == id
  }

  /** `**User**: …` for a user message, `**Assistant**: …` for any other role. */
  function DialogueLine(m: Message): string {
    "**" + (if m.role == "user" then "User" else "Assistant") + "**: " + m.content
  }

  /** The label names the user exactly when the role is `user`, and the content follows it unchanged. */
  lemma DialogueLineShape(m: Message)
    ensures DialogueLine(m)[2] == 'U' <==> m.role == "user"
    ensures |DialogueLine(m)| >= |m.content|
    ensures DialogueLine(m)[|DialogueLine(m)| - |m.content|..] == m.content
  {
    var name := if m.role == "user" then "User" else "Assistant";
    assert DialogueLine(m) == ("**" + name + "**: ") + m.content;
    assert DialogueLine(m)[2] == name[0];
  }

  function Dialogue(messages: seq<Message>): string {
    Join(Map(messages, DialogueLine), "\n\n")
  }

  /** The header lines of a session block, up to its dialogue. */
  function BlockHeader(session: InterviewSession): string {
    "## Session ID: " + session.id + "\nStatus: " + session.status + "\nCreated: " + session.createdAt + "\n\n"
  }

  function SessionBlock(messages: seq<Message>): InterviewSession -> string {
    (session: InterviewSession) => BlockHeader(session) + Dialogue(OwnMessages(session, messages)) + "\n\n---\n"
  }

  /** `formatSessionsForPrompt`. */
  function FormatSessionsForPrompt(sessions: seq<InterviewSession>, messages: seq<Message>): string {
    Join(Blocks(sessions, messages), "\n\n")
  }

  /** The blocks `formatSessionsForPrompt` joins, one per session, in session order. */
  function Blocks(sessions: seq<InterviewSession>, messages: seq<Message>): seq<string> {
    Map(sessions, SessionBlock(messages))
  }

  /** Session `k`'s block is found, unchanged, at its offset in the output. */
  lemma SessionBlockAt(sessions: seq<InterviewSession>, messages: seq<Message>, k: nat)
    requires k < |sessions|
    ensures var o := JoinOffset(Blocks(sessions, messages), "\n\n", k);
      var block := SessionBlock(messages)(sessions[k]);
      && o + |block| <= |FormatSessionsForPrompt(sessions, messages)|
      && FormatSessionsForPrompt(sessions, messages)[o..o + |block|] == block
  {
    JoinMapSlot(sessions, SessionBlock(messages), "\n\n", k);
  }

  /** A later session's block starts after an earlier one's and the separator between them. */
  lemma SessionBlocksInOrder(sessions: seq<InterviewSession>, messages: seq<Message>, k: nat, l: nat)
    requires k < l < |sessions|
    ensures JoinOffset(Blocks(sessions, messages), "\n\n", k) + |SessionBlock(messages)(sessions[k])| + 2
         <= JoinOffset(Blocks(sessions, messages), "\n\n", l)
  {
    JoinOffsetsOrdered(Blocks(sessions, messages), "\n\n", k, l);
  }

  /** The messages of one session, in load order. */
  function OwnMessages(session: InterviewSession, messages: seq<Message>): seq<Message> {
    Filter(messages, OfSession(session.id))
  }

  /** A session's block carries exactly that session's messages. */
  lemma OwnMessagesSpec(session: InterviewSession, messages: seq<Message>)
    ensures forall m :: m in OwnMessages(session, messages) <==> m in messages && m.sessionId == session.id
  {
    FilterIff(messages, OfSession(session.id));
  }

  /** Where the `i`-th message's line starts inside its session's block. */
  function LineOffset(session: InterviewSession, messages: seq<Message>, i: nat): nat
    requires i <= |OwnMessages(session, messages)|
  {
    |BlockHeader(session)| + JoinOffset(Map(OwnMessages(session, messages), DialogueLine), "\n\n", i)
  }

  /** The `i`-th message of the session appears as its dialogue line at its offset in the block. */
  lemma DialogueLineAt(session: InterviewSession, messages: seq<Message>, i: nat)
    requires i < |OwnMessages(session, messages)|
    ensures var line := DialogueLine(OwnMessages(session, messages)[i]);
      var o := LineOffset(session, messages, i);
      && o + |line| <= |SessionBlock(messages)(session)|
      && SessionBlock(messages)(session)[o..o + |line|] == line
  {
    var lines := Map(OwnMessages(session, messages), DialogueLine);
    var header := BlockHeader(session);
    var d := Dialogue(OwnMessages(session, messages));
    var r := JoinOffset(lines, "\n\n", i);
    JoinSlot(lines, "\n\n", i);
    SliceOfSuffix(header, d, r, r + |lines[i]|);
    SliceOfPrefix(header + d, "\n\n---\n", |header| + r, |header| + r + |lines[i]|);
  }

  /** The lines follow the order the messages were loaded in. */
  lemma DialogueInLoadOrder(session: InterviewSession, messages: seq<Message>, i: nat, j: nat)
    requires i < j < |OwnMessages(session, messages)|
    ensures LineOffset(session, messages, i) + |DialogueLine(OwnMessages(session, messages)[i])|
         <= LineOffset(session, messages, j)
  {
    JoinOffsetsOrdered(Map(OwnMessages(session, messages), DialogueLine), "\n\n", i, j);
  }

  // ---------------------------------------------------------------------------
  // sampleTopSessionsByTokens

  /** `messages.reduce((sum, m) => sum + (m.tokenCount || 0), 0)`. */
  function TokenTotal(messages: seq<Message>): nat {
    if |messages| == 0 then 0 else TokenTotal(messages[..|messages| - 1]) + messages[|messages| - 1].tokenCount.GetOr(0)
  }

  /** Messages without token counts add up to nothing. */
  lemma {:induction false} TokenTotalUncounted(messages: seq<Message>)
    requires forall m :: m in messages ==> m.tokenCount == None
    ensures TokenTotal(messages) == 0
  {
    if |messages| > 0 {
      assert messages[..|messages| - 1][0..] == messages[..|messages| - 1];
      forall m | m in messages[..|messages| - 1] ensures m.tokenCount == None {
        var i :| 0 <= i < |messages| - 1 && messages[..|messages| - 1][i] == m;
        assert messages[i] == m;
      }
      TokenTotalUncounted(messages[..|messages| - 1]);
    }
  }

  /** A session paired with the token total of its messages. */
  datatype Weighed = Weighed(session: InterviewSession, totalTokens: nat)

  function WeighWith(allMessages: seq<Message>): InterviewSession -> Weighed {
    (s: InterviewSession) => Weighed(s, TokenTotal(Filter(allMessages, OfSession(s.id))))
  }

  function TotalOf(w: Weighed): int {
    w.totalTokens
  }

  function SessionOf(w: Weighed): InterviewSession {
    w.session
  }

  function IdOf(s: InterviewSession): string {
    s.id
  }

  /** The sessions, heaviest first; the sort is stable, so equal totals keep load order. */
  function Ranked(sessions: seq<InterviewSession>, allMessages: seq<Message>): seq<Weighed> {
    SortDesc(Map(sessions, WeighWith(allMessages)), TotalOf)
  }

  datatype Sample = Sample(sessions: seq<InterviewSession>, messages: seq<Message>)

  function OfAny(sessions: seq<InterviewSession>): Message -> bool {
    (m: Message) => m.sessionId in Map(sessions, IdOf)
  }

  /** The `topN` heaviest sessions, heaviest first. */
  function TopSessions(sessions: seq<InterviewSession>, allMessages: seq<Message>, topN: int): seq<InterviewSession> {
    Map(SliceTo(Ranked(sessions, allMessages), topN), SessionOf)
  }

  /** The selection step of `sampleTopSessionsByTokens`, on the loaded sessions and messages. */
  function SelectTopSessions(sessions: seq<InterviewSession>, allMessages: seq<Message>, topN: int): (r: Sample)
    ensures topN >= 0 ==> |r.sessions| == if topN < |sessions| then topN else |sessions|
    ensures forall m :: m in r.messages <==> m in allMessages && m.sessionId in Map(r.sessions, IdOf)
    ensures r.messages == Filter(allMessages, OfAny(r.sessions))
  {
    var top := TopSessions(sessions, allMessages, topN);
    FilterIff(allMessages, OfAny(top));
    Sample(top, Filter(allMessages, OfAny(top)))
  }

  /** The chosen sessions come in non-increasing order of their token totals. */
  lemma SelectedHeaviestFirst(sessions: seq<InterviewSession>, allMessages: seq<Message>, topN: int, i: nat, j: nat)
    requires i < j < |SelectTopSessions(sessions, allMessages, topN).sessions|
    ensures var top := SelectTopSessions(sessions, allMessages, topN).sessions;
      WeighWith(allMessages)(top[i]).totalTokens >= WeighWith(allMessages)(top[j]).totalTokens
  {
    var weighed := Map(sessions, WeighWith(allMessages));
    var ranked := Ranked(sessions, allMessages);
    SortDescSorted(weighed, TotalOf);
    SortDescPermutes(weighed, TotalOf);
    var cut := SliceTo(ranked, topN);
    assert ranked[i] == cut[i] && ranked[j] == cut[j];
    assert ranked[i] in multiset(weighed) && ranked[j] in multiset(weighed);
    assert ranked[i] == WeighWith(allMessages)(ranked[i].session);
    assert ranked[j] == WeighWith(allMessages)(ranked[j].session);
  }

  /** A session left out weighs no more than any session chosen. */
  lemma SelectedAreHeaviest(sessions: seq<InterviewSession>, allMessages: seq<Message>, topN: int, s: InterviewSession)
    requires s in sessions && s !in SelectTopSessions(sessions, allMessages, topN).sessions
    ensures forall t :: t in SelectTopSessions(sessions, allMessages, topN).sessions ==>
      WeighWith(allMessages)(t).totalTokens >= WeighWith(allMessages)(s).totalTokens
  {
    TopSessionsHeaviest(sessions, allMessages, topN, s);
  }

  lemma TopSessionsHeaviest(sessions: seq<InterviewSession>, allMessages: seq<Message>, topN: int, s: InterviewSession)
    requires s in sessions && s !in TopSessions(sessions, allMessages, topN)
    ensures forall t :: t in TopSessions(sessions, allMessages, topN) ==>
      WeighWith(allMessages)(t).totalTokens >= WeighWith(allMessages)(s).totalTokens
  {
    var weigh := WeighWith(allMessages);
    var weighed := Map(sessions, weigh);
    var ranked := Ranked(sessions, allMessages);
    var top := TopSessions(sessions, allMessages, topN);
    var cut := SliceTo(ranked, topN);
    SortDescSorted(weighed, TotalOf);
    SortDescPermutes(weighed, TotalOf);
    var k :| 0 <= k < |sessions| && sessions[k] == s;
    assert weighed[k] == weigh(s);
    assert weigh(s) in multiset(ranked);
    var j :| 0 <= j < |ranked| && ranked[j] == weigh(s);
    assert j >= |cut|;
    forall t | t in top ensures weigh(t).totalTokens >= weigh(s).totalTokens {
      var i :| 0 <= i < |top| && top[i] == t;
      assert cut[i] == ranked[i];
      assert ranked[i] in multiset(weighed);
      assert ranked[i] == weigh(ranked[i].session);
    }
  }

  /** When no message has a token count, the choice is simply the first `topN` sessions. */
  lemma UncountedKeepsLoadOrder(sessions: seq<InterviewSession>, allMessages: seq<Message>, topN: int)
    requires forall m :: m in allMessages ==> m.tokenCount == None
    ensures SelectTopSessions(sessions, allMessages, topN).sessions == SliceTo(sessions, topN)
  {
    var weighed := Map(sessions, WeighWith(allMessages));
    forall w | w in weighed ensures TotalOf(w) == 0 {
      var k :| 0 <= k < |sessions| && weighed[k] == w;
      TokenTotalUncounted(Filter(allMessages, OfSession(sessions[k].id)));
    }
    SortDescEqualKeys(weighed, TotalOf, 0);
    var cut := SliceTo(weighed, topN);
    assert Map(cut, SessionOf) == SliceTo(sessions, topN);
  }

  /**
   * `sampleTopSessionsByTokens(slug, topN)` on the parsed rows: load the
   * sessions of the slug, load their messages, choose.  The loaded messages
   * carry no token counts, so the result is the first `topN` sessions of the
   * slug and exactly their messages.
   */
  method SampleTopSessionsByTokens(sessionRows: seq<Row>, messageRows: seq<Row>, slug: string, topN: int)
    returns (sample: Sample)
    ensures sample.sessions == SliceTo(SessionsFor(sessionRows, slug), topN)
    ensures forall m :: m in sample.messages <==>
      m in Map(messageRows, RowToMessage) && m.sessionId in Map(sample.sessions, IdOf)
    ensures sample.messages == Filter(Map(messageRows, RowToMessage), OfAny(sample.sessions))
  {
    var sessions := LoadSessions(sessionRows, slug);
    var allMessages := LoadMessages(messageRows, Map(sessions, IdOf));
    MessagesForSpec(messageRows, Map(sessions, IdOf));
    UncountedKeepsLoadOrder(sessions, allMessages, topN);
    sample := SelectTopSessions(sessions, allMessages, topN);
    forall m: Message | m.sessionId in Map(sample.sessions, IdOf) ensures m.sessionId in Map(sessions, IdOf) {
      var i :| 0 <= i < |sample.sessions| && sample.sessions[i].id == m.sessionId;
      assert sessions[i] == sample.sessions[i];
    }
    if |sessions| > 0 {
      FilterFilter(Map(messageRows, RowToMessage), InSessions(Map(sessions, IdOf)), OfAny(sample.sessions));
    }
  }
}

=== FILE: QualityCheck.dfy ===
/**
 * The report quality validator (src/utils/qualityCheck.ts): a fixed rule table
 * run over the generated report.  Each regular expression of the source is a
 * left-to-right scanner here, paired with a position-based reference
 * definition and a lemma that the two agree.  `Validate` is the specification;
 * `ValidateReportQuality` is the source's step-by-step procedure, proved equal
 * to it.
 */
module QualityCheck {
  import opened Strings
  import opened Seqs

  datatype QualityStats = QualityStats(charCount: nat, citationCount: nat, forbiddenPhrases: seq<string>)

  datatype QualityCheckResult = QualityCheckResult(
    passed: bool,
    errors: seq<string>,
    warnings: seq<string>,
    stats: QualityStats)

  const FORBIDDEN_QUANTITY_PHRASES: seq<string> := [
    "多くの参加者",
    "一部の人",
    "ほとんどの人",
    "大半が",
    "少数だが",
    "複数の参加者",
    "何人かの",
    "大多数",
    "少数の"
  ]

  const FORBIDDEN_VALUE_JUDGMENTS: seq<string> := [
    "さらに踏み込み",
    "より高度な",
    "深い洞察",
    "優れた提案",
    "重要度が高い",
    "素晴らしい",
    "非常に重要",
    "画期的な"
  ]

  const MIN_CHARS: nat := 10000
  const MAX_CHARS: nat := 20000
  const MIN_CITATIONS: nat := 30

  const NO_CITATION_ERROR := "引用が1つも含まれていません（#セッション番号 が必要）"
  const HTML_TAG_ERROR := "HTMLタグが含まれています。Markdownのみを使用してください"
  const BOLD_WARNING := "太字マークダウン（**）が使用されています。日本語では推奨されません"

  function TooShortWarning(n: nat): string {
    "文字数が少なすぎます（" + NatToString(n) + "字 < 10,000字）"
  }

  function TooLongWarning(n: nat): string {
    "文字数が多すぎます（" + NatToString(n) + "字 > 20,000字）"
  }

  function FewCitationsWarning(c: nat): string {
    "引用が少なすぎます（" + NatToString(c) + "件）。より多くの具体例を引用してください"
  }

  function QuantityPhraseError(phrase: string): string {
    "禁止された数量表現が含まれています: 「" + phrase + "」"
  }

  function ValueJudgmentError(phrase: string): string {
    "禁止された価値判断が含まれています: 「" + phrase + "」"
  }

  // ---------------------------------------------------------------------------
  // Citations: the global pattern  #\d+|#[a-f0-9]{8}

  predicate IsLowerHex(c: char) {
    IsDigit(c) || 'a' <= c <= 'f'
  }

  /**
   * The length of the match starting at the head of `s`, 0 when there is none.
   * The digit alternative is tried first and takes every digit that follows.
   */
  function CitationLen(s: string): (r: nat)
    ensures r <= |s|
  {
    if |s| < 2 || s[0] != '#' then 0
    else if IsDigit(s[1]) then 1 + DigitRun(s[1..])
    else if |s| >= 9 && forall k :: 1 <= k < 9 ==> IsLowerHex(s[k]) then 9
    else 0
  }

  /** `(s.match(/#\d+|#[a-f0-9]{8}/g) || []).length`: non-overlapping, leftmost matches. */
  function CitationCount(s: string): nat {
    if |s| == 0 then 0
    else
      var m := CitationLen(s);
      if m > 0 then 1 + CitationCount(s[m..]) else CitationCount(s[1..])
  }

  /** Reference: the pattern can match at position i. */
  predicate CitationStartsAt(s: string, i: int) {
    0 <= i && i + 1 < |s| && s[i] == '#' &&
    (IsDigit(s[i + 1]) || (i + 9 <= |s| && forall k :: i + 1 <= k < i + 9 ==> IsLowerHex(s[k])))
  }

  lemma CitationStartsAtShift(s: string, i: nat)
    requires |s| > 0
    ensures CitationStartsAt(s[1..], i) <==> CitationStartsAt(s, i + 1)
  {
    if i + 10 <= |s| && s[i + 1] == '#' && !IsDigit(s[i + 2]) {
      var t := s[1..];
      assert (forall k :: i + 1 <= k < i + 9 ==> IsLowerHex(t[k]))
         <==> (forall k :: i + 2 <= k < i + 10 ==> IsLowerHex(s[k])) by {
        forall k | i + 1 <= k < i + 9 ensures t[k] == s[k + 1] {}
      }
    }
  }

  /** The report has a citation exactly when the pattern can match somewhere. */
  lemma {:induction false} CitationCountPositive(s: string)
    ensures CitationCount(s) > 0 <==> exists i :: CitationStartsAt(s, i)
  {
    if |s| > 0 {
      var m := CitationLen(s);
      assert m > 0 <==> CitationStartsAt(s, 0);
      if m == 0 {
        CitationCountPositive(s[1..]);
        if CitationCount(s) > 0 {
          var i :| CitationStartsAt(s[1..], i);
          CitationStartsAtShift(s, i);
        }
        if i :| CitationStartsAt(s, i) {
          assert i > 0;
          CitationStartsAtShift(s, i - 1);
        }
      }
    }
  }

  // ---------------------------------------------------------------------------
  // Exempt spans, removed before the phrase scan

  /** One pass of `s.replace(/pattern/g, '')`, where `len` gives the match length at the head. */
  function Erase(s: string, len: string -> nat): (r: string)
    ensures |r| <= |s|
  {
    if |s| == 0 then ""
    else
      var m := len(s);
      if 0 < m <= |s| then Erase(s[m..], len) else [s[0]] + Erase(s[1..], len)
  }

  /** The match of `"[^"]*"\(#\d+\)` at the head of `s`, e.g. `"発言"(#123)`. */
  function QuotedCitationLen(s: string): (r: nat)
    ensures r <= |s|
    ensures |s| == 0 || s[0] != '"' ==> r == 0
  {
    if |s| == 0 || s[0] != '"' then 0
    else
      var j := 1 + IndexOf(s[1..], '"');
      if j + 3 < |s| && s[j + 1] == '(' && s[j + 2] == '#' then
        var d := DigitRun(s[j + 3..]);
        if d > 0 && j + 3 + d < |s| && s[j + 3 + d] == ')' then j + 4 + d else 0
      else 0
  }

  predicate IsLowerAscii(c: char) {
    'a' <= c <= 'z'
  }

  function LowerRun(s: string): (r: nat)
    ensures r <= |s|
  {
    if |s| == 0 || !IsLowerAscii(s[0]) then 0 else 1 + LowerRun(s[1..])
  }

  /** The match of `\*\*[a-z]+\*\*: [^\n]*` at the head of `s`: a speaker label and the rest of its line. */
  function SpeakerLineLen(s: string): (r: nat)
    ensures r <= |s|
    ensures |s| == 0 || s[0] != '*' ==> r == 0
  {
    if |s| < 2 || s[0] != '*' || s[1] != '*' then 0
    else
      var e := 2 + LowerRun(s[2..]);
      if e > 2 && e + 4 <= |s| && s[e..e + 4] == "**: " then e + 4 + IndexOf(s[e + 4..], '\n') else 0
  }

  /** The text the phrase scan reads: quoted citations removed, then speaker lines. */
  function Stripped(s: string): string {
    Erase(Erase(s, QuotedCitationLen), SpeakerLineLen)
  }

  /** A quoted citation as the prompt asks the model to write it. */
  function QuotedCitation(quote: string, digits: string): string {
    "\"" + quote + "\"(#" + digits + ")"
  }

  /** Text before which no match can start passes through the scan unchanged. */
  lemma {:induction false} ErasePlainPrefix(a: string, rest: string, len: string -> nat, lead: char)
    requires lead !in a
    requires forall t :: |t| == 0 || t[0] != lead ==> len(t) == 0
    ensures Erase(a + rest, len) == a + Erase(rest, len)
  {
    if |a| == 0 {
      assert a + rest == rest;
    } else {
      assert (a + rest)[0] == a[0];
      assert (a + rest)[1..] == a[1..] + rest;
      ErasePlainPrefix(a[1..], rest, len, lead);
    }
  }

  lemma QuotedCitationMatches(quote: string, digits: string, rest: string)
    requires '"' !in quote && |digits| > 0 && AllDigits(digits)
    ensures QuotedCitationLen(QuotedCitation(quote, digits) + rest) == |QuotedCitation(quote, digits)|
  {
    var q := QuotedCitation(quote, digits);
    var s := q + rest;
    var j := 1 + |quote|;
    assert s[1..][|quote|] == '"';
    forall k | 0 <= k < |quote| ensures s[1..][k] != '"' {
      assert s[1..][k] == quote[k];
    }
    assert s[j + 1] == '(' && s[j + 2] == '#';
    var t := s[j + 3..];
    forall k | 0 <= k < |digits| ensures IsDigit(t[k]) {
      assert t[k] == digits[k];
    }
    assert t[|digits|] == ')';
    DigitRunExact(t, |digits|);
  }

  /**
   * Stripping removes exactly a quoted citation from text that holds no other
   * quotation mark and no asterisk.
   */
  lemma StrippedAroundQuote(a: string, quote: string, digits: string, b: string)
    requires '"' !in a && '"' !in b && '*' !in a && '*' !in b
    requires '"' !in quote && |digits| > 0 && AllDigits(digits)
    ensures Stripped(a + QuotedCitation(quote, digits) + b) == a + b
  {
    var q := QuotedCitation(quote, digits);
    ErasePlainPrefix(a, q + b, QuotedCitationLen, '"');
    QuotedCitationMatches(quote, digits, b);
    assert (q + b)[|q|..] == b;
    ErasePlainPrefix(b, [], QuotedCitationLen, '"');
    assert b + [] == b && a + q + b == a + (q + b);
    ErasePlainPrefix(a + b, [], SpeakerLineLen, '*');
    assert a + b + [] == a + b;
  }

  /** A speaker line as the transcript writes it: `**user**: …`. */
  function SpeakerLine(speaker: string, line: string): string {
    "**" + speaker + "**: " + line
  }

  lemma {:induction false} LowerRunExact(t: string, n: nat)
    requires n < |t| && !IsLowerAscii(t[n])
    requires forall k :: 0 <= k < n ==> IsLowerAscii(t[k])
    ensures LowerRun(t) == n
  {
    if n > 0 {
      LowerRunExact(t[1..], n - 1);
    }
  }

  lemma NoQuoteInSpeakerLine(speaker: string, line: string)
    requires forall k :: 0 <= k < |speaker| ==> IsLowerAscii(speaker[k])
    requires '"' !in line
    ensures '"' !in SpeakerLine(speaker, line)
  {
    var l := SpeakerLine(speaker, line);
    forall k | 0 <= k < |l| ensures l[k] != '"' {
      if 2 <= k < 2 + |speaker| {
        assert l[k] == speaker[k - 2];
      } else if 6 + |speaker| <= k {
        assert l[k] == line[k - 6 - |speaker|];
      }
    }
  }

  /** The speaker-line pattern matches a whole speaker line, up to the next line break. */
  lemma SpeakerLineMatches(speaker: string, line: string, rest: string)
    requires |speaker| > 0 && forall k :: 0 <= k < |speaker| ==> IsLowerAscii(speaker[k])
    requires '\n' !in line
    requires |rest| == 0 || rest[0] == '\n'
    ensures SpeakerLineLen(SpeakerLine(speaker, line) + rest) == |SpeakerLine(speaker, line)|
  {
    var s := SpeakerLine(speaker, line) + rest;
    var e := 2 + |speaker|;
    var t := s[2..];
    forall k | 0 <= k < |speaker| ensures IsLowerAscii(t[k]) {
      assert t[k] == speaker[k];
    }
    assert t[|speaker|] == '*';
    LowerRunExact(t, |speaker|);
    assert s[e..e + 4] == "**: ";
    var u := s[e + 4..];
    assert u == line + rest;
    if |line| < |u| {
      assert u[|line|] == '\n';
    }
  }

  /**
   * Stripping removes exactly a speaker line (its speaker and the rest of its
   * line) from text that holds no quotation mark and no asterisk.
   */
  lemma StrippedAroundSpeakerLine(a: string, speaker: string, line: string, b: string)
    requires '"' !in a && '"' !in b && '*' !in a && '*' !in b
    requires |speaker| > 0 && forall k :: 0 <= k < |speaker| ==> IsLowerAscii(speaker[k])
    requires '\n' !in line && '"' !in line
    requires |b| == 0 || b[0] == '\n'
    ensures Stripped(a + SpeakerLine(speaker, line) + b) == a + b
  {
    var l := SpeakerLine(speaker, line);
    var s := a + l + b;
    QuotePassKeepsSpeakerLine(a, speaker, line, b);
    assert Stripped(s) == Erase(s, SpeakerLineLen);
    assert s == a + (l + b);
    ErasePlainPrefix(a, l + b, SpeakerLineLen, '*');
    SpeakerPassRemovesLine(speaker, line, b);
  }

  /** The first pass leaves text without a quotation mark alone. */
  lemma QuotePassKeepsSpeakerLine(a: string, speaker: string, line: string, b: string)
    requires '"' !in a && '"' !in b
    requires forall k :: 0 <= k < |speaker| ==> IsLowerAscii(speaker[k])
    requires '"' !in line
    ensures Erase(a + SpeakerLine(speaker, line) + b, QuotedCitationLen) == a + SpeakerLine(speaker, line) + b
  {
    var s := a + SpeakerLine(speaker, line) + b;
    NoQuoteInSpeakerLine(speaker, line);
    assert '"' !in s;
    ErasePlainPrefix(s, [], QuotedCitationLen, '"');
    assert s + [] == s;
  }

  /** The second pass removes a speaker line that ends at a line break or at the end. */
  lemma SpeakerPassRemovesLine(speaker: string, line: string, b: string)
    requires '*' !in b
    requires |speaker| > 0 && forall k :: 0 <= k < |speaker| ==> IsLowerAscii(speaker[k])
    requires '\n' !in line
    requires |b| == 0 || b[0] == '\n'
    ensures Erase(SpeakerLine(speaker, line) + b, SpeakerLineLen) == b
  {
    var l := SpeakerLine(speaker, line);
    SpeakerLineMatches(speaker, line, b);
    assert (l + b)[|l|..] == b;
    ErasePlainPrefix(b, [], SpeakerLineLen, '*');
    assert b + [] == b;
  }

  // ---------------------------------------------------------------------------
  // HTML tags  <[^>]+>  and bold spans  \*\*[^*]+\*\*

  function HtmlTagAtStart(s: string): bool {
    |s| >= 2 && s[0] == '<' && s[1] != '>' && '>' in s[2..]
  }

  /** `/<[^>]+>/.test(s)`. */
  function HasHtmlTag(s: string): bool {
    |s| > 0 && (HtmlTagAtStart(s) || HasHtmlTag(s[1..]))
  }

  /** Reference: `<`, at least one character other than `>`, then `>`. */
  predicate HtmlTagSpan(s: string, i: int, j: int) {
    0 <= i && i + 1 < j < |s| && s[i] == '<' && s[j] == '>' && forall k :: i < k < j ==> s[k] != '>'
  }

  lemma {:induction false} HasHtmlTagIff(s: string)
    ensures HasHtmlTag(s) <==> exists i, j :: HtmlTagSpan(s, i, j)
  {
    if |s| > 0 {
      HasHtmlTagIff(s[1..]);
      if HtmlTagAtStart(s) {
        var j := 2 + IndexOf(s[2..], '>');
        assert HtmlTagSpan(s, 0, j);
      } else if HasHtmlTag(s[1..]) {
        var i, j :| HtmlTagSpan(s[1..], i, j);
        assert HtmlTagSpan(s, i + 1, j + 1);
      }
      if i, j :| HtmlTagSpan(s, i, j) {
        if i == 0 {
          assert s[2..][j - 2] == '>';
        } else {
          assert HtmlTagSpan(s[1..], i - 1, j - 1);
        }
      }
    }
  }

  function BoldAtStart(s: string): bool {
    |s| >= 2 && s[0] == '*' && s[1] == '*' &&
    var r := IndexOf(s[2..], '*');
    r > 0 && 3 + r < |s| && s[3 + r] == '*'
  }

  // The test of the bold pattern, `\*\*[^*]+\*\*`, anywhere in `s`.
  function HasBold(s: string): bool {
    |s| > 0 && (BoldAtStart(s) || HasBold(s[1..]))
  }

  /** Reference: `**`, at least one character other than `*`, then `**`. */
  predicate BoldSpan(s: string, i: int, j: int) {
    0 <= i && i + 2 < j && j + 1 < |s| && s[i] == '*' && s[i + 1] == '*' && s[j] == '*' && s[j + 1] == '*'
    && forall k :: i + 2 <= k < j ==> s[k] != '*'
  }

  /** Every match the scan reports is a bold span. */
  lemma {:induction false} HasBoldSound(s: string)
    requires HasBold(s)
    ensures exists i, j :: BoldSpan(s, i, j)
  {
    if BoldAtStart(s) {
      var j := 2 + IndexOf(s[2..], '*');
      assert BoldSpan(s, 0, j);
    } else {
      HasBoldSound(s[1..]);
      var i, j :| BoldSpan(s[1..], i, j);
      assert BoldSpan(s, i + 1, j + 1);
    }
  }

  /** The scan finds every bold span. */
  lemma {:induction false} HasBoldComplete(s: string, i: int, j: int)
    requires BoldSpan(s, i, j)
    ensures HasBold(s)
    decreases i
  {
    if i == 0 {
      assert s[2..][j - 2] == '*';
      assert forall k :: 0 <= k < j - 2 ==> s[2..][k] != '*';
    } else {
      assert BoldSpan(s[1..], i - 1, j - 1);
      HasBoldComplete(s[1..], i - 1, j - 1);
    }
  }

  lemma HasBoldIff(s: string)
    ensures HasBold(s) <==> exists i, j :: BoldSpan(s, i, j)
  {
    if HasBold(s) {
      HasBoldSound(s);
    }
    if i, j :| BoldSpan(s, i, j) {
      HasBoldComplete(s, i, j);
    }
  }

  // ---------------------------------------------------------------------------
  // The rule table

  /**
   * The two forbidden-phrase lists.  The source reads them from module constants;
   * here they are passed in, and FORBIDDEN_PHRASES holds the source's lists.
   */
  datatype PhraseTables = PhraseTables(quantity: seq<string>, valueJudgments: seq<string>) {
    function All(): seq<string> {
      quantity + valueJudgments
    }
  }

  const FORBIDDEN_PHRASES := PhraseTables(FORBIDDEN_QUANTITY_PHRASES, FORBIDDEN_VALUE_JUDGMENTS)

  function InText(text: string): string -> bool {
    p => Contains(text, p)
  }

  function LengthWarnings(n: nat): seq<string> {
    if n < MIN_CHARS then [TooShortWarning(n)]
    else if n > MAX_CHARS then [TooLongWarning(n)]
    else []
  }

  function CitationErrors(c: nat): seq<string> {
    if c == 0 then [NO_CITATION_ERROR] else []
  }

  function CitationWarnings(c: nat): seq<string> {
    if 0 < c < MIN_CITATIONS then [FewCitationsWarning(c)] else []
  }

  /** The verdict of `validateReportQuality`, as a function of the report alone. */
  function Validate(report: string, tables: PhraseTables): QualityCheckResult {
    var c := CitationCount(report);
    var text := Stripped(report);
    var quantity := Filter(tables.quantity, InText(text));
    var judgments := Filter(tables.valueJudgments, InText(text));
    var errors := CitationErrors(c)
      + Map(quantity, QuantityPhraseError)
      + Map(judgments, ValueJudgmentError)
      + (if HasHtmlTag(report) then [HTML_TAG_ERROR] else []);
    var warnings := LengthWarnings(|report|)
      + CitationWarnings(c)
      + (if HasBold(report) then [BOLD_WARNING] else []);
    QualityCheckResult(|errors| == 0, errors, warnings, QualityStats(|report|, c, quantity + judgments))
  }

  /**
   * One phrase-table loop of `validateReportQuality`: each listed phrase the text
   * contains is recorded once, in table order, with one diagnostic appended for it.
   */
  method ScanPhrases(phrases: seq<string>, text: string, errors: seq<string>, message: string -> string)
    returns (found: seq<string>, errorsOut: seq<string>)
    ensures found == Filter(phrases, InText(text))
    ensures errorsOut == errors + Map(found, message)
  {
    found := [];
    errorsOut := errors;
    for k := 0 to |phrases|
      invariant found == Filter(phrases[..k], InText(text))
      invariant errorsOut == errors + Map(found, message)
    {
      var phrase := phrases[k];
      FilterSnoc(phrases, k, InText(text));
      if Contains(text, phrase) {
        MapSnoc(found, phrase, message);
        found := found + [phrase];
        errorsOut := errorsOut + [message(phrase)];
      }
    }
    assert phrases[..|phrases|] == phrases;
  }

  /**
   * `validateReportQuality`: the diagnostics are collected by appending to
   * `errors` and `warnings` in rule order, the phrase tables are walked by
   * `for` loops, and the result is read off the arrays at the end.  The result
   * depends on nothing but its arguments, so validating the same report twice
   * gives the same verdict.
   */
  method ValidateReportQuality(reportContent: string, tables: PhraseTables) returns (result: QualityCheckResult)
    ensures result == Validate(reportContent, tables)
  {
    var errors: seq<string> := [];
    var warnings: seq<string> := [];
    var charCount := |reportContent|;

    if charCount < MIN_CHARS {
      warnings := warnings + [TooShortWarning(charCount)];
    } else if charCount > MAX_CHARS {
      warnings := warnings + [TooLongWarning(charCount)];
    }
    assert warnings == LengthWarnings(charCount);

    var citationCount := CitationCount(reportContent);
    if citationCount == 0 {
      errors := errors + [NO_CITATION_ERROR];
    } else if citationCount < MIN_CITATIONS {
      warnings := warnings + [FewCitationsWarning(citationCount)];
    }
    assert errors == CitationErrors(citationCount);
    assert warnings == LengthWarnings(charCount) + CitationWarnings(citationCount);

    var contentWithoutQuotes := Stripped(reportContent);
    var foundQuantityPhrases, foundValueJudgments;
    foundQuantityPhrases, errors := ScanPhrases(tables.quantity, contentWithoutQuotes, errors, QuantityPhraseError);
    foundValueJudgments, errors := ScanPhrases(tables.valueJudgments, contentWithoutQuotes, errors, ValueJudgmentError);

    ghost var errors2 := errors;
    if HasHtmlTag(reportContent) {
      errors := errors + [HTML_TAG_ERROR];
    }
    assert errors == errors2 + (if HasHtmlTag(reportContent) then [HTML_TAG_ERROR] else []);

    ghost var warnings2 := warnings;
    if HasBold(reportContent) {
      warnings := warnings + [BOLD_WARNING];
    }
    assert warnings == warnings2 + (if HasBold(reportContent) then [BOLD_WARNING] else []);
    assert errors == CitationErrors(citationCount)
      + Map(foundQuantityPhrases, QuantityPhraseError)
      + Map(foundValueJudgments, ValueJudgmentError)
      + (if HasHtmlTag(reportContent) then [HTML_TAG_ERROR] else []);

    var passed := |errors| == 0;
    result := QualityCheckResult(
      passed, errors, warnings,
      QualityStats(charCount, citationCount, foundQuantityPhrases + foundValueJudgments));
  }

  // ---------------------------------------------------------------------------
  // What the verdict means

  /**
   * The report passes exactly when it holds a citation, holds no HTML tag, and its
   * stripped text holds no listed phrase.  Length, citation density and bold
   * markdown are not part of the condition: they only ever warn.
   */
  lemma ValidatePassedIff(s: string, tables: PhraseTables)
    ensures Validate(s, tables).passed <==>
      && (exists i :: CitationStartsAt(s, i))
      && !(exists i, j :: HtmlTagSpan(s, i, j))
      && (forall p :: p in tables.All() ==> !Contains(Stripped(s), p))
  {
    CitationCountPositive(s);
    HasHtmlTagIff(s);
    var text := Stripped(s);
    var quantity := Filter(tables.quantity, InText(text));
    var judgments := Filter(tables.valueJudgments, InText(text));
    if forall p :: p in tables.All() ==> !Contains(text, p) {
      FilterNone(tables.quantity, InText(text));
      FilterNone(tables.valueJudgments, InText(text));
    } else {
      var p :| p in tables.All() && Contains(text, p);
      if p in tables.quantity {
        FilterKeeps(tables.quantity, InText(text), p);
      } else {
        FilterKeeps(tables.valueJudgments, InText(text), p);
      }
    }
  }

  /**
   * How many diagnostics each rule contributes: the length rule at most one
   * warning, the citation rule one error or one warning, each phrase found one
   * error, the tag rule one error, the bold rule one warning.
   */
  lemma ValidateCounts(s: string, tables: PhraseTables)
    ensures var r := Validate(s, tables);
      && |r.errors| == (if r.stats.citationCount == 0 then 1 else 0)
                       + |r.stats.forbiddenPhrases|
                       + (if HasHtmlTag(s) then 1 else 0)
      && |r.warnings| == (if |s| < MIN_CHARS || |s| > MAX_CHARS then 1 else 0)
                         + (if 0 < r.stats.citationCount < MIN_CITATIONS then 1 else 0)
                         + (if HasBold(s) then 1 else 0)
      && r.stats.charCount == |s|
  {
  }

  predicate Distinct(xs: seq<string>) {
    forall i, j :: 0 <= i < j < |xs| ==> xs[i] != xs[j]
  }

  /** No phrase is listed twice in the source's tables. */
  lemma ForbiddenPhrasesDistinct()
    ensures Distinct(FORBIDDEN_PHRASES.All())
  {
  }

  lemma {:induction false} FilterDistinct(xs: seq<string>, p: string -> bool)
    requires Distinct(xs)
    ensures Distinct(Filter(xs, p))
  {
    if |xs| > 0 {
      FilterDistinct(xs[1..], p);
      var rest := Filter(xs[1..], p);
      if p(xs[0]) {
        var r := Filter(xs, p);
        assert r == [xs[0]] + rest;
        forall i, j | 0 <= i < j < |r| ensures r[i] != r[j] {
          if i == 0 {
            assert r[j] == rest[j - 1] && rest[j - 1] in rest;
            assert r[j] in xs[1..];
          } else {
            assert r[i] == rest[i - 1] && r[j] == rest[j - 1];
          }
        }
      }
    }
  }

  /**
   * The phrases reported are the listed phrases found in the stripped text, the
   * quantity phrases first and then the value judgments, each in table order,
   * and none twice however often it occurs.
   */
  lemma ForbiddenPhrasesReported(s: string, tables: PhraseTables)
    requires Distinct(tables.All())
    ensures var fp := Validate(s, tables).stats.forbiddenPhrases;
      && fp == Filter(tables.All(), InText(Stripped(s)))
      && (forall p :: p in fp <==> p in tables.All() && Contains(Stripped(s), p))
      && Distinct(fp)
  {
    var all := tables.All();
    FilterConcat(tables.quantity, tables.valueJudgments, InText(Stripped(s)));
    FilterDistinct(all, InText(Stripped(s)));
    forall p | p in all && Contains(Stripped(s), p)
      ensures p in Filter(all, InText(Stripped(s)))
    {
      FilterKeeps(all, InText(Stripped(s)), p);
    }
  }

  /**
   * A phrase inside a quoted citation `"…"(#N)` is exempt: for a report made of
   * plain text around one quoted citation, a listed phrase is reported exactly
   * when it occurs in the surrounding text, whatever the quotation says.
   */
  lemma QuotedPhraseExempt(a: string, quote: string, digits: string, b: string, tables: PhraseTables, p: string)
    requires '"' !in a && '"' !in b && '*' !in a && '*' !in b
    requires '"' !in quote && |digits| > 0 && AllDigits(digits)
    requires Distinct(tables.All())
    ensures p in Validate(a + QuotedCitation(quote, digits) + b, tables).stats.forbiddenPhrases
        <==> p in tables.All() && Contains(a + b, p)
  {
    StrippedAroundQuote(a, quote, digits, b);
    ForbiddenPhrasesReported(a + QuotedCitation(quote, digits) + b, tables);
  }

  /**
   * A phrase on a speaker line `**user**: …` is exempt: for a report made of
   * plain text around one speaker line, a listed phrase is reported exactly
   * when it occurs in the surrounding text, whatever the line says.
   */
  lemma SpeakerPhraseExempt(a: string, speaker: string, line: string, b: string, tables: PhraseTables, p: string)
    requires '"' !in a && '"' !in b && '*' !in a && '*' !in b
    requires |speaker| > 0 && forall k :: 0 <= k < |speaker| ==> IsLowerAscii(speaker[k])
    requires '\n' !in line && '"' !in line
    requires |b| == 0 || b[0] == '\n'
    requires Distinct(tables.All())
    ensures p in Validate(a + SpeakerLine(speaker, line) + b, tables).stats.forbiddenPhrases
        <==> p in tables.All() && Contains(a + b, p)
  {
    StrippedAroundSpeakerLine(a, speaker, line, b);
    ForbiddenPhrasesReported(a + SpeakerLine(speaker, line) + b, tables);
  }

  /** Any HTML-like tag anywhere in the raw report fails it, whatever else it holds. */
  lemma HtmlTagFails(s: string, tables: PhraseTables, i: int, j: int)
    requires HtmlTagSpan(s, i, j)
    ensures HTML_TAG_ERROR in Validate(s, tables).errors && !Validate(s, tables).passed
  {
    HasHtmlTagIff(s);
  }

  /** A report without any citation marker fails with the citation error. */
  lemma NoCitationFails(s: string, tables: PhraseTables)
    requires forall i :: !CitationStartsAt(s, i)
    ensures NO_CITATION_ERROR in Validate(s, tables).errors && !Validate(s, tables).passed
  {
    CitationCountPositive(s);
  }
}

=== FILE: QuantitativeAnalysis.dfy ===
/**
 * The quantitative summary that backs a report with numbers: message and
 * session counts, the mean and median messages per session, sessions per
 * day, and the cross-reference of `#N` citations in a generated report
 * against the sessions that carry those numbers.
 *
 * Fractional results are exact: `Math.round(x * 10) / 10` is kept as an
 * integer number of tenths, and `Math.round(a / b)` as the nearest integer
 * with halves rounded up.  An average over no sessions (NaN in JavaScript)
 * and the median of no sessions (`undefined`) are `None`.
 */
module QuantitativeAnalysis {
  import opened Types
  import opened Strings
  import opened Seqs
  import opened CountMap

  datatype CitedSession = CitedSession(sessionId: string, sessionNumber: Option<int>, citationCount: nat)

  datatype QuantitativeStats = QuantitativeStats(
    totalSessions: nat,
    totalMessages: nat,
    totalUserMessages: nat,
    totalAssistantMessages: nat,
    avgMessagesPerSessionTenths: Option<nat>,
    medianMessagesPerSession: Option<nat>,
    citationDistribution: Counts,
    topCitedSessions: seq<CitedSession>,
    sessionsPerDay: Option<Counts>,
    analysisDate: string)

  datatype SessionAnalytics = SessionAnalytics(
    sessionId: string,
    sessionNumber: Option<int>,
    messageCount: nat,
    userMessageCount: nat,
    assistantMessageCount: nat,
    avgMessageLength: nat,
    createdAt: string)

  // ---------------------------------------------------------------------------
  // Counting and rounding

  function HasRole(role: string): Message -> bool {
    (m: Message) => m.role == role
  }

  function InSession(id: string): Message -> bool {
    (m: Message) => m.sessionId == id
  }

  /** Every message is either the user's or the assistant's. */
  predicate RolesWellFormed(messages: seq<Message>) {
    forall m :: m in messages ==> m.role == "user" || m.role == "assistant"
  }

  function Sum(xs: seq<nat>): nat {
    if |xs| == 0 then 0 else xs[0] + Sum(xs[1..])
  }

  /**
   * `Math.round(num / den)` for non-negative operands: the integer nearest to
   * the quotient, a half rounding up.
   */
  function RoundDiv(num: nat, den: nat): (r: nat)
    requires den > 0
    ensures den * (2 * r - 1) <= 2 * num < den * (2 * r + 1)
  {
    (2 * num + den) / (2 * den)
  }

  /** The number of messages of each session, in session order. */
  function MessagesPerSession(sessions: seq<InterviewSession>, messages: seq<Message>): (r: seq<nat>)
    ensures |r| == |sessions|
    ensures forall i :: 0 <= i < |sessions| ==> r[i] == |Filter(messages, InSession(sessions[i].id))|
  {
    Map(sessions, (s: InterviewSession) => |Filter(messages, InSession(s.id))|)
  }

  /** The mean of `counts` in tenths, rounded half up; `None` for no counts. */
  function AverageTenths(counts: seq<nat>): (r: Option<nat>)
    ensures r.None? <==> |counts| == 0
    ensures r.Some? ==> |counts| * (2 * r.value - 1) <= 20 * Sum(counts) < |counts| * (2 * r.value + 1)
  {
    if |counts| == 0 then None else Some(RoundDiv(10 * Sum(counts), |counts|))
  }

  function Negated(x: nat): int {
    -(x as int)
  }

  predicate Ascending(s: seq<nat>) {
    forall i, j :: 0 <= i < j < |s| ==> s[i] <= s[j]
  }

  /** `[...xs].sort((a, b) => a - b)`. */
  function SortAscending(xs: seq<nat>): (r: seq<nat>)
    ensures |r| == |xs| && Ascending(r) && multiset(r) == multiset(xs)
  {
    SortDescSorted(xs, Negated);
    SortDescPermutes(xs, Negated);
    var r := SortDesc(xs, Negated);
    assert forall i, j :: 0 <= i < j < |r| ==> Negated(r[i]) >= Negated(r[j]);
    r
  }

  /** `sorted[Math.floor(n / 2)]`, the upper median; `None` for no counts. */
  function Median(counts: seq<nat>): (r: Option<nat>)
    ensures r.None? <==> |counts| == 0
  {
    if |counts| == 0 then None else Some(SortAscending(counts)[|counts| / 2])
  }

  function Below(m: nat): nat -> bool {
    x => x < m
  }

  function AtMost(m: nat): nat -> bool {
    x => x <= m
  }

  /** In an ascending sequence, at most k elements lie below the k-th. */
  lemma AscendingBelowRank(s: seq<nat>, k: nat)
    requires Ascending(s) && k < |s|
    ensures |Filter(s, Below(s[k]))| <= k
  {
    assert s == s[..k] + s[k..];
    FilterConcat(s[..k], s[k..], Below(s[k]));
    forall x | x in s[k..] ensures !Below(s[k])(x) {
      var j :| 0 <= j < |s[k..]| && s[k..][j] == x;
      assert x == s[k + j];
    }
    FilterNone(s[k..], Below(s[k]));
  }

  /** In an ascending sequence, at least k + 1 elements lie at or below the k-th. */
  lemma AscendingAtMostRank(s: seq<nat>, k: nat)
    requires Ascending(s) && k < |s|
    ensures k < |Filter(s, AtMost(s[k]))|
  {
    assert s == s[..k + 1] + s[k + 1..];
    FilterConcat(s[..k + 1], s[k + 1..], AtMost(s[k]));
    forall x | x in s[..k + 1] ensures AtMost(s[k])(x) {
      var j :| 0 <= j < k + 1 && s[..k + 1][j] == x;
      assert x == s[j];
    }
    FilterAll(s[..k + 1], AtMost(s[k]));
  }

  /**
   * The median is one of the counts, at most half of the counts lie below it,
   * and more than half lie at or below it.
   */
  lemma MedianIsUpperMedian(counts: seq<nat>)
    requires |counts| > 0
    ensures var m := Median(counts).value;
      && m in counts
      && |Filter(counts, Below(m))| <= |counts| / 2 < |Filter(counts, AtMost(m))|
  {
    var s := SortAscending(counts);
    var m := s[|counts| / 2];
    assert m in multiset(s);
    AscendingBelowRank(s, |counts| / 2);
    AscendingAtMostRank(s, |counts| / 2);
    FilterCountPermutation(s, counts, Below(m));
    FilterCountPermutation(s, counts, AtMost(m));
  }

  lemma SortAscendingOfAscending(xs: seq<nat>)
    requires Ascending(xs)
    ensures SortAscending(xs) == xs
  {
    assert NonIncreasing(xs, Negated);
    SortDescOfSorted(xs, Negated);
  }

  /** An even number of counts takes the upper of the two middle ones. */
  lemma MedianOfEvenCount()
    ensures Median([1, 3, 5, 7]) == Some(5)
  {
    SortAscendingOfAscending([1, 3, 5, 7]);
  }

  lemma MedianOfOddCount()
    ensures Median([2, 4, 6]) == Some(4)
  {
    SortAscendingOfAscending([2, 4, 6]);
  }

  /** Four messages per session on average is forty tenths. */
  lemma AverageExample()
    ensures AverageTenths([2, 4, 6]) == Some(40)
  {
    assert [2, 4, 6][1..] == [4, 6] && [4, 6][1..] == [6];
    assert Sum([2, 4, 6]) == 12;
  }

  // ---------------------------------------------------------------------------
  // Sessions per day

  /** `createdAt.split('T')[0]`: everything before the first `T`. */
  function DatePart(createdAt: string): (r: string)
    ensures r <= createdAt && 'T' !in r
    ensures |r| < |createdAt| ==> createdAt[|r|] == 'T'
  {
    createdAt[..IndexOf(createdAt, 'T')]
  }

  function SessionDate(s: InterviewSession): string {
    DatePart(s.createdAt)
  }

  /**
   * The `sessions.forEach` loop that counts sessions per day in a `Map`: each
   * day appears once, in order of its first session, and the counts add up to
   * the number of sessions.
   */
  method CountSessionsPerDay(sessions: seq<InterviewSession>) returns (perDay: Counts)
    ensures perDay == Tally(Map(sessions, SessionDate))
    ensures Keys(perDay) == Dedup(Map(sessions, SessionDate))
    ensures Total(perDay) == |sessions|
    ensures forall d :: Get(perDay, d).Some? <==> exists s :: s in sessions && SessionDate(s) == d
  {
    perDay := [];
    for k := 0 to |sessions|
      invariant perDay == Tally(Map(sessions[..k], SessionDate))
    {
      var date := DatePart(sessions[k].createdAt);
      assert sessions[..k + 1] == sessions[..k] + [sessions[k]];
      MapSnoc(sessions[..k], sessions[k], SessionDate);
      var dates := Map(sessions[..k + 1], SessionDate);
      assert dates[..|dates| - 1] == Map(sessions[..k], SessionDate);
      perDay := Increment(perDay, date);
    }
    assert sessions[..|sessions|] == sessions;
    TallySpec(Map(sessions, SessionDate));
    forall d ensures Get(perDay, d).Some? <==> exists s :: s in sessions && SessionDate(s) == d {
      if d in Map(sessions, SessionDate) {
        var i :| 0 <= i < |sessions| && Map(sessions, SessionDate)[i] == d;
        assert sessions[i] in sessions;
      }
    }
  }

  // ---------------------------------------------------------------------------
  // Citation cross-reference

  /**
   * The digit groups of the successive matches of `/#(\d+)/g` from position
   * `i` on: from left to right, each `#` followed by at least one digit matches
   * with its longest digit run, and the search resumes after the match.
   */
  function CitationNumbersFrom(s: string, i: nat): seq<string>
    decreases |s| - i
  {
    if i >= |s| then []
    else if s[i] == '#' && DigitRunAt(s, i + 1) > 0 then
      var d := DigitRunAt(s, i + 1);
      [s[i + 1..i + 1 + d]] + CitationNumbersFrom(s, i + 1 + d)
    else CitationNumbersFrom(s, i + 1)
  }

  /** The digit groups of all matches of `/#(\d+)/g` in `s`. */
  function CitationNumbers(s: string): seq<string> {
    CitationNumbersFrom(s, 0)
  }

  /** Each match captures a non-empty run of decimal digits. */
  lemma {:induction false} CitationNumbersFromAreDigits(s: string, i: nat)
    ensures forall k :: 0 <= k < |CitationNumbersFrom(s, i)| ==>
      |CitationNumbersFrom(s, i)[k]| > 0 && AllDigits(CitationNumbersFrom(s, i)[k])
    decreases |s| - i
  {
    if i < |s| {
      if s[i] == '#' && DigitRunAt(s, i + 1) > 0 {
        DigitRunAtSpec(s, i + 1);
        CitationNumbersFromAreDigits(s, i + 1 + DigitRunAt(s, i + 1));
      } else {
        CitationNumbersFromAreDigits(s, i + 1);
      }
    }
  }

  lemma CitationNumbersAreDigits(s: string)
    ensures forall k :: 0 <= k < |CitationNumbers(s)| ==>
      |CitationNumbers(s)[k]| > 0 && AllDigits(CitationNumbers(s)[k])
  {
    CitationNumbersFromAreDigits(s, 0);
  }

  predicate HashDigitAt(s: string, i: int) {
    0 <= i && i + 1 < |s| && s[i] == '#' && IsDigit(s[i + 1])
  }

  /** From position `i` on, the pattern matches exactly when some later `#` is followed by a digit. */
  lemma {:induction false} CitationNumbersFromNonEmpty(s: string, i: nat)
    ensures CitationNumbersFrom(s, i) != [] <==> exists k :: i <= k && HashDigitAt(s, k)
    decreases |s| - i
  {
    if i < |s| {
      if s[i] == '#' && DigitRunAt(s, i + 1) > 0 {
        assert HashDigitAt(s, i);
      } else {
        CitationNumbersFromNonEmpty(s, i + 1);
        assert !HashDigitAt(s, i);
      }
    }
  }

  /** The pattern matches somewhere exactly when some `#` is followed by a digit. */
  lemma CitationNumbersNonEmpty(s: string)
    ensures CitationNumbers(s) != [] <==> exists i :: HashDigitAt(s, i)
  {
    CitationNumbersFromNonEmpty(s, 0);
  }

  /** `s.sessionNumber?.toString() === digits`. */
  predicate NumberIs(s: InterviewSession, digits: string) {
    s.sessionNumber.Some? && IntToString(s.sessionNumber.value) == digits
  }

  /** The index `sessions.find` stops at for a session number, or `|sessions|`. */
  function FirstWithNumber(sessions: seq<InterviewSession>, digits: string): (i: nat)
    ensures i <= |sessions|
  {
    if |sessions| == 0 || NumberIs(sessions[0], digits) then 0
    else 1 + FirstWithNumber(sessions[1..], digits)
  }

  /** `find` stops at the first session whose number prints as `digits`. */
  lemma {:induction false} FirstWithNumberSpec(sessions: seq<InterviewSession>, digits: string)
    ensures var i := FirstWithNumber(sessions, digits);
      && (i < |sessions| ==> NumberIs(sessions[i], digits))
      && (forall j :: 0 <= j < i ==> !NumberIs(sessions[j], digits))
  {
    if |sessions| > 0 && !NumberIs(sessions[0], digits) {
      FirstWithNumberSpec(sessions[1..], digits);
    }
  }

  /**
   * The ids the `while` loop counts, in report order: one per match whose
   * digits are some session's number, that of the first such session.
   */
  function CitedIds(runs: seq<string>, sessions: seq<InterviewSession>): (r: seq<string>)
    ensures |r| <= |runs|
  {
    if |runs| == 0 then []
    else
      var i := FirstWithNumber(sessions, runs[0]);
      (if i < |sessions| then [sessions[i].id] else []) + CitedIds(runs[1..], sessions)
  }

  lemma CitedIdsSingle(digits: string, sessions: seq<InterviewSession>)
    ensures var i := FirstWithNumber(sessions, digits);
      CitedIds([digits], sessions) == if i < |sessions| then [sessions[i].id] else []
  {
    assert [digits][1..] == [];
  }

  /** Only ids of sessions are ever counted. */
  lemma {:induction false} CitedIdsAreSessionIds(runs: seq<string>, sessions: seq<InterviewSession>)
    ensures forall x :: x in CitedIds(runs, sessions) ==> exists j :: 0 <= j < |sessions| && sessions[j].id == x
  {
    if |runs| > 0 {
      CitedIdsAreSessionIds(runs[1..], sessions);
    }
  }

  /** Resolving a first match, then the rest. */
  lemma CitedIdsCons(digits: string, rest: seq<string>, sessions: seq<InterviewSession>)
    ensures var j := FirstWithNumber(sessions, digits);
      CitedIds([digits] + rest, sessions) == (if j < |sessions| then [sessions[j].id] else []) + CitedIds(rest, sessions)
  {
    assert ([digits] + rest)[0] == digits && ([digits] + rest)[1..] == rest;
  }

  /** Where the scan resumes after looking at position `i`: past the match there, or at the next position. */
  function NextAt(s: string, i: nat): (next: nat)
    requires i < |s|
    ensures i < next <= |s|
  {
    if s[i] == '#' && DigitRunAt(s, i + 1) > 0 then i + 1 + DigitRunAt(s, i + 1) else i + 1
  }

  /** The id the match at position `i` resolves to, if there is a match and it resolves. */
  function HitAt(s: string, i: nat, sessions: seq<InterviewSession>): (ids: seq<string>)
    requires i < |s|
    ensures |ids| <= 1
  {
    if s[i] == '#' && DigitRunAt(s, i + 1) > 0 then
      var j := FirstWithNumber(sessions, s[i + 1..i + 1 + DigitRunAt(s, i + 1)]);
      if j < |sessions| then [sessions[j].id] else []
    else []
  }

  /** One step of the scan: the ids still to be counted from `i` are those of the match there, then the rest. */
  lemma CitedIdsStep(s: string, i: nat, sessions: seq<InterviewSession>, cited: seq<string>)
    requires i < |s|
    ensures cited + CitedIds(CitationNumbersFrom(s, i), sessions)
      == cited + HitAt(s, i, sessions) + CitedIds(CitationNumbersFrom(s, NextAt(s, i)), sessions)
  {
    var rest := CitationNumbersFrom(s, NextAt(s, i));
    if s[i] == '#' && DigitRunAt(s, i + 1) > 0 {
      var digits := s[i + 1..i + 1 + DigitRunAt(s, i + 1)];
      assert CitationNumbersFrom(s, i) == [digits] + rest;
      CitedIdsCons(digits, rest, sessions);
      Regroup(cited, HitAt(s, i, sessions), CitedIds(rest, sessions));
    } else {
      assert CitationNumbersFrom(s, i) == rest;
      assert cited + HitAt(s, i, sessions) == cited;
    }
  }

  /**
   * What the loop reads at position `i`: a `#` followed by digits is a match,
   * and `find` resolves its digits to the first session with that number.
   * `hit` is the resolved id, if any, and `next` is where the search resumes.
   */
  method ResolveMatchAt(s: string, i: nat, sessions: seq<InterviewSession>) returns (hit: seq<string>, next: nat)
    requires i < |s|
    ensures hit == HitAt(s, i, sessions) && next == NextAt(s, i)
  {
    var d := DigitRunAt(s, i + 1);
    if s[i] == '#' && d > 0 {
      var sessionNumber := s[i + 1..i + 1 + d];
      var j := FirstWithNumber(sessions, sessionNumber);
      if j < |sessions| {
        hit := [sessions[j].id];
      } else {
        hit := [];
      }
      next := i + 1 + d;
    } else {
      hit := [];
      next := i + 1;
    }
  }

  /** One turn of the loop keeps its invariant: the hit, if any, is counted, and the scan resumes after it. */
  lemma CitationLoopStep(s: string, i: nat, sessions: seq<InterviewSession>, cited: seq<string>)
    requires i < |s|
    requires cited + CitedIds(CitationNumbersFrom(s, i), sessions) == CitedIds(CitationNumbers(s), sessions)
    ensures (cited + HitAt(s, i, sessions)) + CitedIds(CitationNumbersFrom(s, NextAt(s, i)), sessions)
      == CitedIds(CitationNumbers(s), sessions)
    ensures Tally(cited + HitAt(s, i, sessions))
      == if HitAt(s, i, sessions) == [] then Tally(cited) else Increment(Tally(cited), HitAt(s, i, sessions)[0])
  {
    CitedIdsStep(s, i, sessions, cited);
    var hit := HitAt(s, i, sessions);
    if hit == [] {
      assert cited + hit == cited;
    } else {
      assert hit == [hit[0]];
      TallySnoc(cited, hit[0]);
    }
  }

  /**
   * `analyzeCitationsInReport`: a `while` loop over the matches of `/#(\d+)/g`
   * that adds one to the count of the session each match resolves to.
   */
  method AnalyzeCitationsInReport(reportContent: string, sessions: seq<InterviewSession>)
    returns (citationDistribution: Counts)
    ensures citationDistribution == Tally(CitedIds(CitationNumbers(reportContent), sessions))
  {
    citationDistribution := [];
    ghost var cited: seq<string> := [];
    var i := 0;
    while i < |reportContent|
      invariant cited + CitedIds(CitationNumbersFrom(reportContent, i), sessions)
        == CitedIds(CitationNumbers(reportContent), sessions)
      invariant citationDistribution == Tally(cited)
      decreases |reportContent| - i
    {
      CitationLoopStep(reportContent, i, sessions, cited);
      var hit, next := ResolveMatchAt(reportContent, i, sessions);
      if |hit| > 0 {
        citationDistribution := Increment(citationDistribution, hit[0]);
      }
      cited := cited + hit;
      i := next;
    }
    assert cited + [] == cited;
  }

  /**
   * What the distribution holds: its keys are ids of sessions, in order of
   * first citation and none twice; each value is how often that session was
   * cited; and the values add up to at most the number of matches.
   */
  lemma CitationDistributionSpec(reportContent: string, sessions: seq<InterviewSession>)
    ensures var cited := CitedIds(CitationNumbers(reportContent), sessions);
      var dist := Tally(cited);
      && DistinctKeys(dist)
      && Keys(dist) == Dedup(cited)
      && (forall id :: id in Keys(dist) ==> exists j :: 0 <= j < |sessions| && sessions[j].id == id)
      && (forall id :: Get(dist, id) == if id in cited then Some(multiset(cited)[id]) else None)
      && Total(dist) <= |CitationNumbers(reportContent)|
  {
    var cited := CitedIds(CitationNumbers(reportContent), sessions);
    CitedIdsAreSessionIds(CitationNumbers(reportContent), sessions);
    TallySpec(cited);
    TallyDistinct(cited);
  }

  /**
   * A written number that no session number prints as — one with a leading
   * zero such as `#007` — resolves to nothing and is not counted.
   */
  lemma LeadingZeroNotCited(digits: string, sessions: seq<InterviewSession>)
    requires |digits| > 1 && AllDigits(digits) && digits[0] == '0'
    ensures CitedIds([digits], sessions) == []
  {
    FirstWithNumberSpec(sessions, digits);
    forall j | 0 <= j < |sessions| ensures !NumberIs(sessions[j], digits) {
      if sessions[j].sessionNumber.Some? {
        IntToStringMatches(sessions[j].sessionNumber.value, digits);
      }
    }
  }

  /** A match resolves to the first session whose number prints as its digits. */
  lemma CitationResolvesToFirst(digits: string, sessions: seq<InterviewSession>, j: nat)
    requires j < |sessions| && NumberIs(sessions[j], digits)
    requires forall k :: 0 <= k < j ==> !NumberIs(sessions[k], digits)
    ensures CitedIds([digits], sessions) == [sessions[j].id]
  {
    FirstWithNumberSpec(sessions, digits);
    var i := FirstWithNumber(sessions, digits);
    assert i == j;
  }

  // ---------------------------------------------------------------------------
  // Top cited sessions

  /** The index `sessions.find(s => s.id === id)` stops at, or `|sessions|`. */
  function FirstWithId(sessions: seq<InterviewSession>, id: string): (i: nat)
    ensures i <= |sessions| && (i < |sessions| ==> sessions[i].id == id)
    ensures forall j :: 0 <= j < i ==> sessions[j].id != id
  {
    if |sessions| == 0 || sessions[0].id == id then 0 else 1 + FirstWithId(sessions[1..], id)
  }

  /** `{ sessionId, sessionNumber: session?.sessionNumber, citationCount }`. */
  function ToCited(sessions: seq<InterviewSession>): Entry -> CitedSession {
    (e: Entry) =>
      var i := FirstWithId(sessions, e.key);
      CitedSession(e.key, if i < |sessions| then sessions[i].sessionNumber else None, e.count)
  }

  function CitationCountOf(c: CitedSession): int {
    c.citationCount
  }

  /** The entries in map order, as ranked items, before sorting. */
  function CitedEntries(citationDistribution: Counts, sessions: seq<InterviewSession>): seq<CitedSession> {
    Map(citationDistribution, ToCited(sessions))
  }

  /**
   * `getTopCitedSessions`: the entries ranked by citation count, highest first,
   * cut to `topN`.  The sort is stable, so equal counts stay in map order.
   */
  function GetTopCitedSessions(citationDistribution: Counts, sessions: seq<InterviewSession>, topN: int)
    : (r: seq<CitedSession>)
    ensures topN >= 0 ==> |r| == if topN < |citationDistribution| then topN else |citationDistribution|
    ensures NonIncreasing(r, CitationCountOf)
  {
    var ranked := SortDesc(CitedEntries(citationDistribution, sessions), CitationCountOf);
    SortDescSorted(CitedEntries(citationDistribution, sessions), CitationCountOf);
    SliceTo(ranked, topN)
  }

  /**
   * Every ranked item is an entry of the distribution, carrying its count and
   * the number of the first session with its id.
   */
  lemma TopCitedFromDistribution(citationDistribution: Counts, sessions: seq<InterviewSession>, topN: int)
    requires DistinctKeys(citationDistribution)
    ensures forall c :: c in GetTopCitedSessions(citationDistribution, sessions, topN) ==>
      && Get(citationDistribution, c.sessionId) == Some(c.citationCount)
      && c == ToCited(sessions)(Entry(c.sessionId, c.citationCount))
  {
    var entries := CitedEntries(citationDistribution, sessions);
    SortDescPermutes(entries, CitationCountOf);
    forall c | c in GetTopCitedSessions(citationDistribution, sessions, topN)
      ensures Get(citationDistribution, c.sessionId) == Some(c.citationCount)
      ensures c == ToCited(sessions)(Entry(c.sessionId, c.citationCount))
    {
      assert c in SortDesc(entries, CitationCountOf);
      assert c in multiset(SortDesc(entries, CitationCountOf));
      var k :| 0 <= k < |entries| && entries[k] == c;
      GetAt(citationDistribution, k);
    }
  }

  /**
   * Nothing left out of the ranking was cited more often than anything in it.
   */
  lemma TopCitedAreTop(citationDistribution: Counts, sessions: seq<InterviewSession>, topN: int, k: nat)
    requires k < |citationDistribution|
    requires ToCited(sessions)(citationDistribution[k]) !in GetTopCitedSessions(citationDistribution, sessions, topN)
    ensures forall c :: c in GetTopCitedSessions(citationDistribution, sessions, topN) ==>
      c.citationCount >= citationDistribution[k].count
  {
    var entries := CitedEntries(citationDistribution, sessions);
    var ranked := SortDesc(entries, CitationCountOf);
    var r := GetTopCitedSessions(citationDistribution, sessions, topN);
    SortDescPermutes(entries, CitationCountOf);
    SortDescSorted(entries, CitationCountOf);
    assert entries[k] in multiset(ranked);
    var j :| 0 <= j < |ranked| && ranked[j] == entries[k];
    assert r == ranked[..|r|];
    forall c | c in r ensures c.citationCount >= citationDistribution[k].count {
      var i :| 0 <= i < |r| && r[i] == c;
      assert i < j;
      assert CitationCountOf(ranked[i]) >= CitationCountOf(ranked[j]);
    }
  }

  function HasCount(c: int): CitedSession -> bool {
    KeyIs(CitationCountOf, c)
  }

  /**
   * Ties keep map order, that is, order of first citation: the ranked items
   * with any one count are the first of the entries with that count, in order.
   */
  lemma TopCitedTiesInMapOrder(citationDistribution: Counts, sessions: seq<InterviewSession>, topN: int, c: int)
    ensures Filter(GetTopCitedSessions(citationDistribution, sessions, topN), HasCount(c))
         <= Filter(CitedEntries(citationDistribution, sessions), HasCount(c))
  {
    var entries := CitedEntries(citationDistribution, sessions);
    var ranked := SortDesc(entries, CitationCountOf);
    var r := GetTopCitedSessions(citationDistribution, sessions, topN);
    SortDescStable(entries, CitationCountOf, c);
    assert r == ranked[..|r|];
    FilterPrefix(ranked, |r|, HasCount(c));
  }

  // ---------------------------------------------------------------------------
  // The summary

  /**
   * `analyzeQuantitativeData`.  The analysis date comes from the clock and is
   * a parameter here.  The citation fields start empty; they are filled in
   * once a report exists.
   */
  method AnalyzeQuantitativeData(sessions: seq<InterviewSession>, messages: seq<Message>, analysisDate: string)
    returns (stats: QuantitativeStats)
    ensures stats.totalSessions == |sessions| && stats.totalMessages == |messages|
    ensures stats.totalUserMessages == |Filter(messages, HasRole("user"))|
    ensures stats.totalAssistantMessages == |Filter(messages, HasRole("assistant"))|
    ensures stats.avgMessagesPerSessionTenths == AverageTenths(MessagesPerSession(sessions, messages))
    ensures stats.medianMessagesPerSession == Median(MessagesPerSession(sessions, messages))
    ensures stats.citationDistribution == [] && stats.topCitedSessions == []
    ensures stats.sessionsPerDay == Some(Tally(Map(sessions, SessionDate)))
    ensures Keys(stats.sessionsPerDay.value) == Dedup(Map(sessions, SessionDate))
    ensures Total(stats.sessionsPerDay.value) == |sessions|
    ensures stats.analysisDate == analysisDate
  {
    var userMessages := Filter(messages, HasRole("user"));
    var assistantMessages := Filter(messages, HasRole("assistant"));
    var messagesPerSession := MessagesPerSession(sessions, messages);
    var perDay := CountSessionsPerDay(sessions);
    stats := QuantitativeStats(
      |sessions|, |messages|, |userMessages|, |assistantMessages|,
      AverageTenths(messagesPerSession), Median(messagesPerSession),
      [], [], Some(perDay), analysisDate);
  }

  /** When every role is user or assistant, the two role totals add up to all messages. */
  lemma RoleTotalsCoverAll(messages: seq<Message>)
    requires RolesWellFormed(messages)
    ensures |Filter(messages, HasRole("user"))| + |Filter(messages, HasRole("assistant"))| == |messages|
  {
    FilterPartition(messages, HasRole("user"), HasRole("assistant"));
  }

  function ContentLength(messages: seq<Message>): nat {
    if |messages| == 0 then 0 else |messages[0].content| + ContentLength(messages[1..])
  }

  /** The per-session record of `analyzeSessionDetails`. */
  function SessionDetail(messages: seq<Message>): InterviewSession -> SessionAnalytics {
    (s: InterviewSession) =>
      var own := Filter(messages, InSession(s.id));
      SessionAnalytics(
        s.id, s.sessionNumber, |own|,
        |Filter(own, HasRole("user"))|, |Filter(own, HasRole("assistant"))|,
        if |own| > 0 then RoundDiv(ContentLength(own), |own|) else 0,
        s.createdAt)
  }

  /**
   * `analyzeSessionDetails`: one record per session, in session order, counting
   * that session's messages; the mean length is rounded to the nearest
   * integer, and is 0 for a session without messages.
   */
  function AnalyzeSessionDetails(sessions: seq<InterviewSession>, messages: seq<Message>)
    : (r: seq<SessionAnalytics>)
    ensures |r| == |sessions|
    ensures forall i :: 0 <= i < |sessions| ==>
      var own := Filter(messages, InSession(sessions[i].id));
      && r[i].sessionId == sessions[i].id && r[i].sessionNumber == sessions[i].sessionNumber
      && r[i].createdAt == sessions[i].createdAt
      && r[i].messageCount == |own|
      && r[i].userMessageCount == |Filter(own, HasRole("user"))|
      && r[i].assistantMessageCount == |Filter(own, HasRole("assistant"))|
      && (|own| == 0 ==> r[i].avgMessageLength == 0)
      && (|own| > 0 ==> |own| * (2 * r[i].avgMessageLength - 1) <= 2 * ContentLength(own)
                                               < |own| * (2 * r[i].avgMessageLength + 1))
  {
    Map(sessions, SessionDetail(messages))
  }

  /**
   * With well-formed roles each session's messages split into user and
   * assistant messages, and the per-session counts agree with the ones the
   * summary averages.
   */
  lemma SessionDetailsAddUp(sessions: seq<InterviewSession>, messages: seq<Message>, i: nat)
    requires RolesWellFormed(messages) && i < |sessions|
    ensures var d := AnalyzeSessionDetails(sessions, messages)[i];
      && d.messageCount == d.userMessageCount + d.assistantMessageCount
      && d.messageCount == MessagesPerSession(sessions, messages)[i]
  {
    var own := Filter(messages, InSession(sessions[i].id));
    FilterPartition(own, HasRole("user"), HasRole("assistant"));
  }

  // ---------------------------------------------------------------------------
  // The Markdown report

  /** `avg.toFixed(1)` for a value held in tenths; NaN prints as `NaN`. */
  function FixedOneDecimal(tenths: Option<nat>): string {
    match tenths
    case None => "NaN"
    case Some(t) => NatToString(t / 10) + "." + [DigitChar(t % 10)]
  }

  /** `${median}`; an undefined median prints as `undefined`. */
  function MedianText(median: Option<nat>): string {
    match median
    case None => "undefined"
    case Some(m) => NatToString(m)
  }

  /**
   * The fixed opening of the report.  `toLocaleString` depends on the locale
   * and is a parameter.
   */
  function HeaderLines(stats: QuantitativeStats, localeString: nat -> string): seq<string> {
    [ "# 定量分析レポート",
      "",
      "**分析日**: " + stats.analysisDate,
      "",
      "## 基本統計",
      "",
      "- **総セッション数**: " + localeString(stats.totalSessions) + "件",
      "- **総メッセージ数**: " + localeString(stats.totalMessages) + "件",
      "  - ユーザーメッセージ: " + localeString(stats.totalUserMessages) + "件",
      "  - アシスタントメッセージ: " + localeString(stats.totalAssistantMessages) + "件",
      "",
      "## セッション統計",
      "",
      "- **平均メッセージ数/セッション**: " + FixedOneDecimal(stats.avgMessagesPerSessionTenths) + "件",
      "- **中央値メッセージ数/セッション**: " + MedianText(stats.medianMessagesPerSession) + "件",
      "" ]
  }

  /** `#${sessionNumber || sessionId}`: the number when it is truthy, else the id. */
  function CitedRef(item: CitedSession): string {
    if item.sessionNumber.Some? && item.sessionNumber.value != 0
    then IntToString(item.sessionNumber.value) else item.sessionId
  }

  function CitedRow(rank: nat, item: CitedSession): string {
    "| " + NatToString(rank) + " | #" + CitedRef(item) + " | " + NatToString(item.citationCount) + "回 |"
  }

  function CitedRows(top: seq<CitedSession>): (r: seq<string>)
    ensures |r| == |top| && forall k :: 0 <= k < |top| ==> r[k] == CitedRow(k + 1, top[k])
  {
    seq(|top|, k requires 0 <= k < |top| => CitedRow(k + 1, top[k]))
  }

  const CITED_HEADING := ["## 引用頻度上位セッション", "", "| 順位 | セッション番号 | 引用回数 |", "|------|---------------|----------|"]

  /** The ranking table, or nothing when no session was cited. */
  function CitedSection(top: seq<CitedSession>): seq<string> {
    if |top| == 0 then [] else CITED_HEADING + CitedRows(top) + [""]
  }

  function DayRow(e: Entry): string {
    "| " + e.key + " | " + NatToString(e.count) + "件 |"
  }

  predicate DateOrdered(m: Counts) {
    forall i, j :: 0 <= i < j < |m| ==> LexLe(m[i].key, m[j].key)
  }

  function InsertByDate(e: Entry, m: Counts): (r: Counts)
    ensures |r| == |m| + 1
  {
    if |m| == 0 then [e]
    else if LexLe(e.key, m[0].key) then [e] + m
    else [m[0]] + InsertByDate(e, m[1..])
  }

  /** `entries.sort((a, b) => a[0].localeCompare(b[0]))`, by day. */
  function SortByDate(m: Counts): (r: Counts)
    ensures |r| == |m|
  {
    if |m| == 0 then [] else InsertByDate(m[0], SortByDate(m[1..]))
  }

  lemma {:induction false} InsertByDatePermutes(e: Entry, m: Counts)
    ensures multiset(InsertByDate(e, m)) == multiset(m) + multiset{e}
  {
    if |m| > 0 && !LexLe(e.key, m[0].key) {
      InsertByDatePermutes(e, m[1..]);
      assert m == [m[0]] + m[1..];
    }
  }

  lemma {:induction false} InsertByDateOrdered(e: Entry, m: Counts)
    requires DateOrdered(m)
    ensures DateOrdered(InsertByDate(e, m))
  {
    if |m| == 0 {
    } else if LexLe(e.key, m[0].key) {
      forall j | 1 < j < |m| + 1 ensures LexLe(e.key, ([e] + m)[j].key) {
        LexLeTransitive(e.key, m[0].key, m[j - 1].key);
      }
    } else {
      InsertByDateOrdered(e, m[1..]);
      LexLeTotal(e.key, m[0].key);
      var t := InsertByDate(e, m[1..]);
      InsertByDatePermutes(e, m[1..]);
      forall j | 0 <= j < |t| ensures LexLe(m[0].key, t[j].key) {
        assert t[j] in multiset(t);
        if t[j] != e {
          assert t[j] in multiset(m[1..]);
          var k :| 0 <= k < |m[1..]| && m[1..][k] == t[j];
          assert m[k + 1] == t[j];
        }
      }
    }
  }

  /** The day table is in date order and shows every day exactly as counted. */
  lemma {:induction false} SortByDateSpec(m: Counts)
    ensures DateOrdered(SortByDate(m)) && multiset(SortByDate(m)) == multiset(m)
  {
    if |m| > 0 {
      SortByDateSpec(m[1..]);
      InsertByDateOrdered(m[0], SortByDate(m[1..]));
      InsertByDatePermutes(m[0], SortByDate(m[1..]));
      assert m == [m[0]] + m[1..];
    }
  }

  const DAY_HEADING := ["## 時系列分析", "", "| 日付 | セッション数 |", "|------|-------------|"]

  /** The per-day table, or nothing when there is no day to show. */
  function DaySection(perDay: Option<Counts>): seq<string> {
    if perDay.None? || |perDay.value| == 0 then []
    else DAY_HEADING + Map(SortByDate(perDay.value), DayRow) + [""]
  }

  /** The lines of the quantitative report, before they are joined. */
  function ReportLines(stats: QuantitativeStats, localeString: nat -> string): seq<string> {
    HeaderLines(stats, localeString) + CitedSection(stats.topCitedSessions) + DaySection(stats.sessionsPerDay)
  }

  /** The ranking-table half of `generateQuantitativeReport`: a row pushed per ranked session. */
  method PushCitedSection(lines: seq<string>, top: seq<CitedSession>) returns (out: seq<string>)
    ensures out == lines + CitedSection(top)
  {
    out := lines;
    if |top| > 0 {
      out := out + CITED_HEADING;
      for index := 0 to |top|
        invariant out == lines + CITED_HEADING + CitedRows(top)[..index]
      {
        var row := CitedRow(index + 1, top[index]);
        assert CitedRows(top)[..index + 1] == CitedRows(top)[..index] + [row];
        SnocRegroup(lines, CITED_HEADING, CitedRows(top)[..index], row);
        out := out + [row];
      }
      assert CitedRows(top)[..|top|] == CitedRows(top);
      SnocRegroup(lines, CITED_HEADING, CitedRows(top), "");
      out := out + [""];
    } else {
      assert lines + [] == lines;
    }
  }

  /** The per-day half of `generateQuantitativeReport`: a row pushed per day, in date order. */
  method PushDaySection(lines: seq<string>, perDay: Option<Counts>) returns (out: seq<string>)
    ensures out == lines + DaySection(perDay)
  {
    out := lines;
    if perDay.Some? && |perDay.value| > 0 {
      out := out + DAY_HEADING;
      var sortedDates := SortByDate(perDay.value);
      for k := 0 to |sortedDates|
        invariant out == lines + DAY_HEADING + Map(sortedDates[..k], DayRow)
      {
        var row := DayRow(sortedDates[k]);
        assert sortedDates[..k + 1] == sortedDates[..k] + [sortedDates[k]];
        MapSnoc(sortedDates[..k], sortedDates[k], DayRow);
        SnocRegroup(lines, DAY_HEADING, Map(sortedDates[..k], DayRow), row);
        out := out + [row];
      }
      assert sortedDates[..|sortedDates|] == sortedDates;
      SnocRegroup(lines, DAY_HEADING, Map(sortedDates, DayRow), "");
      out := out + [""];
    } else {
      assert lines + [] == lines;
    }
  }

  /**
   * `generateQuantitativeReport`: lines are pushed onto an array, one table row
   * per loop iteration, and joined with newlines.
   */
  method GenerateQuantitativeReport(stats: QuantitativeStats, localeString: nat -> string) returns (report: string)
    ensures report == Join(ReportLines(stats, localeString), "\n")
  {
    var lines := HeaderLines(stats, localeString);
    lines := PushCitedSection(lines, stats.topCitedSessions);
    lines := PushDaySection(lines, stats.sessionsPerDay);
    report := Join(lines, "\n");
  }

  /**
   * The ranking table appears exactly when some session was cited, and then
   * its k-th row shows rank k + 1 with the k-th ranked session.
   */
  lemma CitedSectionShape(top: seq<CitedSession>)
    ensures |top| == 0 ==> CitedSection(top) == []
    ensures |top| > 0 ==>
      && |CitedSection(top)| == |top| + 5
      && CitedSection(top)[..4] == CITED_HEADING
      && (forall k :: 0 <= k < |top| ==> CitedSection(top)[4 + k] == CitedRow(k + 1, top[k]))
  {
  }

  /**
   * The day table appears exactly when there is a day to show, and then lists
   * the days in date order, each once, with its session count.
   */
  lemma DaySectionShape(perDay: Counts)
    ensures |perDay| == 0 ==> DaySection(Some(perDay)) == []
    ensures |perDay| > 0 ==>
      var rows := DaySection(Some(perDay))[4..|perDay| + 4];
      && |DaySection(Some(perDay))| == |perDay| + 5
      && exists sorted :: DateOrdered(sorted) && multiset(sorted) == multiset(perDay) && rows == Map(sorted, DayRow)
  {
    if |perDay| > 0 {
      SortByDateSpec(perDay);
      var sorted := SortByDate(perDay);
      assert DaySection(Some(perDay))[4..|perDay| + 4] == Map(sorted, DayRow);
    }
  }

  // ---------------------------------------------------------------------------
  // Serialisation

  /** The JSON object `serializeStats` builds: every field except the distribution. */
  datatype SerializedStats = SerializedStats(
    totalSessions: nat,
    totalMessages: nat,
    totalUserMessages: nat,
    totalAssistantMessages: nat,
    avgMessagesPerSessionTenths: Option<nat>,
    medianMessagesPerSession: Option<nat>,
    topCitedSessions: seq<CitedSession>,
    analysisDate: string,
    sessionsPerDay: Option<Counts>)

  /**
   * `serializeStats`.  The per-day counts are kept as an ordered list of
   * entries; `Object.fromEntries` keeps insertion order only for keys that are
   * not array indices, so a day key of digits alone (a `createdAt` without a
   * `T`, such as `20240115`) would be moved ahead of the others in the JSON text.
   */
  function SerializeStats(stats: QuantitativeStats): SerializedStats {
    SerializedStats(
      stats.totalSessions, stats.totalMessages, stats.totalUserMessages, stats.totalAssistantMessages,
      stats.avgMessagesPerSessionTenths, stats.medianMessagesPerSession,
      stats.topCitedSessions, stats.analysisDate, stats.sessionsPerDay)
  }

  /** Rebuilds the statistics from their serialised form and a distribution. */
  function Restore(saved: SerializedStats, citationDistribution: Counts): QuantitativeStats {
    QuantitativeStats(
      saved.totalSessions, saved.totalMessages, saved.totalUserMessages, saved.totalAssistantMessages,
      saved.avgMessagesPerSessionTenths, saved.medianMessagesPerSession,
      citationDistribution, saved.topCitedSessions, saved.sessionsPerDay, saved.analysisDate)
  }

  /**
   * Serialising loses exactly the citation distribution: with it supplied
   * again the statistics come back unchanged, and statistics that differ only
   * in it serialise alike.
   */
  lemma SerializeLosesOnlyDistribution(a: QuantitativeStats, b: QuantitativeStats)
    ensures Restore(SerializeStats(a), a.citationDistribution) == a
    ensures SerializeStats(a) == SerializeStats(b) <==> a.(citationDistribution := b.citationDistribution) == b
  {
  }
}

=== FILE: Seqs.dfy ===
/**
 * Sequence helpers: `Array.prototype.filter`, and `Array.prototype.sort` with a
 * numeric comparator, which JavaScript guarantees to be stable.
 */
module Seqs {

  /** `xs.filter(p)`. */
  function Filter<T>(xs: seq<T>, p: T -> bool): (r: seq<T>)
    ensures |r| <= |xs|
    ensures forall x :: x in r ==> x in xs && p(x)
  {
    if |xs| == 0 then [] else (if p(xs[0]) then [xs[0]] else []) + Filter(xs[1..], p)
  }

  /** Nothing that passes the test is lost. */
  lemma {:induction false} FilterKeeps<T>(xs: seq<T>, p: T -> bool, x: T)
    requires x in xs && p(x)
    ensures x in Filter(xs, p)
  {
    if xs[0] != x {
      FilterKeeps(xs[1..], p, x);
    }
  }

  /** Filtering distributes over concatenation, so it keeps the input order. */
  lemma {:induction false} FilterConcat<T>(a: seq<T>, b: seq<T>, p: T -> bool)
    ensures Filter(a + b, p) == Filter(a, p) + Filter(b, p)
  {
    if |a| > 0 {
      FilterConcat(a[1..], b, p);
      assert (a + b)[0] == a[0] && (a + b)[1..] == a[1..] + b;
      var head := if p(a[0]) then [a[0]] else [];
      calc {
        Filter(a + b, p);
        head + Filter(a[1..] + b, p);
        head + (Filter(a[1..], p) + Filter(b, p));
        Filter(a, p) + Filter(b, p);
      }
    } else {
      assert a + b == b;
    }
  }

  /** Filtering a prefix one element longer appends at most that element. */
  lemma FilterSnoc<T>(xs: seq<T>, k: nat, p: T -> bool)
    requires k < |xs|
    ensures Filter(xs[..k + 1], p) == Filter(xs[..k], p) + (if p(xs[k]) then [xs[k]] else [])
  {
    assert xs[..k + 1] == xs[..k] + [xs[k]];
    FilterConcat(xs[..k], [xs[k]], p);
  }

  /** A test every element passes removes nothing. */
  lemma {:induction false} FilterAll<T>(xs: seq<T>, p: T -> bool)
    requires forall x :: x in xs ==> p(x)
    ensures Filter(xs, p) == xs
  {
    if |xs| > 0 {
      FilterAll(xs[1..], p);
    }
  }

  /** A test no element passes removes everything. */
  lemma {:induction false} FilterNone<T>(xs: seq<T>, p: T -> bool)
    requires forall x :: x in xs ==> !p(x)
    ensures Filter(xs, p) == []
  {
    if |xs| > 0 {
      FilterNone(xs[1..], p);
    }
  }

  /**
   * When every element passes exactly one of two tests, the two filters
   * together account for every element.
   */
  lemma {:induction false} FilterPartition<T>(xs: seq<T>, p: T -> bool, q: T -> bool)
    requires forall x :: x in xs ==> (p(x) <==> !q(x))
    ensures |Filter(xs, p)| + |Filter(xs, q)| == |xs|
  {
    if |xs| > 0 {
      FilterPartition(xs[1..], p, q);
    }
  }

  /** Filtering a prefix gives a prefix of the filtered whole. */
  /** Filtering by a test that implies an earlier one makes the earlier one redundant. */
  lemma {:induction false} FilterFilter<T>(xs: seq<T>, p: T -> bool, q: T -> bool)
    requires forall x :: q(x) ==> p(x)
    ensures Filter(Filter(xs, p), q) == Filter(xs, q)
  {
    if |xs| > 0 {
      var head := if p(xs[0]) then [xs[0]] else [];
      FilterConcat(head, Filter(xs[1..], p), q);
      FilterFilter(xs[1..], p, q);
      if p(xs[0]) {
        assert [xs[0]][1..] == [];
      }
    }
  }

  lemma FilterPrefix<T>(xs: seq<T>, k: nat, p: T -> bool)
    requires k <= |xs|
    ensures Filter(xs[..k], p) <= Filter(xs, p)
  {
    assert xs == xs[..k] + xs[k..];
    FilterConcat(xs[..k], xs[k..], p);
  }

  /** Taking one element out of a sequence takes it out of the filtered count. */
  lemma FilterCountRemove<T>(b: seq<T>, i: nat, p: T -> bool)
    requires i < |b|
    ensures |Filter(b, p)| == |Filter(b[..i] + b[i + 1..], p)| + (if p(b[i]) then 1 else 0)
  {
    assert b == b[..i] + [b[i]] + b[i + 1..];
    assert [b[i]][1..] == [];
    assert |Filter([b[i]], p)| == if p(b[i]) then 1 else 0;
    FilterConcat(b[..i], [b[i]], p);
    FilterConcat(b[..i] + [b[i]], b[i + 1..], p);
    FilterConcat(b[..i], b[i + 1..], p);
  }

  /** Removing the same element from two permutations of each other leaves permutations. */
  lemma MultisetRemove<T>(a: seq<T>, b: seq<T>, i: nat)
    requires |a| > 0 && i < |b| && b[i] == a[0] && multiset(a) == multiset(b)
    ensures multiset(a[1..]) == multiset(b[..i] + b[i + 1..])
  {
    assert b == b[..i] + [b[i]] + b[i + 1..];
    assert a == [a[0]] + a[1..];
    assert multiset(b) == multiset(b[..i]) + multiset{a[0]} + multiset(b[i + 1..]);
    assert multiset(a) == multiset{a[0]} + multiset(a[1..]);
    assert multiset(b[..i] + b[i + 1..]) == multiset(b[..i]) + multiset(b[i + 1..]);
    forall x ensures multiset(a[1..])[x] == multiset(b[..i] + b[i + 1..])[x] {
      assert multiset(a)[x] == multiset(b)[x];
    }
  }

  /** How many elements pass a test does not depend on their order. */
  lemma {:induction false} FilterCountPermutation<T>(a: seq<T>, b: seq<T>, p: T -> bool)
    requires multiset(a) == multiset(b)
    ensures |Filter(a, p)| == |Filter(b, p)|
    decreases |a|
  {
    if |a| == 0 {
      assert |b| == |multiset(b)| == 0;
    } else {
      assert a[0] in multiset(b);
      var i :| 0 <= i < |b| && b[i] == a[0];
      MultisetRemove(a, b, i);
      FilterCountPermutation(a[1..], b[..i] + b[i + 1..], p);
      FilterCountRemove(b, i, p);
      FilterCountRemove(a, 0, p);
      assert a[..0] + a[1..] == a[1..];
    }
  }

  /** Filtering keeps exactly the elements that pass. */
  lemma FilterIff<T>(xs: seq<T>, p: T -> bool)
    ensures forall x :: x in Filter(xs, p) <==> x in xs && p(x)
  {
    forall x | x in xs && p(x) ensures x in Filter(xs, p) {
      FilterKeeps(xs, p, x);
    }
  }

  /** `xs.slice(0, end)`: a negative end counts back from the end of `xs`. */
  function SliceTo<T>(xs: seq<T>, end: int): (r: seq<T>)
    ensures r <= xs
    ensures |r| == if end >= 0 then (if end < |xs| then end else |xs|)
                   else (if |xs| + end > 0 then |xs| + end else 0)
  {
    if end >= 0 then (if end < |xs| then xs[..end] else xs)
    else (if |xs| + end > 0 then xs[..|xs| + end] else [])
  }

  /** Concatenation is associative. */
  lemma Regroup<T>(a: seq<T>, b: seq<T>, c: seq<T>)
    ensures a + (b + c) == a + b + c
  {
  }

  /** Pushing onto a sequence built from three parts extends the last part. */
  lemma SnocRegroup<T>(a: seq<T>, b: seq<T>, c: seq<T>, x: T)
    ensures a + b + c + [x] == a + b + (c + [x])
    ensures a + b + c + [x] == a + (b + c + [x])
  {
  }

  /** `xs.map(f)`. */
  function Map<T, U>(xs: seq<T>, f: T -> U): (r: seq<U>)
    ensures |r| == |xs| && forall i :: 0 <= i < |xs| ==> r[i] == f(xs[i])
  {
    seq(|xs|, i requires 0 <= i < |xs| => f(xs[i]))
  }

  lemma MapSnoc<T, U>(xs: seq<T>, x: T, f: T -> U)
    ensures Map(xs + [x], f) == Map(xs, f) + [f(x)]
  {
  }

  /** The first-occurrence order of the distinct elements of `xs`. */
  function Dedup<T(==,!new)>(xs: seq<T>): (r: seq<T>)
    ensures forall x :: x in r <==> x in xs
    ensures forall i, j :: 0 <= i < j < |r| ==> r[i] != r[j]
  {
    if |xs| == 0 then []
    else
      var d := Dedup(xs[..|xs| - 1]);
      assert xs == xs[..|xs| - 1] + [xs[|xs| - 1]];
      if xs[|xs| - 1] in d then d else d + [xs[|xs| - 1]]
  }

  predicate NonIncreasing<T>(s: seq<T>, key: T -> int) {
    forall i, j :: 0 <= i < j < |s| ==> key(s[i]) >= key(s[j])
  }

  function KeyIs<T>(key: T -> int, c: int): T -> bool {
    x => key(x) == c
  }

  /** Inserts `x` before the first element whose key is not larger than its own. */
  function InsertDesc<T>(x: T, s: seq<T>, key: T -> int): (r: seq<T>)
    ensures |r| == |s| + 1
  {
    if |s| == 0 then [x]
    else if key(s[0]) <= key(x) then [x] + s
    else [s[0]] + InsertDesc(x, s[1..], key)
  }

  /**
   * A stable sort by descending key: `xs.sort((a, b) => key(b) - key(a))`.
   * Its properties are SortDescSorted, SortDescPermutes and SortDescStable.
   */
  function SortDesc<T>(xs: seq<T>, key: T -> int): (r: seq<T>)
    ensures |r| == |xs|
  {
    if |xs| == 0 then [] else InsertDesc(xs[0], SortDesc(xs[1..], key), key)
  }

  lemma {:induction false} InsertDescPermutes<T>(x: T, s: seq<T>, key: T -> int)
    ensures multiset(InsertDesc(x, s, key)) == multiset(s) + multiset{x}
  {
    if |s| > 0 && key(s[0]) > key(x) {
      InsertDescPermutes(x, s[1..], key);
      assert s == [s[0]] + s[1..];
    }
  }

  lemma {:induction false} SortDescPermutes<T>(xs: seq<T>, key: T -> int)
    ensures multiset(SortDesc(xs, key)) == multiset(xs)
  {
    if |xs| > 0 {
      SortDescPermutes(xs[1..], key);
      InsertDescPermutes(xs[0], SortDesc(xs[1..], key), key);
      assert xs == [xs[0]] + xs[1..];
    }
  }

  lemma {:induction false} InsertDescSorted<T>(x: T, s: seq<T>, key: T -> int)
    requires NonIncreasing(s, key)
    ensures NonIncreasing(InsertDesc(x, s, key), key)
  {
    if |s| > 0 && key(s[0]) > key(x) {
      InsertDescSorted(x, s[1..], key);
      var t := InsertDesc(x, s[1..], key);
      InsertDescPermutes(x, s[1..], key);
      forall y | y in t ensures key(s[0]) >= key(y) {
        assert y in multiset(t);
        if y != x {
          assert y in multiset(s[1..]);
        }
      }
    }
  }

  lemma {:induction false} SortDescSorted<T>(xs: seq<T>, key: T -> int)
    ensures NonIncreasing(SortDesc(xs, key), key)
  {
    if |xs| > 0 {
      SortDescSorted(xs[1..], key);
      InsertDescSorted(xs[0], SortDesc(xs[1..], key), key);
    }
  }

  lemma {:induction false} InsertDescStable<T>(x: T, s: seq<T>, key: T -> int, c: int)
    ensures Filter(InsertDesc(x, s, key), KeyIs(key, c))
         == (if key(x) == c then [x] else []) + Filter(s, KeyIs(key, c))
  {
    var p := KeyIs(key, c);
    if |s| == 0 {
    } else if key(s[0]) <= key(x) {
      assert ([x] + s)[1..] == s;
    } else {
      var t := InsertDesc(x, s[1..], key);
      InsertDescStable(x, s[1..], key, c);
      var head := if p(s[0]) then [s[0]] else [];
      assert ([s[0]] + t)[0] == s[0] && ([s[0]] + t)[1..] == t;
      assert Filter(InsertDesc(x, s, key), p) == head + Filter(t, p);
      assert Filter(s, p) == head + Filter(s[1..], p);
      if key(x) == c {
        assert head == [];
      }
    }
  }

  /**
   * Stability: the elements sharing any one key come out in the order they went in.
   * Together with SortDescSorted and SortDescPermutes this fixes the result.
   */
  lemma {:induction false} SortDescStable<T>(xs: seq<T>, key: T -> int, c: int)
    ensures Filter(SortDesc(xs, key), KeyIs(key, c)) == Filter(xs, KeyIs(key, c))
  {
    if |xs| > 0 {
      SortDescStable(xs[1..], key, c);
      InsertDescStable(xs[0], SortDesc(xs[1..], key), key, c);
    }
  }

  /** Sorting what is already in order changes nothing. */
  lemma {:induction false} SortDescOfSorted<T>(xs: seq<T>, key: T -> int)
    requires NonIncreasing(xs, key)
    ensures SortDesc(xs, key) == xs
  {
    if |xs| > 0 {
      SortDescOfSorted(xs[1..], key);
      assert xs == [xs[0]] + xs[1..];
      if |xs| > 1 {
        assert key(xs[1..][0]) <= key(xs[0]);
      }
    }
  }

  /** When every key is the same, the stable sort changes nothing. */
  lemma SortDescEqualKeys<T>(xs: seq<T>, key: T -> int, c: int)
    requires forall x :: x in xs ==> key(x) == c
    ensures SortDesc(xs, key) == xs
  {
    var r := SortDesc(xs, key);
    SortDescPermutes(xs, key);
    forall x | x in r ensures KeyIs(key, c)(x) {
      assert x in multiset(r);
    }
    FilterAll(r, KeyIs(key, c));
    FilterAll(xs, KeyIs(key, c));
    SortDescStable(xs, key, c);
  }
}

=== FILE: Strings.dfy ===
/**
 * String helpers shared by the model: `Array.prototype.join`, `String.prototype.includes`,
 * and the decimal rendering JavaScript uses for `Number.prototype.toString` on integers.
 * Strings are sequences of characters; JavaScript lengths count UTF-16 code units, which
 * agree with characters for the Basic Multilingual Plane text this system handles.
 */
module Strings {
  import opened Types
  import opened Seqs

  /** `xs.join(sep)`. */
  function Join(xs: seq<string>, sep: string): string {
    if |xs| == 0 then ""
    else if |xs| == 1 then xs[0]
    else xs[0] + sep + Join(xs[1..], sep)
  }

  /** Where the k-th element starts inside `Join(xs, sep)`. */
  function JoinOffset(xs: seq<string>, sep: string, k: nat): nat
    requires k <= |xs|
  {
    if k == 0 then 0 else |xs[0]| + |sep| + JoinOffset(xs[1..], sep, k - 1)
  }

  /** Every joined element is found, unchanged, at its offset. */
  lemma {:induction false} JoinSlot(xs: seq<string>, sep: string, k: nat)
    requires k < |xs|
    ensures JoinOffset(xs, sep, k) + |xs[k]| <= |Join(xs, sep)|
    ensures Join(xs, sep)[JoinOffset(xs, sep, k)..JoinOffset(xs, sep, k) + |xs[k]|] == xs[k]
  {
    if |xs| == 1 {
    } else if k == 0 {
      assert Join(xs, sep) == xs[0] + (sep + Join(xs[1..], sep));
    } else {
      JoinSlot(xs[1..], sep, k - 1);
      var rest := Join(xs[1..], sep);
      var o := JoinOffset(xs[1..], sep, k - 1);
      var pre := xs[0] + sep;
      assert Join(xs, sep) == pre + rest;
      assert xs[1..][k - 1] == xs[k];
      assert (pre + rest)[|pre| + o..|pre| + o + |xs[k]|] == rest[o..o + |xs[k]|];
    }
  }

  /** The same for a join of mapped elements: the image of `xs[k]` is found at its offset. */
  lemma JoinMapSlot<T>(xs: seq<T>, f: T -> string, sep: string, k: nat)
    requires k < |xs|
    ensures var o := JoinOffset(Map(xs, f), sep, k);
      && o + |f(xs[k])| <= |Join(Map(xs, f), sep)|
      && Join(Map(xs, f), sep)[o..o + |f(xs[k])|] == f(xs[k])
  {
    JoinSlot(Map(xs, f), sep, k);
  }

  /** A join of non-empty elements is empty exactly when there is nothing to join. */
  lemma JoinEmptyIff(xs: seq<string>, sep: string)
    requires forall k :: 0 <= k < |xs| ==> |xs[k]| > 0
    ensures Join(xs, sep) == "" <==> |xs| == 0
  {
    if |xs| > 0 {
      JoinSlot(xs, sep, 0);
    }
  }

  /** Later elements start strictly after earlier ones end, by at least one separator. */
  lemma {:induction false} JoinOffsetsOrdered(xs: seq<string>, sep: string, k: nat, l: nat)
    requires k < l <= |xs|
    ensures JoinOffset(xs, sep, k) + |xs[k]| + |sep| <= JoinOffset(xs, sep, l)
  {
    if k > 0 {
      JoinOffsetsOrdered(xs[1..], sep, k - 1, l - 1);
    } else if l > 1 {
      JoinOffsetsOrdered(xs[1..], sep, 0, l - 1);
    }
  }

  /** The middle part of a three-part concatenation is found between the other two. */
  lemma Slot(pre: string, x: string, post: string)
    ensures (pre + x + post)[..|pre|] == pre
    ensures (pre + x + post)[|pre|..|pre| + |x|] == x
    ensures (pre + x + post)[|pre| + |x|..] == post
  {
  }

  /** A part found after two others, whatever follows it. */
  lemma SliceOfNested(a: string, b: string, c: string, d: string, e: string)
    ensures (a + b + c + d + e)[|a|..|a| + |b|] == b
  {
    assert a + b + c + d + e == a + b + (c + d + e);
  }

  /** A slice inside the first part of a concatenation is a slice of that part. */
  lemma SliceOfPrefix(a: string, b: string, i: nat, j: nat)
    requires i <= j <= |a|
    ensures (a + b)[i..j] == a[i..j]
  {
  }

  /** A slice inside the second part of a concatenation is a slice of that part. */
  lemma SliceOfSuffix(a: string, b: string, i: nat, j: nat)
    requires i <= j <= |b|
    ensures (a + b)[|a| + i..|a| + j] == b[i..j]
  {
  }

  /** `s.includes(p)`. */
  predicate Contains(s: string, p: string) {
    exists i :: 0 <= i <= |s| && p <= s[i..]
  }

  lemma ContainsAt(s: string, p: string, i: nat)
    requires i + |p| <= |s| && s[i..i + |p|] == p
    ensures Contains(s, p)
  {
    assert p <= s[i..];
  }

  lemma ContainsSlice(s: string, i: nat, j: nat)
    requires i <= j <= |s|
    ensures Contains(s, s[i..j])
  {
    ContainsAt(s, s[i..j], i);
  }

  /** An element of a join can be found in it. */
  lemma JoinContains(xs: seq<string>, sep: string, k: nat)
    requires k < |xs|
    ensures Contains(Join(xs, sep), xs[k])
  {
    JoinSlot(xs, sep, k);
    ContainsAt(Join(xs, sep), xs[k], JoinOffset(xs, sep, k));
  }

  /** A concatenation contains each of its parts. */
  lemma ContainsMiddle(a: string, x: string, b: string)
    ensures Contains(a + x + b, x)
  {
    ContainsAt(a + x + b, x, |a|);
  }

  /** Whatever the start of a concatenation contains, the concatenation contains. */
  lemma ContainsInPrefix(a: string, b: string, p: string)
    requires Contains(a, p)
    ensures Contains(a + b, p)
  {
    var i :| 0 <= i <= |a| && p <= a[i..];
    assert p <= (a + b)[i..];
  }

  /** Whatever the end of a concatenation contains, the concatenation contains. */
  lemma ContainsInSuffix(a: string, b: string, p: string)
    requires Contains(b, p)
    ensures Contains(a + b, p)
  {
    var i :| 0 <= i <= |b| && p <= b[i..];
    assert (a + b)[|a| + i..] == b[i..];
  }

  /** Whatever a part of a concatenation contains, the concatenation contains. */
  lemma ContainsInConcat(a: string, b: string, c: string, p: string)
    requires Contains(b, p)
    ensures Contains(a + b + c, p)
  {
    var i :| 0 <= i <= |b| && p <= b[i..];
    var s := a + b + c;
    assert s[|a| + i..|a| + i + |p|] == p;
    ContainsAt(s, p, |a| + i);
  }

  /** `s.indexOf(c)`, with `|s|` standing for "not found". */
  function IndexOf(s: string, c: char): (r: nat)
    ensures r <= |s| && (r < |s| ==> s[r] == c)
    ensures forall k :: 0 <= k < r ==> s[k] != c
    ensures c in s <==> r < |s|
  {
    if |s| == 0 || s[0] == c then 0 else 1 + IndexOf(s[1..], c)
  }

  predicate IsDigit(c: char) {
    '0' <= c <= '9'
  }

  predicate AllDigits(s: string) {
    forall i :: 0 <= i < |s| ==> IsDigit(s[i])
  }

  /** The length of the longest run of decimal digits that `s` starts with (what `\d+` consumes). */
  function DigitRun(s: string): (r: nat)
    ensures r <= |s| && AllDigits(s[..r])
    ensures r < |s| ==> !IsDigit(s[r])
  {
    if |s| == 0 || !IsDigit(s[0]) then 0 else 1 + DigitRun(s[1..])
  }

  /** The length of the run of decimal digits that starts at position `k` of `s`. */
  function DigitRunAt(s: string, k: nat): (r: nat)
    requires k <= |s|
    ensures k + r <= |s|
    decreases |s| - k
  {
    if k == |s| || !IsDigit(s[k]) then 0 else 1 + DigitRunAt(s, k + 1)
  }

  /** The run found at `k` is all digits and is the longest one there. */
  lemma {:induction false} DigitRunAtSpec(s: string, k: nat)
    requires k <= |s|
    ensures AllDigits(s[k..k + DigitRunAt(s, k)])
    ensures k + DigitRunAt(s, k) < |s| ==> !IsDigit(s[k + DigitRunAt(s, k)])
    decreases |s| - k
  {
    if k < |s| && IsDigit(s[k]) {
      DigitRunAtSpec(s, k + 1);
      assert s[k..k + DigitRunAt(s, k)] == [s[k]] + s[k + 1..k + 1 + DigitRunAt(s, k + 1)];
    }
  }

  function DigitChar(d: nat): (c: char)
    requires d < 10
    ensures IsDigit(c) && c as int - '0' as int == d
  {
    (d + '0' as int) as char
  }

  /** The value of a string of decimal digits (the empty string is 0). */
  function DigitsValue(s: string): nat
    requires AllDigits(s)
  {
    if |s| == 0 then 0 else DigitsValue(s[..|s| - 1]) * 10 + (s[|s| - 1] as int - '0' as int)
  }

  /** The only way `toString` writes a non-negative integer: no sign, no leading zero. */
  predicate Canonical(s: string) {
    |s| > 0 && AllDigits(s) && (s[0] != '0' || |s| == 1)
  }

  /** The decimal representation `n.toString()` of a non-negative integer. */
  function NatToString(n: nat): (r: string)
    ensures Canonical(r)
  {
    if n < 10 then [DigitChar(n)] else NatToString(n / 10) + [DigitChar(n % 10)]
  }

  /** `n.toString()` for any integer. */
  function IntToString(n: int): string {
    if n < 0 then "-" + NatToString(-n) else NatToString(n)
  }

  /** Reading back the decimal rendering gives the number. */
  lemma {:induction false} NatToStringRoundTrip(n: nat)
    ensures DigitsValue(NatToString(n)) == n
  {
    if n >= 10 {
      NatToStringRoundTrip(n / 10);
      var s := NatToString(n);
      assert s[..|s| - 1] == NatToString(n / 10);
    }
  }

  lemma {:induction false} LeadingNonZeroPositive(s: string)
    requires |s| > 0 && AllDigits(s) && s[0] != '0'
    ensures DigitsValue(s) > 0
  {
    if |s| > 1 {
      LeadingNonZeroPositive(s[..|s| - 1]);
    }
  }

  /** Rendering the value of a canonical digit string gives the string back. */
  lemma {:induction false} CanonicalRoundTrip(s: string)
    requires Canonical(s)
    ensures NatToString(DigitsValue(s)) == s
  {
    if |s| > 1 {
      var pre := s[..|s| - 1];
      LeadingNonZeroPositive(pre);
      CanonicalRoundTrip(pre);
      var v := DigitsValue(s);
      assert v / 10 == DigitsValue(pre) && v % 10 == s[|s| - 1] as int - '0' as int;
      assert s == pre + [s[|s| - 1]];
    }
  }

  /**
   * An integer prints as a given digit string exactly when the string is canonical
   * and denotes that integer; so "07" or "007" never equals any `toString()`.
   */
  lemma IntToStringMatches(n: int, digits: string)
    requires |digits| > 0 && AllDigits(digits)
    ensures IntToString(n) == digits <==> Canonical(digits) && n == DigitsValue(digits)
  {
    if n < 0 {
      assert IntToString(n)[0] == '-';
      assert !IsDigit('-');
      if Canonical(digits) && n == DigitsValue(digits) {
        assert false;
      }
    } else {
      if IntToString(n) == digits {
        NatToStringRoundTrip(n);
      }
      if Canonical(digits) && n == DigitsValue(digits) {
        CanonicalRoundTrip(digits);
      }
    }
  }

  /**
   * Lexicographic order by character code.  `localeCompare` agrees with it on
   * the `YYYY-MM-DD` day strings it is used on.
   */
  predicate LexLe(a: string, b: string)
    decreases |a|
  {
    |a| == 0 || (|b| > 0 && (a[0] < b[0] || (a[0] == b[0] && LexLe(a[1..], b[1..]))))
  }

  lemma {:induction false} LexLeTotal(a: string, b: string)
    ensures LexLe(a, b) || LexLe(b, a)
    decreases |a|
  {
    if |a| > 0 && |b| > 0 && a[0] == b[0] {
      LexLeTotal(a[1..], b[1..]);
    }
  }

  lemma {:induction false} LexLeTransitive(a: string, b: string, c: string)
    requires LexLe(a, b) && LexLe(b, c)
    ensures LexLe(a, c)
    decreases |a|
  {
    if |a| > 0 && a[0] == b[0] && b[0] == c[0] {
      LexLeTransitive(a[1..], b[1..], c[1..]);
    }
  }

  /** The white space and line terminators `parseInt` skips before the number. */
  predicate IsJsSpace(c: char) {
    || c == ' ' || c == '\t' || c == '\n' || c == '\r' || c == '\U{000B}' || c == '\U{000C}'
    || c == '\U{00A0}' || c == '\U{1680}' || '\U{2000}' <= c <= '\U{200A}' || c == '\U{2028}'
    || c == '\U{2029}' || c == '\U{202F}' || c == '\U{205F}' || c == '\U{3000}' || c == '\U{FEFF}'
  }

  /** The length of the white space `s` starts with. */
  function SpaceRun(s: string): (r: nat)
    ensures r <= |s| && (r < |s| ==> !IsJsSpace(s[r]))
    ensures forall i :: 0 <= i < r ==> IsJsSpace(s[i])
  {
    if |s| == 0 || !IsJsSpace(s[0]) then 0 else 1 + SpaceRun(s[1..])
  }

  predicate IsHexDigit(c: char) {
    IsDigit(c) || 'a' <= c <= 'f' || 'A' <= c <= 'F'
  }

  /** The length of the longest run of hexadecimal digits that `s` starts with. */
  function HexRun(s: string): (r: nat)
    ensures r <= |s| && (r < |s| ==> !IsHexDigit(s[r]))
    ensures forall i :: 0 <= i < r ==> IsHexDigit(s[i])
  {
    if |s| == 0 || !IsHexDigit(s[0]) then 0 else 1 + HexRun(s[1..])
  }

  function HexDigitValue(c: char): (v: nat)
    requires IsHexDigit(c)
    ensures v < 16
  {
    if IsDigit(c) then c as int - '0' as int
    else if 'a' <= c <= 'f' then c as int - 'a' as int + 10
    else c as int - 'A' as int + 10
  }

  /** The value of a string of hexadecimal digits. */
  function HexValue(s: string): nat
    requires forall i :: 0 <= i < |s| ==> IsHexDigit(s[i])
  {
    if |s| == 0 then 0 else HexValue(s[..|s| - 1]) * 16 + HexDigitValue(s[|s| - 1])
  }

  /**
   * The unsigned part of `parseInt` without a radix: a `0x`/`0X` prefix selects
   * hexadecimal, otherwise the longest decimal prefix is read; no digits is `NaN`
   * (`None`).
   */
  function ParseUnsigned(u: string): Option<nat> {
    if |u| >= 2 && u[0] == '0' && (u[1] == 'x' || u[1] == 'X') then
      var n := HexRun(u[2..]);
      if n == 0 then None else Some(HexValue(u[2..][..n]))
    else
      var n := DigitRun(u);
      if n == 0 then None else Some(DigitsValue(u[..n]))
  }

  /**
   * `parseInt(s)`: leading white space is skipped, one sign is read, and the
   * digits that follow are read up to the first character that is not one.
   * `None` stands for `NaN`.
   */
  function ParseInt(s: string): Option<int> {
    var t := s[SpaceRun(s)..];
    if |t| > 0 && t[0] == '-' then
      match ParseUnsigned(t[1..])
      case None => None
      case Some(v) => Some(-(v as int))
    else if |t| > 0 && t[0] == '+' then ParseUnsigned(t[1..])
    else ParseUnsigned(t)
  }

  /** Reading a decimal prefix stops at the first character that is not a digit. */
  lemma ParseIntDecimalPrefix(digits: string, rest: string)
    requires |digits| > 0 && AllDigits(digits)
    requires |rest| > 0 ==> !IsDigit(rest[0]) && rest[0] != 'x' && rest[0] != 'X'
    ensures ParseInt(digits + rest) == Some(DigitsValue(digits))
  {
    var s := digits + rest;
    assert !IsJsSpace(s[0]);
    assert s[SpaceRun(s)..] == s;
    DigitRunOfPrefix(digits, rest);
    assert s[..|digits|] == digits;
  }

  lemma {:induction false} DigitRunOfPrefix(digits: string, rest: string)
    requires AllDigits(digits)
    requires |rest| > 0 ==> !IsDigit(rest[0])
    ensures DigitRun(digits + rest) == |digits|
  {
    if |digits| > 0 {
      assert (digits + rest)[1..] == digits[1..] + rest;
      DigitRunOfPrefix(digits[1..], rest);
    }
  }

  /** A run of `n` digits followed by a non-digit. */
  lemma {:induction false} DigitRunExact(t: string, n: nat)
    requires n < |t| && !IsDigit(t[n])
    requires forall k :: 0 <= k < n ==> IsDigit(t[k])
    ensures DigitRun(t) == n
  {
    if n > 0 {
      DigitRunExact(t[1..], n - 1);
    }
  }

  /** A whole string of decimal digits reads as its value. */
  lemma ParseUnsignedOfDigits(d: string)
    requires |d| > 0 && AllDigits(d)
    ensures ParseUnsigned(d) == Some(DigitsValue(d))
  {
    DigitRunOfPrefix(d, []);
    assert d + [] == d && d[..|d|] == d;
    if |d| >= 2 {
      assert IsDigit(d[1]);
    }
  }

  /** A digit string reads back as its value. */
  lemma ParseIntOfDigits(d: string)
    requires |d| > 0 && AllDigits(d)
    ensures ParseInt(d) == Some(DigitsValue(d))
  {
    ParseUnsignedOfDigits(d);
    assert IsDigit(d[0]);
    assert SpaceRun(d) == 0;
    assert d[0..] == d;
  }

  /** After a minus sign `parseInt` reads the unsigned part and negates it. */
  lemma ParseIntAfterMinus(u: string, v: nat)
    requires ParseUnsigned(u) == Some(v)
    ensures ParseInt("-" + u) == Some(-(v as int))
  {
    var s := "-" + u;
    assert s[0] == '-';
    assert SpaceRun(s) == 0;
    assert s[0..] == s && s[1..] == u;
  }

  /** `parseInt` reads back what `toString` writes. */
  lemma ParseIntOfToString(n: int)
    ensures ParseInt(IntToString(n)) == Some(n)
  {
    var m: nat := if n < 0 then -n else n;
    NatToStringRoundTrip(m);
    if n < 0 {
      ParseUnsignedOfDigits(NatToString(m));
      ParseIntAfterMinus(NatToString(m), m);
    } else {
      ParseIntOfDigits(NatToString(m));
    }
  }

}

=== FILE: Templates.dfy ===
/**
 * The prompt composer: the hypothesis-extraction prompt, the numbered
 * hypothesis list, and the analysis prompt that wraps the theme, the optional
 * interview configuration and research document, the hypotheses and the
 * session transcript in a fixed Markdown template.
 *
 * The template text is kept as constants, one per stretch of literal text
 * between two interpolations, so that each property below is about where an
 * argument lands in the prompt.
 */
module Templates {
  import opened Types
  import opened Strings

  /** The extraction prompt up to the theme title. */
  const EXTRACTION_OPENING: string := @"あなたは政策分析の専門家です。以下のインタビューデータから、検証すべき主要な仮説を抽出してください。

# テーマ
"

  /** Between the theme title and its description. */
  const EXTRACTION_DESCRIPTION_HEADING: string := @"

# 説明
"

  /** Between the description and the sample sessions. */
  const EXTRACTION_SAMPLES_HEADING: string := @"

# サンプルインタビューデータ
"

  /** The instructions and the JSON output format that close the extraction prompt. */
  const EXTRACTION_TASK: string := @"

# タスク
上記のサンプルから、以下の基準で**5〜8個の検証可能な仮説**を抽出してください：

1. **具体性**: 曖昧な表現ではなく、検証可能な形式で記述
2. **多様性**: 賛成・反対、期待・懸念など、多角的な視点を含む
3. **重要度**: インタビュー参加者が繰り返し言及している論点を優先
4. **証拠性**: セッション内の具体的な発言で裏付けられる内容

# 出力形式（JSON）
```json
[
  {
    ""id"": ""H1"",
    ""category"": ""カテゴリ名（例: セキュリティへの懸念）"",
    ""description"": ""仮説の詳細説明（1〜2文）"",
    ""priority"": ""high"" | ""medium"" | ""low""
  }
]
```

**必ず有効なJSON配列で出力してください。説明文は含めないでください。**"

  /** The research block up to the research title. */
  const RESEARCH_OPENING: string := @"
【Deep Research結果】
以下は、"

  /** Between the research title and its body. */
  const RESEARCH_INTRO: string := @"に関する詳細な調査結果です。この情報を参考にして、インタビュー分析の文脈を深めてください。

"

  /** The analysis prompt up to the theme title. */
  const ANALYSIS_OPENING: string := @"あなたは複数のインタビューセッションを分析し、横断的な考察を行う専門家です。
下記の情報を元に、インタビューのまとめレポートを作成してください。

## インタビューの背景

以下は「"

  /** Between the theme title and the description. */
  const ANALYSIS_THEME_CLAUSE: string := @"」というテーマで実施されたインタビューの分析依頼です。

【説明】
"

  /** Between the optional blocks and the second mention of the theme title. */
  const ANALYSIS_HYPOTHESES_HEADING: string := @"
---

## 検証対象の仮説

以下の「"

  /** Between the theme title and the hypotheses. */
  const ANALYSIS_HYPOTHESES_INTRO: string := @"」における主要な仮説・提案について、インタビューデータから支持する意見と反論・異なる視点を抽出し、検証してください：

【検証対象の仮説】

"

  /** Between the hypotheses and the session data. */
  const ANALYSIS_SESSIONS_HEADING: string := @"

---

## セッションデータ

以下は実際のインタビューセッションのデータです。このデータを横断的に分析してください：

"

  /** Between the session data and the mandated report header. */
  const ANALYSIS_TASK: string := @"

---

## あなたのタスク

上記のインタビューセッションを横断的に分析し、各仮説ごとに支持する意見と反論・異なる視点を抽出してMarkdownレポートを生成してください。

**必ず以下の出力フォーマットに従ってください：**

"

  /** The output format, between the header and the rule that repeats it. */
  const ANALYSIS_FORMAT: string := @"

## まとめ

[全体を通じて見えてきた主要なテーマ、パターン、重要な発見を3-4段落で詳細に要約してください。このセクションは最低でも800字以上とし、主要な論点を網羅的に記述してください。]

## 仮説1: [事前に設定した仮説]

### 支持する意見
- [具体的な発言の引用1 with ""#セッション番号"" 引用] - この発言の背景や文脈についても詳しく説明
- [具体的な発言の引用2 with ""#セッション番号"" 引用] - この発言の背景や文脈についても詳しく説明
- [具体的な発言の引用3 with ""#セッション番号"" 引用] - この発言の背景や文脈についても詳しく説明
- [具体的な発言の引用4 with ""#セッション番号"" 引用] - この発言の背景や文脈についても詳しく説明
- [具体的な発言の引用5 with ""#セッション番号"" 引用] - この発言の背景や文脈についても詳しく説明
[各仮説について、最低でも5つ以上の異なる視点からの意見を引用してください]

### 反論・異なる視点
- [反論1 with ""#セッション番号"" 引用] - なぜこの反論が重要なのか詳細に説明
- [反論2 with ""#セッション番号"" 引用] - なぜこの反論が重要なのか詳細に説明
- [反論3 with ""#セッション番号"" 引用] - なぜこの反論が重要なのか詳細に説明
- [反論4 with ""#セッション番号"" 引用] - なぜこの反論が重要なのか詳細に説明
[支持意見と対立する視点も同様に詳細に記述してください]

### 検証結果
[この仮説に対する総合的な評価を3-4段落で詳しく記述してください。賛否両論をバランスよく整理し、今後の政策検討に必要な示唆を提供してください。このセクションは最低でも400字以上としてください。]

## 仮説2: [事前に設定した仮説]

[同様に、事前に設定した各仮説について、上記と同じ詳細度で章立てして検証結果を記述してください。各仮説のセクションは最低でも1,000字以上を目安としてください。]

---

**重要な制約事項:**
1. Markdownフォーマットで出力してください
2. HTMLタグは使用しないでください
3. 太字マークダウン（**）は使用しないでください
4. 前置きや説明は不要で、「"

  /** The remaining rules that close the analysis prompt. */
  const ANALYSIS_RULES: string := @"」から始めてください
5. 具体的な発言を引用する場合は、必ず「""発言内容""(#セッション番号)」の形式で出典を明記してください
6. 個々のセッションの要約ではなく、横断的な分析に焦点を当ててください
7. 【重要】インタビュー参加者の生の声を積極的に引用してください
8. 【重要】数量的表現を使用禁止：「多くの参加者が」「一部の人が」「ほとんどの人が」「大半が」「少数だが」
9. 【重要】価値判断を使用禁止：「さらに踏み込み」「より高度な」「深い洞察」「優れた提案」「重要度が高い」
10. 【重要】レトリックや主観的な修飾語を排除し、学術論文のように客観的かつ簡潔に記述してください
11. 【最重要】Target output length: 10,000-20,000 characters. 各仮説について最低10個以上の異なるセッションから具体的な引用を含めてください
12. 【最重要】引用は合計で最低50個以上含めることを必須とします

**今すぐ上記フォーマットでレポートの作成を開始してください。前置きは一切不要です。**"

  // ---------------------------------------------------------------------------
  // Hypothesis extraction

  /** The literal stretches of the extraction prompt, between its three interpolations. */
  datatype ExtractionText = ExtractionText(opening: string, descriptionHeading: string,
                                           samplesHeading: string, task: string)

  /** The wording `generateHypothesisExtractionPrompt` uses. */
  const EXTRACTION_TEXT: ExtractionText :=
    ExtractionText(EXTRACTION_OPENING, EXTRACTION_DESCRIPTION_HEADING, EXTRACTION_SAMPLES_HEADING, EXTRACTION_TASK)

  /** The extraction prompt composed around a given wording. */
  function ExtractionPrompt(text: ExtractionText, themeTitle: string, themeDescription: string,
                            sampleSessions: string): (r: string)
    ensures |r| == |text.opening| + |themeTitle| + |text.descriptionHeading| + |themeDescription|
                   + |text.samplesHeading| + |sampleSessions| + |text.task|
  {
    text.opening + themeTitle + text.descriptionHeading + themeDescription
      + text.samplesHeading + sampleSessions + text.task
  }

  /** `generateHypothesisExtractionPrompt`. */
  function GenerateHypothesisExtractionPrompt(themeTitle: string, themeDescription: string,
                                              sampleSessions: string): string {
    ExtractionPrompt(EXTRACTION_TEXT, themeTitle, themeDescription, sampleSessions)
  }

  /**
   * The title, the description and the sample sessions each sit verbatim at an
   * offset fixed by the lengths of the arguments before them, between the
   * unchanged stretches of wording, so the prompt determines them.
   */
  lemma ExtractionPromptEmbedsArguments(text: ExtractionText, themeTitle: string, themeDescription: string,
                                        sampleSessions: string)
    ensures var p := ExtractionPrompt(text, themeTitle, themeDescription, sampleSessions);
      var t := |text.opening|;
      var d := t + |themeTitle| + |text.descriptionHeading|;
      var s := d + |themeDescription| + |text.samplesHeading|;
      && p[..t] == text.opening
      && p[t..t + |themeTitle|] == themeTitle
      && p[d..d + |themeDescription|] == themeDescription
      && p[s..s + |sampleSessions|] == sampleSessions
      && p[s + |sampleSessions|..] == text.task
  {
    var p := ExtractionPrompt(text, themeTitle, themeDescription, sampleSessions);
    var t := |text.opening|;
    var d := t + |themeTitle| + |text.descriptionHeading|;
    var s := d + |themeDescription| + |text.samplesHeading|;
    var a1 := text.opening + themeTitle;
    var a2 := a1 + text.descriptionHeading + themeDescription;
    var a3 := a2 + text.samplesHeading + sampleSessions;
    assert p == a3 + text.task;
    assert p[..t] == a1[..t];
    assert p[t..t + |themeTitle|] == a1[t..];
    assert p[d..d + |themeDescription|] == a2[d..];
    assert p[s..s + |sampleSessions|] == a3[s..];
  }

  // ---------------------------------------------------------------------------
  // Hypotheses

  /** `仮説${idx + 1}: ${category}\n${description}`. */
  function HypothesisEntry(idx: nat, h: Hypothesis): (r: string)
    ensures |r| > 0
  {
    "仮説" + NatToString(idx + 1) + ": " + h.category + "\n" + h.description
  }

  function HypothesisEntries(hypotheses: seq<Hypothesis>): (r: seq<string>)
    ensures |r| == |hypotheses|
    ensures forall k :: 0 <= k < |hypotheses| ==> r[k] == HypothesisEntry(k, hypotheses[k])
  {
    seq(|hypotheses|, k requires 0 <= k < |hypotheses| => HypothesisEntry(k, hypotheses[k]))
  }

  /** `formatHypothesesForPrompt`: the numbered entries joined by blank lines. */
  function FormatHypothesesForPrompt(hypotheses: seq<Hypothesis>): (r: string)
    ensures r == "" <==> |hypotheses| == 0
  {
    var entries := HypothesisEntries(hypotheses);
    JoinEmptyIff(entries, "\n\n");
    Join(entries, "\n\n")
  }

  /**
   * Every hypothesis appears, numbered by its position, and the entries appear
   * in list order, each one ending before the next begins.
   */
  lemma HypothesesInListOrder(hypotheses: seq<Hypothesis>, k: nat, l: nat)
    requires k < l < |hypotheses|
    ensures var text := FormatHypothesesForPrompt(hypotheses);
      var entries := HypothesisEntries(hypotheses);
      var ok := JoinOffset(entries, "\n\n", k);
      var ol := JoinOffset(entries, "\n\n", l);
      && ok + |HypothesisEntry(k, hypotheses[k])| < ol
      && ol + |HypothesisEntry(l, hypotheses[l])| <= |text|
      && text[ok..ok + |HypothesisEntry(k, hypotheses[k])|] == HypothesisEntry(k, hypotheses[k])
      && text[ol..ol + |HypothesisEntry(l, hypotheses[l])|] == HypothesisEntry(l, hypotheses[l])
  {
    var entries := HypothesisEntries(hypotheses);
    JoinSlot(entries, "\n\n", k);
    JoinSlot(entries, "\n\n", l);
    JoinOffsetsOrdered(entries, "\n\n", k, l);
  }

  // ---------------------------------------------------------------------------
  // Interview configuration and research document

  /** One question of the interview configuration; a missing field is "". */
  datatype Question = Question(topic: string, mainQuestion: string)

  /**
   * The optional interview configuration.  Missing strings are "", and a
   * missing list is the empty list: the composer treats them alike.
   */
  datatype InterviewConfig = InterviewConfig(
    description: string,
    overview: string,
    themes: seq<string>,
    questions: seq<Question>,
    knowledgeContext: string)

  /** `interviewConfig?.description || themeConfig.description`. */
  function Description(theme: ThemeConfig, interview: Option<InterviewConfig>): (r: string)
    ensures interview.Some? && interview.value.description != "" ==> r == interview.value.description
    ensures interview.None? || interview.value.description == "" ==> r == theme.description
  {
    if interview.Some? && interview.value.description != "" then interview.value.description
    else theme.description
  }

  /** `items.map((t, i) => `${i + 1}. ${t}`).join('\n')`. */
  function NumberedList(items: seq<string>): (r: string)
    ensures r == "" <==> |items| == 0
  {
    var lines := seq(|items|, i requires 0 <= i < |items| => NatToString(i + 1) + ". " + items[i]);
    JoinEmptyIff(lines, "\n");
    Join(lines, "\n")
  }

  /** `${i + 1}. **${topic}**: ${mainQuestion}` for each question. */
  function QuestionsList(questions: seq<Question>): (r: string)
    ensures r == "" <==> |questions| == 0
  {
    NumberedList(seq(|questions|, i requires 0 <= i < |questions| =>
      "**" + questions[i].topic + "**: " + questions[i].mainQuestion))
  }

  /** `text ? `${heading}\n${text}\n` : ''`. */
  function Labeled(heading: string, text: string): (r: string)
    ensures r == "" <==> text == ""
    ensures text != "" ==> r == heading + "\n" + text + "\n"
  {
    if text == "" then "" else heading + "\n" + text + "\n"
  }

  function OverviewBlock(interview: Option<InterviewConfig>): string {
    Labeled("【概要】", if interview.Some? then interview.value.overview else "")
  }

  function ThemesBlock(interview: Option<InterviewConfig>): string {
    Labeled("【主なテーマ】", if interview.Some? then NumberedList(interview.value.themes) else "")
  }

  function QuestionsBlock(interview: Option<InterviewConfig>): string {
    Labeled("【インタビューで扱った質問】", if interview.Some? then QuestionsList(interview.value.questions) else "")
  }

  function KnowledgeBlock(interview: Option<InterviewConfig>): string {
    Labeled("【参考知識・コンテキスト】", if interview.Some? then interview.value.knowledgeContext else "")
  }

  /**
   * Each optional block of the background is left out exactly when its
   * source is missing or empty.
   */
  lemma OptionalBlocksOmittedWhenEmpty(interview: Option<InterviewConfig>)
    ensures OverviewBlock(interview) == "" <==> interview.None? || interview.value.overview == ""
    ensures ThemesBlock(interview) == "" <==> interview.None? || |interview.value.themes| == 0
    ensures QuestionsBlock(interview) == "" <==> interview.None? || |interview.value.questions| == 0
    ensures KnowledgeBlock(interview) == "" <==> interview.None? || interview.value.knowledgeContext == ""
  {
  }

  /** `deepResearch.fullContent || deepResearch.summary`. */
  function ResearchBody(research: DeepResearch): (r: string)
    ensures research.fullContent != "" ==> r == research.fullContent
    ensures research.fullContent == "" ==> r == research.summary
  {
    if research.fullContent != "" then research.fullContent else research.summary
  }

  /** The numbered key findings, or nothing when there are none. */
  function KeyFindingsBlock(keyFindings: seq<string>): (r: string)
    ensures r == "" <==> |keyFindings| == 0
  {
    if |keyFindings| > 0 then "主要な発見:\n" + NumberedList(keyFindings) + "\n" else ""
  }

  /** The research block of the background; nothing without a research document. */
  function DeepResearchContext(research: Option<DeepResearch>): string {
    match research
    case None => ""
    case Some(d) => RESEARCH_OPENING + d.title + RESEARCH_INTRO + ResearchBody(d) + "\n\n" + KeyFindingsBlock(d.keyFindings) + "\n"
  }

  /**
   * Without a research document there is no research block.  With one, the
   * block names the research title, carries the body right after the fixed
   * introduction, and lists key findings only when there are some.
   */
  lemma DeepResearchBlockRules(research: Option<DeepResearch>)
    ensures research.None? ==> DeepResearchContext(research) == ""
    ensures research.Some? ==>
      var d := research.value;
      var block := DeepResearchContext(research);
      var b := |RESEARCH_OPENING| + |d.title| + |RESEARCH_INTRO|;
      && block[|RESEARCH_OPENING|..|RESEARCH_OPENING| + |d.title|] == d.title
      && block[b..b + |ResearchBody(d)|] == ResearchBody(d)
      && block[b + |ResearchBody(d)|..] == "\n\n" + KeyFindingsBlock(d.keyFindings) + "\n"
  {
    if research.Some? {
      var d := research.value;
      var a1 := RESEARCH_OPENING + d.title;
      var a2 := a1 + RESEARCH_INTRO + ResearchBody(d);
      var block := DeepResearchContext(research);
      assert block == a2 + ("\n\n" + KeyFindingsBlock(d.keyFindings) + "\n");
      assert block[|RESEARCH_OPENING|..|a1|] == a1[|RESEARCH_OPENING|..];
      assert block[|a1| + |RESEARCH_INTRO|..|a2|] == a2[|a1| + |RESEARCH_INTRO|..];
    }
  }

  // ---------------------------------------------------------------------------
  // The analysis prompt

  /**
   * The fixed text of the analysis prompt, one field per stretch between two
   * interpolations.  The prompt is composed for any such text, so that what is
   * proved about where the arguments land does not hinge on the wording.
   */
  datatype AnalysisText = AnalysisText(
    opening: string, themeClause: string, hypothesesHeading: string, hypothesesIntro: string,
    sessionsHeading: string, task: string, format: string, rules: string)

  /** The wording `generateAnalysisPrompt` uses. */
  const ANALYSIS_TEXT: AnalysisText := AnalysisText(
    ANALYSIS_OPENING, ANALYSIS_THEME_CLAUSE, ANALYSIS_HYPOTHESES_HEADING, ANALYSIS_HYPOTHESES_INTRO,
    ANALYSIS_SESSIONS_HEADING, ANALYSIS_TASK, ANALYSIS_FORMAT, ANALYSIS_RULES)

  /** The opening line that names the theme, up to the description. */
  function ThemeLead(text: AnalysisText, title: string): string {
    text.opening + title + text.themeClause
  }

  /** The optional interview blocks and the research context, after the description. */
  function InterviewAndResearch(interview: Option<InterviewConfig>, research: Option<DeepResearch>): string {
    "\n\n"
      + OverviewBlock(interview) + "\n"
      + ThemesBlock(interview) + "\n"
      + QuestionsBlock(interview) + "\n"
      + KnowledgeBlock(interview) + "\n"
      + DeepResearchContext(research)
  }

  /** The background section: theme, description, interview configuration and research. */
  function Background(text: AnalysisText, theme: ThemeConfig, interview: Option<InterviewConfig>,
                      research: Option<DeepResearch>): string {
    ThemeLead(text, theme.title) + Description(theme, interview) + InterviewAndResearch(interview, research)
  }

  /** Everything before the hypotheses. */
  function BeforeHypotheses(text: AnalysisText, theme: ThemeConfig, interview: Option<InterviewConfig>,
                            research: Option<DeepResearch>): string {
    Background(text, theme, interview, research) + text.hypothesesHeading + theme.title + text.hypothesesIntro
  }

  /** Everything before the session data. */
  function BeforeSessions(text: AnalysisText, theme: ThemeConfig, interview: Option<InterviewConfig>,
                          research: Option<DeepResearch>): string {
    BeforeHypotheses(text, theme, interview, research) + FormatHypothesesForPrompt(theme.hypotheses) + text.sessionsHeading
  }

  /** The header the report must start with, `# <title> - 集約レポート`. */
  function ReportHeader(title: string): string {
    "# " + title + " - 集約レポート"
  }

  /** The output format and the rules, which repeat the header. */
  function FormatAndRules(text: AnalysisText, title: string): string {
    text.format + ReportHeader(title) + text.rules
  }

  /** Everything after the session data: the task, the mandated header, the format and the rules. */
  function AfterSessions(text: AnalysisText, title: string): string {
    text.task + ReportHeader(title) + FormatAndRules(text, title)
  }

  /** The analysis prompt composed around a given wording. */
  function AnalysisPrompt(text: AnalysisText, theme: ThemeConfig, sessionData: string,
                          interview: Option<InterviewConfig>, research: Option<DeepResearch>): (r: string)
    ensures |r| == |BeforeSessions(text, theme, interview, research)| + |sessionData| + |AfterSessions(text, theme.title)|
  {
    BeforeSessions(text, theme, interview, research) + sessionData + AfterSessions(text, theme.title)
  }

  /** `generateAnalysisPrompt`: the analysis prompt in its fixed wording. */
  function GenerateAnalysisPrompt(theme: ThemeConfig, sessionData: string,
                                  interview: Option<InterviewConfig>, research: Option<DeepResearch>): string {
    AnalysisPrompt(ANALYSIS_TEXT, theme, sessionData, interview, research)
  }

  /**
   * The session data lands verbatim at an offset that does not depend on it,
   * and the text around it is the same whatever the session data is.
   */
  lemma SessionDataEmbeddedVerbatim(text: AnalysisText, theme: ThemeConfig, interview: Option<InterviewConfig>,
                                    research: Option<DeepResearch>, sessionData: string, otherData: string)
    ensures var p := AnalysisPrompt(text, theme, sessionData, interview, research);
      var q := AnalysisPrompt(text, theme, otherData, interview, research);
      var k := |BeforeSessions(text, theme, interview, research)|;
      && p[k..k + |sessionData|] == sessionData
      && p[..k] == q[..k]
      && p[k + |sessionData|..] == q[k + |otherData|..]
  {
    var pre := BeforeSessions(text, theme, interview, research);
    var post := AfterSessions(text, theme.title);
    Slot(pre, sessionData, post);
    Slot(pre, otherData, post);
  }

  /**
   * The formatted hypotheses appear in the prompt, so every hypothesis is
   * there, in list order.
   */
  lemma HypothesesInPrompt(text: AnalysisText, theme: ThemeConfig, sessionData: string,
                           interview: Option<InterviewConfig>, research: Option<DeepResearch>)
    ensures var p := AnalysisPrompt(text, theme, sessionData, interview, research);
      var h := FormatHypothesesForPrompt(theme.hypotheses);
      var k := |BeforeHypotheses(text, theme, interview, research)|;
      p[k..k + |h|] == h
  {
    var h := FormatHypothesesForPrompt(theme.hypotheses);
    var bh := BeforeHypotheses(text, theme, interview, research);
    SliceOfNested(bh, h, text.sessionsHeading, sessionData, AfterSessions(text, theme.title));
  }

  /** The prompt spells out the mandated report header for the theme's title. */
  lemma ReportHeaderInPrompt(text: AnalysisText, theme: ThemeConfig, sessionData: string,
                             interview: Option<InterviewConfig>, research: Option<DeepResearch>)
    ensures Contains(AnalysisPrompt(text, theme, sessionData, interview, research), ReportHeader(theme.title))
  {
    var bs := BeforeSessions(text, theme, interview, research);
    var header := ReportHeader(theme.title);
    ContainsMiddle(text.task, header, FormatAndRules(text, theme.title));
    ContainsInSuffix(bs + sessionData, AfterSessions(text, theme.title), header);
  }

  /** The description is shown after the theme's opening line: the interview's when it has one, else the theme's. */
  lemma DescriptionInPrompt(text: AnalysisText, theme: ThemeConfig, sessionData: string,
                            interview: Option<InterviewConfig>, research: Option<DeepResearch>)
    ensures var p := AnalysisPrompt(text, theme, sessionData, interview, research);
      var k := |ThemeLead(text, theme.title)|;
      p[k..k + |Description(theme, interview)|] == Description(theme, interview)
  {
    var lead, d := ThemeLead(text, theme.title), Description(theme, interview);
    var bg := Background(text, theme, interview, research);
    var bh := BeforeHypotheses(text, theme, interview, research);
    var bs := BeforeSessions(text, theme, interview, research);
    var i, j := |lead|, |lead| + |d|;
    SliceOfSuffix(lead, d, 0, |d|);
    SliceOfPrefix(lead + d, InterviewAndResearch(interview, research), i, j);
    SliceOfPrefix(bg, text.hypothesesHeading, i, j);
    SliceOfPrefix(bg + text.hypothesesHeading, theme.title, i, j);
    SliceOfPrefix(bg + text.hypothesesHeading + theme.title, text.hypothesesIntro, i, j);
    SliceOfPrefix(bh, FormatHypothesesForPrompt(theme.hypotheses), i, j);
    SliceOfPrefix(bh + FormatHypothesesForPrompt(theme.hypotheses), text.sessionsHeading, i, j);
    SliceOfPrefix(bs, sessionData, i, j);
    SliceOfPrefix(bs + sessionData, AfterSessions(text, theme.title), i, j);
  }

  /** Whatever the wording, the prompt contains the header, the session data, the hypotheses and the description. */
  lemma PromptContainsArguments(text: AnalysisText, theme: ThemeConfig, sessionData: string,
                                interview: Option<InterviewConfig>, research: Option<DeepResearch>)
    ensures var p := AnalysisPrompt(text, theme, sessionData, interview, research);
      && Contains(p, ReportHeader(theme.title))
      && Contains(p, sessionData)
      && Contains(p, FormatHypothesesForPrompt(theme.hypotheses))
      && Contains(p, Description(theme, interview))
  {
    var lead := ThemeLead(text, theme.title);
    var desc := Description(theme, interview);
    var h := FormatHypothesesForPrompt(theme.hypotheses);
    var bg := Background(text, theme, interview, research);
    var bh := BeforeHypotheses(text, theme, interview, research);
    var bs := BeforeSessions(text, theme, interview, research);
    var after := AfterSessions(text, theme.title);
    ReportHeaderInPrompt(text, theme, sessionData, interview, research);
    ContainsMiddle(bs, sessionData, after);
    ContainsMiddle(bh, h, text.sessionsHeading);
    ContainsInPrefix(bs, sessionData, h);
    ContainsInPrefix(bs + sessionData, after, h);
    ContainsMiddle(lead, desc, InterviewAndResearch(interview, research));
    ContainsInPrefix(bg, text.hypothesesHeading, desc);
    ContainsInPrefix(bg + text.hypothesesHeading, theme.title, desc);
    ContainsInPrefix(bg + text.hypothesesHeading + theme.title, text.hypothesesIntro, desc);
    ContainsInPrefix(bh, h, desc);
    ContainsInPrefix(bh + h, text.sessionsHeading, desc);
    ContainsInPrefix(bs, sessionData, desc);
    ContainsInPrefix(bs + sessionData, after, desc);
  }
}

=== FILE: Types.dfy ===
/**
 * The records shared by the batch report generator: theme configuration,
 * hypotheses, interview sessions and their messages, and the optional
 * external research document.
 *
 * JavaScript's `x || ''` idiom treats an absent string and an empty one
 * alike, so optional string fields are plain strings here, with "" standing
 * for "absent".  A session number is `Option<int>`: `None` stands for both
 * `undefined` and the `NaN` that `parseInt` yields on a non-numeric cell,
 * which every consumer in the core treats alike (falsy, never equal to a
 * digit string).
 */
module Types {

  datatype Option<+T> = None | Some(value: T) {
    function GetOr(default: T): T {
      match this
      case Some(v) => v
      case None => default
    }
  }

  datatype Priority = High | Medium | Low

  /** A pre-declared claim the report must evaluate; list order is significant. */
  datatype Hypothesis = Hypothesis(id: string, category: string, description: string, priority: Priority)

  datatype AnalysisDepth = Basic | Detailed | Comprehensive

  datatype ThemeConfig = ThemeConfig(
    slug: string,
    title: string,
    description: string,
    hypotheses: seq<Hypothesis>,
    contextKeywords: seq<string>,
    analysisDepth: AnalysisDepth)

  /** One interview session as read from the sessions table. */
  datatype InterviewSession = InterviewSession(
    id: string,
    configSlug: string,
    userId: string,
    status: string,
    createdAt: string,
    updatedAt: string,
    sessionNumber: Option<int>)

  /**
   * One message.  The loader casts the role column without checking it, so
   * the role is any string; "user" and "assistant" are the expected values.
   */
  datatype Message = Message(
    id: string,
    sessionId: string,
    role: string,
    content: string,
    timestamp: string,
    tokenCount: Option<nat>)

  /** The normalised external research document the prompt composer consumes. */
  datatype DeepResearch = DeepResearch(
    title: string,
    summary: string,
    keyFindings: seq<string>,
    fullContent: string)

  /** A session number is truthy in JavaScript when present and non-zero. */
  predicate HasTruthyNumber(s: InterviewSession) {
    s.sessionNumber.Some? && s.sessionNumber.value != 0
  }
}
